=== FILE: README.md ===
# Igreja Eclesia — a verified model of the church-management application

Igreja Eclesia is a church-management web application. An Express server keeps
members, events, courses with their lessons, study materials and prayer requests
in a PostgreSQL database through Drizzle. A React client has two areas:

- an administrators' area, which manages members, courses, materials, prayer
  requests and visitors and shows member statistics;
- a members' area, which shows a dashboard, courses, videos, schedules, visitors
  and the member's own profile.

This project models the core of both sides in Dafny and proves what each part
promises.

- **Server.**
  - `storage.dfy` models `DatabaseStorage` as a class. It holds one sequence
    per table and one identity counter per table. Its object invariant is what
    the database guarantees: identifiers are unique, e-mail addresses are
    unique, and every lesson refers to an existing course.
  - `analytics.dfy` models the member statistics.
  - `routes.dfy` models the two middlewares, the route table and the handlers
    that carry decisions.
  - `server_log.dfy` models the request log, the error handler and the port
    choice of `server/index.ts`.
  - `js_number.dfy` models `parseInt`: with radix 10 as it reads the port,
    and with no radix (where "0x" selects hexadecimal) as it reads the ids in
    request paths.
  - `schema.dfy` models the rows, the insert payloads and the validation
    schemas of `shared/schema.ts`.
- **Client.**
  - One module per page or component, named after it.
  - Pages whose handlers update their own state step by step are classes:
    the visitors pages, the leader schedule page, the profile page, the
    layouts and the browser's storage.
  - Pages that only compute what they show are functions with lemmas.
  - `query_client.dfy` models the request helpers.
  - `date_utils.dfy` models the date helper.
  - `youtube.dfy` models the YouTube embed-URL extraction.
- **Shared helpers.** `common.dfy` holds the helpers the modules share:
  - an optional value for `null`/`undefined`;
  - filtering and counting;
  - a stable sort by an integer key;
  - splitting, joining and prefix tests on strings.

Effects the model cannot perform are inputs:

- the clock, the hash function, token signing and verification;
- the password comparison;
- `fetch`;
- date parsing.

## Model

| member | source | states |
|---|---|---|
| Storage.SetAdmin | server/storage.ts:83-89 | the users table after the update: the row with that id gets the new flag, every other row is unchanged, the length is kept |
| Storage.SetPrayerStatus | server/storage.ts:179-185 | the prayer table after the update: only status and visibility of the matching rows change, ids and every other row are kept |
| Storage.SetAdminKeepsKeys | server/storage.ts:83-89 | changing the admin flag keeps the user ids distinct and below the counter and the e-mails distinct |
| Storage.SetPrayerStatusKeepsKeys | server/storage.ts:179-185 | changing a request's status keeps the prayer table's invariant |
| Storage.UpdatedPrayerReturned | server/storage.ts:179-185 | the row `returning` yields is the updated request with the new status and visibility, and there is none exactly when no request had that id |
| Storage.SetAdminFinds | server/storage.ts:83-89 | after the update a user with that id exists exactly when one existed before, and it carries the new flag |
| Storage.DatabaseStorage.constructor | server/storage.ts:57 | every table starts empty and the invariant holds |
| Storage.DatabaseStorage.GetUserByEmail | server/storage.ts:59-62 | returns a stored user with that e-mail, and null exactly when no user has it |
| Storage.DatabaseStorage.GetUserById | server/storage.ts:78-81 | returns a stored user with that id, and null exactly when no user has it |
| Storage.DatabaseStorage.GetAllUsers | server/storage.ts:74-76 | returns the users table |
| Storage.DatabaseStorage.CreateUser | server/storage.ts:64-71 | a taken e-mail is rejected by the unique column and the table is unchanged; otherwise the user is appended with the next id and the hashed password; either way the identity column has used up one id; the invariant is kept |
| Storage.DatabaseStorage.UpdateUserAdmin | server/storage.ts:83-89 | the table becomes `SetAdmin` of the old one; the returned row has that id and the new flag; nothing is returned exactly when no user had that id |
| Storage.DatabaseStorage.DeleteUser | server/storage.ts:91-93 | removes every user with that id and keeps the others in order |
| Storage.DatabaseStorage.GetMemberAnalytics | server/storage.ts:192-267 | total count; six age-group counts, each the number of members in that group; the top-ten neighbourhood and profession tallies; the number of members created since the cut-off |
| Storage.DatabaseStorage.GetAllEvents | server/storage.ts:96-98 | the events as a permutation sorted by date |
| Storage.DatabaseStorage.GetPublicEvents | server/storage.ts:100-102 | the same query as the full listing: all events sorted by date |
| Storage.DatabaseStorage.CreateEvent | server/storage.ts:104-107 | appends the event with the next id and returns it |
| Storage.DatabaseStorage.DeleteEvent | server/storage.ts:109-111 | removes the events with that id and keeps the rest in order |
| Storage.DatabaseStorage.GetAllCourses | server/storage.ts:114-116 | returns the courses table |
| Storage.DatabaseStorage.GetCourseById | server/storage.ts:118-121 | returns the course with that id, and null exactly when there is none |
| Storage.DatabaseStorage.CreateCourse | server/storage.ts:123-126 | appends the course with the next id and returns it |
| Storage.DatabaseStorage.DeleteCourse | server/storage.ts:128-131 | deletes the course's lessons first, then the course; no lesson of it and no course with that id remain; the invariant holds |
| Storage.DatabaseStorage.GetLessonsByCourseId | server/storage.ts:134-138 | exactly the course's lessons, as a permutation of them, sorted by `ordem` |
| Storage.DatabaseStorage.CreateLesson | server/storage.ts:140-143 | a lesson naming no existing course is refused by the foreign key and the table is unchanged; otherwise it is appended with the next id; either way the identity column has used up one id |
| Storage.DatabaseStorage.DeleteLesson | server/storage.ts:145-147 | removes the lessons with that id |
| Storage.DatabaseStorage.GetAllMaterials | server/storage.ts:150-152 | returns the materials table |
| Storage.DatabaseStorage.CreateMaterial | server/storage.ts:154-157 | appends the material with the next id and returns it |
| Storage.DatabaseStorage.DeleteMaterial | server/storage.ts:159-161 | removes the materials with that id |
| Storage.DatabaseStorage.GetAllPrayerRequests | server/storage.ts:164-166 | all requests as a permutation sorted by creation time |
| Storage.DatabaseStorage.GetPublicPrayerRequests | server/storage.ts:168-172 | exactly the public requests, sorted by creation time |
| Storage.DatabaseStorage.CreatePrayerRequest | server/storage.ts:174-177 | appends the request with the next id and returns it |
| Storage.DatabaseStorage.UpdatePrayerRequestStatus | server/storage.ts:179-185 | the table becomes `SetPrayerStatus` of the old one and the result is the first row with that id, if any |
| Storage.DatabaseStorage.DeletePrayerRequest | server/storage.ts:187-189 | removes the requests with that id |
| Storage.SameKeysTable | server/storage.ts:83-89 | rewriting rows without changing their ids keeps a table's invariant |
| Storage.CascadeKeepsTables | server/storage.ts:128-131 | deleting a course and its lessons keeps both tables valid and every remaining lesson pointing to a remaining course |
| Storage.CascadeKeepsReferences | server/storage.ts:128-131 | after the cascade every lesson still refers to an existing course |
| Storage.CountAgeGroups | server/storage.ts:198-220 | the loop over the members leaves counter g equal to the number of members in age group g |
| Storage.CountNeighborhoods | server/storage.ts:228-233 | the loop builds the first-seen-order tally of the members' neighbourhoods |
| Storage.CountProfessions | server/storage.ts:241-246 | the loop builds the first-seen-order tally of the members' professions |
| Storage.DeleteCourseThenList | server/storage.ts:128-138 | after deleting a course, listing its lessons yields nothing |
| Analytics.AgeGroup | server/storage.ts:211-218 | the chain of ranges: a group exactly from 18 up, and each group exactly its range (18-25, 26-35, 36-45, 46-55, 56-65, 66+) |
| Analytics.AgeGroupOf | server/storage.ts:209-218 | a member gets a group only with a birth date and an age of 18 or more |
| Analytics.AgeGroupCounts | server/storage.ts:198-220 | always six counters |
| Analytics.AgeGroupCountsExact | server/storage.ts:198-220 | counter g is the number of members whose age falls in group g |
| Analytics.AgeGroupCountsTotal | server/storage.ts:198-220 | the counters add up to the members with a group, so never more than all members |
| Analytics.AgeGroupCountsStep | server/storage.ts:208-219 | one more member adds one to the total exactly when it has a group |
| Analytics.SumOfZeros | server/storage.ts:198-205 | the initial counters add up to zero |
| Analytics.SumIncrement | server/storage.ts:213-218 | one `++` raises the sum by one |
| Analytics.Labelled | server/storage.ts:222-225 | `Object.entries` of the counters: the six labels in order with their counts |
| Analytics.KeysOf | server/storage.ts:235-236 | the keys of the entries, position by position |
| Analytics.Bump | server/storage.ts:231 | `counts[k] = (counts[k] or 0) + 1`: k's count rises by one, the others stay, a new key is appended, the total rises by one |
| Analytics.Tally | server/storage.ts:228-233 | distinct keys, each a value of the input with its number of occurrences, all positive, summing to the input's length |
| Analytics.BumpKeepsDistinct | server/storage.ts:231 | a bump never duplicates a key |
| Analytics.TallyAppend | server/storage.ts:229-233 | tallying one more value is one bump |
| Analytics.EntryCount | server/storage.ts:235-236 | with distinct keys, an entry's count is the count found by its key |
| Analytics.TopTen | server/storage.ts:235-238 | at most ten entries, fewer only when the tally is shorter |
| Analytics.TopTenProperties | server/storage.ts:235-238 | non-increasing counts, entries taken from the tally, every omitted entry counts no more than every kept one, nothing omitted from a tally of ten or fewer |
| Analytics.TopTenOrdered | server/storage.ts:237 | the list is in non-increasing count order |
| Analytics.TopTenKeepsLargest | server/storage.ts:237-238 | an entry left out counts no more than any entry kept |
| Analytics.TopTenOfTally | server/storage.ts:228-238 | for a tally: at most ten entries in non-increasing order, each with its key's true count, and no value left out that occurs more often than a listed one |
| Analytics.TopTenEntriesExact | server/storage.ts:228-238 | every listed entry is a value of the input with its exact occurrence count |
| Analytics.TopTenMissesNoLarger | server/storage.ts:228-238 | a value not listed occurs no more often than any listed one, and with ten or fewer distinct values all are listed |
| Analytics.UnlistedKey | server/storage.ts:235-238 | an entry whose key is not listed is not in the list |
| Analytics.TallyEntry | server/storage.ts:228-233 | every value of the input has an entry holding its number of occurrences |
| Analytics.Neighborhoods | server/storage.ts:229-233 | the neighbourhoods counted: exactly the members' non-empty `bairro` values |
| Analytics.Professions | server/storage.ts:242-246 | the professions counted: exactly the members' non-empty `profissao` values |
| Analytics.NeighborhoodsAppend | server/storage.ts:229-233 | one more member adds its neighbourhood when it has one |
| Analytics.ProfessionsAppend | server/storage.ts:242-246 | one more member adds its profession when it has one |
| Analytics.RecentCountBounded | server/storage.ts:254-258 | the recent count is at most the member count and counts exactly the members created at or after the cut-off |
| Routes.WithoutPassword | server/routes.ts:58 | the user without its password keeps id, e-mail, name and admin flag |
| Routes.StripRestore | server/routes.ts:58 | putting the password back restores the user: stripping loses nothing else |
| Routes.StripHidesPassword | server/routes.ts:58 | two users that differ only in the password look the same to clients |
| Routes.MapWithoutPassword | server/routes.ts:116 | the member list strips each user, position by position |
| Routes.BearerToken | server/routes.ts:12-13 | `authHeader.split(' ')[1]` when truthy: a token is non-empty and has no space, and none is found without a non-empty header |
| Routes.BearerTokenRoundTrip | server/routes.ts:12-13 | the header `Bearer <token>` yields the token back |
| Routes.SchemeWithoutToken | server/routes.ts:12-16 | `Bearer`, `Bearer ` and a missing header carry no token |
| Routes.Authenticate | server/routes.ts:11-26 | 401 exactly without a token, 403 exactly when verification fails, otherwise continues with the token's user id |
| Routes.RequireAdmin | server/routes.ts:29-38 | continues exactly for an existing administrator, otherwise 403 |
| Routes.AdminRoute | server/routes.ts:113 | an admin route is under `/api/admin/` and runs both middlewares |
| Routes.AdminRoutesGuarded | server/routes.ts:113-340 | every admin route runs authentication and then the admin check |
| Routes.OtherRoutesOutsideAdmin | server/routes.ts:42-110 | the public and member routes are outside `/api/admin/` and never run the admin check |
| Routes.RouteGuards | server/routes.ts:42-340 | a route is under `/api/admin/` exactly when it runs the admin check; public routes run no middleware |
| Routes.RunChain | server/routes.ts:11-38 | the handler is reached with no middleware, with a valid token on member routes, and with a valid token of an administrator on admin routes; otherwise the first failing middleware's response |
| Routes.Login | server/routes.ts:42-67 | a malformed body gets 400; an unknown e-mail and a wrong password get the same 401; 200 exactly when a user with that e-mail has a matching password, and then the session holds that user without its password and its token |
| Routes.ListMembers | server/routes.ts:113-122 | 200 with every user, passwords stripped |
| Routes.CreateMember | server/routes.ts:124-143 | 400 for a malformed body and for a taken e-mail, with the users and the id counter unchanged (the e-mail is looked up before any insert); otherwise 201 with the stored user without password, one id used; other tables untouched |
| Routes.ToggleAdmin | server/routes.ts:145-157 | the path id is read by the radix-free `parseInt` ("0x5" is 5); an id it reads as NaN ends in 500 with nothing changed; otherwise the flag is set on that id; an unknown id ends in 500 with nothing changed; a known one in 200 with the user and its new flag |
| Routes.SetAdminMissing | server/routes.ts:145-157 | an update naming no user changes nothing |
| Routes.DeleteMember | server/routes.ts:159-168 | the path id is read by the radix-free `parseInt` ("0x5" is 5); an id read as NaN ends in 500 with nothing deleted; otherwise 204 whether or not the user existed, and the user is gone |
| Routes.CreateLessonHandler | server/routes.ts:197-209 | 400 for a malformed body, with nothing stored and no id used; 500 for a lesson naming no course, nothing stored but one id used up; otherwise 201 with the stored lesson |
| Routes.CreatePrayerHandler | server/routes.ts:285-297 | no token needed; 400 for a malformed body; otherwise 201 with the stored request (its status is the assumed default "pending", see "## Left out") |
| Routes.UpdatePrayerHandler | server/routes.ts:319-329 | the path id is read by the radix-free `parseInt` ("0x5" is 5); an id read as NaN ends in 500 with nothing changed; otherwise the update is applied and the answer is 200, with an empty body exactly when no request had that id and the updated request otherwise |
| Schema.NewUser | shared/schema.ts:7-19 | the stored user takes the payload's name, e-mail, birth date, profession, address, neighbourhood and city, the identity id, the creation time and the hashed password; `isAdmin` is the payload's, false when absent |
| Schema.NewEvent | shared/schema.ts:22-30 | the stored event takes the payload's title, description, date, place and image, the identity id and the creation time |
| Schema.NewCourse | shared/schema.ts:33-39 | the stored course takes the payload's name, description and image, the identity id and the creation time |
| Schema.NewLesson | shared/schema.ts:42-50 | the stored lesson takes the payload's course, title, description and video URL, the identity id and the creation time; `ordem` is the payload's, 0 when absent |
| Schema.NewMaterial | shared/schema.ts:53-60 | the stored material takes the payload's title, description and file URL, the identity id and the creation time; `tipo` is the payload's, "pdf" when absent |
| Schema.NewPrayerRequest | server/storage.ts:174-177 | the inserted row takes the payload's name, e-mail and text, the identity id and the creation time; its status and visibility are the assumed column defaults listed under "## Left out" |
| Schema.CheckInsertUser | shared/schema.ts:75-82 | a user payload passes exactly when the name has at least 2 characters, the password at least 6 and the e-mail is valid; each failing rule is reported |
| Schema.CheckLogin | shared/schema.ts:105-108 | credentials pass exactly with a valid e-mail and a non-empty password; each failing rule is reported |
| Schema.InsertUserPasswordPassesLogin | shared/schema.ts:75-108 | any e-mail and password accepted for a new user also pass the login schema |
| ServerLog.LogLine | server/index.ts:56-59 | the line starts with "METHOD path status in ", followed by the duration's decimal digits and "ms"; it ends there without a captured body and with " :: " and the body otherwise |
| ServerLog.LogDurationReadsBack | server/index.ts:56 | the digits between "in " and "ms" parse back to the duration |
| ServerLog.ShouldLog | server/index.ts:55 | a path is logged exactly when its first four characters are "/api", so "/apidocs" is logged too |
| ServerLog.ApiPathsLogged | server/index.ts:55 | every path extending "/api" is logged |
| ServerLog.Truncate | server/index.ts:61-63 | at most 80 characters; a short line is kept; a long one becomes its first 79 characters and an ellipsis |
| ServerLog.TruncateIdempotent | server/index.ts:61-63 | truncating twice equals truncating once |
| ServerLog.LogOnFinish | server/index.ts:53-67 | logs exactly for paths under "/api", and the logged line is the truncated line, so at most 80 characters |
| ServerLog.ErrorStatus | server/index.ts:87 | `err.status`, else `err.statusCode`, else 500; never 0 |
| ServerLog.ErrorMessage | server/index.ts:88 | the error's message, else "Internal Server Error"; never empty |
| JsNumber.TrimStart | server/index.ts:101 | the suffix of the text left after removing its leading white space, every removed character being JavaScript white space (the Unicode spaces, no-break space and byte-order mark included) |
| JsNumber.DigitPrefix | server/index.ts:101 | the longest prefix made of decimal digits |
| JsNumber.DigitValue | server/index.ts:101 | one decimal digit's value, below 10 |
| JsNumber.ParseInt | server/index.ts:101 | `parseInt(s, 10)` is NaN exactly when no digit follows the leading JavaScript white space and the sign |
| ServerLog.Port | server/index.ts:101 | the PORT variable parsed, or "5000" when it is unset or empty |
| JsNumber.NatToStringValue | server/index.ts:101 | the decimal digits of a number denote that number |
| JsNumber.DigitPrefixAll | server/index.ts:101 | a text made of digits is its own digit prefix |
| JsNumber.ParseDigits | server/index.ts:101 | a non-empty run of digits parses to the number it denotes |
| JsNumber.ParseIntSkipsWhitespace | server/index.ts:101 | leading white space of any JavaScript kind, U+00A0 and U+FEFF included, does not change what `parseInt` reads |
| JsNumber.TrimStartSkips | server/index.ts:101 | trimming a text behind white space gives what trimming the text alone gives |
| JsNumber.ParseIntRoundTrip | server/index.ts:101 | `parseInt` with radix 10 reads the decimal text of n back as n; that text is what `String(n)` prints for an integer below 10^21, so a numeric PORT is read as written |
| JsNumber.ParseNegativeRoundTrip | server/index.ts:101 | a negative number's text parses back to it |
| JsNumber.ParseNegativeNat | server/index.ts:101 | a minus sign and the digits of m parse to -m |
| JsNumber.ParseMinus | server/index.ts:101 | a minus sign before an unsigned number negates what parses |
| JsNumber.HexDigitValue | server/routes.ts:147 | a hexadecimal digit of either case is below 16; a decimal digit keeps its value and a letter is at least 10 |
| JsNumber.HexPrefix | server/routes.ts:147 | the longest prefix made of hexadecimal digits |
| JsNumber.ParseIntAuto | server/routes.ts:147 | `parseInt(s)` with no radix: without a "0x"/"0X" after the sign it is `parseInt(s, 10)`; with one it is NaN exactly when no hexadecimal digit follows |
| JsNumber.ParseIntAutoRoundTrip | server/routes.ts:147 | the decimal text of n (what `String(n)` prints below 10^21, every id the tables issue included) never starts with "0x" and reads back as n, so an id written into a request path is the id the handler acts on |
| JsNumber.ParseIntAutoHex | server/routes.ts:147 | "0x" followed by hexadecimal digits reads as the number they denote |
| JsNumber.HexPrefixAll | server/routes.ts:147 | a text made of hexadecimal digits is its own hexadecimal prefix |
| JsNumber.HexIdDiffers | server/routes.ts:147 | a path id "0x" and one hexadecimal digit is that digit's value ("0x5" is 5), where radix 10 would read 0 |
| JsNumber.BareHexPrefix | server/routes.ts:147 | a path id "0x" not followed by a hexadecimal digit (a bare "0x" among them) is NaN, where radix 10 would read 0 |
| JsNumber.LeadingZeroDecimal | server/index.ts:101 | with radix 10, a text starting "0x" reads as 0 |
| ServerLog.PortRoundTrip | server/index.ts:101 | a PORT holding a number's digits gives that number |
| ServerLog.PortDefault | server/index.ts:101 | without PORT the server listens on 5000 |
| ServerLog.PortNotANumber | server/index.ts:101 | a PORT starting with anything but a digit, a sign or white space gives NaN |
| QueryClient.ResponseError | client/src/lib/queryClient.ts:3-8 | an error exactly for a status outside 200-299; its message is "status: " followed by the body text, or by the status text when the body is empty |
| QueryClient.IntToStringNoColon | client/src/lib/queryClient.ts:6 | a status printed as a number contains no ':' |
| QueryClient.ErrorMessageNamesStatus | client/src/lib/queryClient.ts:6 | the text before the first ':' of an error message is the status |
| QueryClient.Authorization | client/src/lib/queryClient.ts:18 | a stored token adds "Authorization: Bearer token"; without one there is no header |
| QueryClient.ApiRequestFor | client/src/lib/queryClient.ts:10-26 | the request has the verb, the URL and the body; a JSON content type exactly when there is data; the bearer header exactly with a token |
| QueryClient.SentTokenIsExtracted | client/src/lib/queryClient.ts:18 | the server's middleware reads back exactly the token the client sent |
| QueryClient.ApiRequest | client/src/lib/queryClient.ts:10-36 | a response that is not ok becomes its error; 204 gives nothing; any other ok response is parsed, or rejected when its body is not JSON; never null |
| QueryClient.UploadError | client/src/lib/queryClient.ts:51-54 | the upload error message: the body's message, else "Failed to upload file", or "An unknown error occurred" for a body that is not JSON; never empty |
| QueryClient.ApiUpload | client/src/lib/queryClient.ts:38-57 | a POST of the form with only the bearer header; an error message for a failed response; the parsed body for an ok one, or the rejection when that body is not JSON |
| QueryClient.QueryUrl | client/src/lib/queryClient.ts:70 | a one-element key is its own URL |
| QueryClient.QueryUrlExtends | client/src/lib/queryClient.ts:70 | a key one element longer names a sub-path of the shorter key's URL |
| QueryClient.QueryRequest | client/src/lib/queryClient.ts:65-73 | a GET of the key's URL with no body, no content type and the bearer header exactly with a token |
| QueryClient.QueryFn | client/src/lib/queryClient.ts:59-81 | with "returnNull" a 401 gives null; any other failed response is an error; an ok one is parsed, or rejected when its body is not JSON; null only under "returnNull" |
| DateUtils.PadStart | client/src/lib/dateUtils.ts:20-21 | the text padded with leading zeros to the width, ending with the original |
| DateUtils.TwoDigits | client/src/lib/dateUtils.ts:20-21 | a number below 100 as exactly two decimal digits that read back as the number |
| DateUtils.PaddedDigits | client/src/lib/dateUtils.ts:20-21 | `padStart(2, '0')` of a number below 100: a '0' then the digit for one digit, the tens then the units digit otherwise |
| DateUtils.DateText | client/src/lib/dateUtils.ts:19-22 | the year as `String` prints it, a dash, two digits reading back as the month counted from 1, a dash and two digits reading back as the day; ten characters with dashes at 4 and 7 for a four-digit year; never a 'T' |
| DateUtils.FourDigitYear | client/src/lib/dateUtils.ts:19 | a year from 1000 to 9999 prints as four characters |
| DateUtils.DateFields | client/src/lib/dateUtils.ts:22 | joining a year text and two two-digit fields with dashes puts each field where the date text expects it |
| DateUtils.DateTextDetermined | client/src/lib/dateUtils.ts:19-22 | the year, month and day fix the text: two texts with the same fields are equal |
| DateUtils.NoLetterInTwoDigits | client/src/lib/dateUtils.ts:20-21 | two digits contain no 'T' |
| DateUtils.NoLetterInConcat | client/src/lib/dateUtils.ts:22 | joining parts without 'T' with dashes gives no 'T' |
| DateUtils.NoLetterInNumber | client/src/lib/dateUtils.ts:19 | a printed year contains no 'T' |
| DateUtils.FormatDateForInput | client/src/lib/dateUtils.ts:13-23 | a text date is cut before its first 'T'; a calendar date is the year, then the month counted from 1 and the day, each two digits reading back as that number, joined by dashes; the result never contains 'T' |
| DateUtils.FormatTextIdempotent | client/src/lib/dateUtils.ts:14-17 | formatting a formatted text again changes nothing |
| DateUtils.FormatDateThenText | client/src/lib/dateUtils.ts:13-23 | a formatted calendar date passes through the text branch unchanged |
| YouTube.IdRun | client/src/pages/member-courses.tsx:35 | the `[^&]+` group: the longest prefix without '&', stopping at the first '&' |
| YouTube.MatchHere | client/src/pages/member-courses.tsx:35 | a match at this position is one of the two prefixes followed by a non-empty id without '&' |
| YouTube.VideoId | client/src/pages/member-courses.tsx:35 | a found id is non-empty, has no '&' and follows one of the two prefixes in the link |
| YouTube.EmbedUrl | client/src/pages/member-courses.tsx:34-37 | the embed URL for the found id, the link itself when there is none |
| YouTube.NoPrefixUnchanged | client/src/pages/member-videos.tsx:24-27 | a link with neither prefix is returned unchanged |
| YouTube.NoPrefixNoId | client/src/pages/member-videos.tsx:25 | a link with neither prefix has no id |
| YouTube.WatchLink | client/src/pages/member-courses.tsx:34-37 | "youtube.com/watch?v=ID" followed by nothing or by "&..." embeds exactly ID |
| YouTube.ShortLink | client/src/pages/member-courses.tsx:34-37 | "youtu.be/ID" followed by nothing or by "&..." embeds exactly ID |
| YouTube.IdRunStops | client/src/pages/member-courses.tsx:35 | the id run stops exactly at the first '&' |
| YouTube.SkipLead | client/src/pages/member-courses.tsx:35 | leading characters where no match starts do not change the result: the search finds the leftmost match |
| YouTube.HostedWatchLink | client/src/pages/member-videos.tsx:24-27 | a watch link after a scheme and host without 'y', such as "https://www.", embeds its id |
| YouTube.HostedShortLink | client/src/pages/member-videos.tsx:24-27 | a short link after a scheme without 'y', such as "https://", embeds its id |
| YouTube.HostSkipped | client/src/pages/member-courses.tsx:35 | text without 'y' before the link is skipped by the search |
| YouTube.NoMatchWithoutY | client/src/pages/member-courses.tsx:35 | no match starts at a character other than 'y' |
| AdminMembers.FilteredMembers | client/src/pages/admin-members.tsx:120-126 | the members, in order, whose name or e-mail contains the search term ignoring case and who pass both the neighbourhood and the profession filter |
| AdminMembers.NoFilterKeepsAll | client/src/pages/admin-members.tsx:120-126 | an empty search with no filter lists every member |
| AdminMembers.BairroFilterExact | client/src/pages/admin-members.tsx:123 | a neighbourhood filter keeps only members of that neighbourhood |
| AdminMembers.Dedupe | client/src/pages/admin-members.tsx:128-129 | `Array.from(new Set(xs))`: the same values, each once |
| AdminMembers.FirstAt | client/src/pages/admin-members.tsx:128-129 | the index of a value's first occurrence |
| AdminMembers.FirstAtPrefix | client/src/pages/admin-members.tsx:128-129 | appending a value moves no first occurrence |
| AdminMembers.FirstAtAppended | client/src/pages/admin-members.tsx:128-129 | a new value first occurs where it is appended |
| AdminMembers.DedupeFirstOccurrenceOrder | client/src/pages/admin-members.tsx:128-129 | the distinct values come in the order of their first occurrences, as a Set iterates |
| AdminMembers.PresentTexts | client/src/pages/admin-members.tsx:128-129 | `.filter(Boolean)`: exactly the present, non-empty texts, position by position the values of the entries the filter keeps, in order |
| AdminMembers.PresentTextsMembers | client/src/pages/admin-members.tsx:128-129 | a text is among the present texts exactly when some entry holds it and it is not empty |
| AdminMembers.PresentTextsTail | client/src/pages/admin-members.tsx:128-129 | a text the first entry does not hold is among the rest's present texts, one place further back when the first entry is kept |
| AdminMembers.FirstIndex | client/src/pages/admin-members.tsx:128-129 | the index of the first entry holding a value, or the length when none does |
| AdminMembers.PresentTextsFirstOrder | client/src/pages/admin-members.tsx:128-129 | a text that first occurs earlier among the present texts first occurs earlier among the entries |
| AdminMembers.UniquePresent | client/src/pages/admin-members.tsx:128-129 | `Array.from(new Set(vs.filter(Boolean)))`: every present text once, ordered by the entry where it first occurs |
| AdminMembers.DedupeThenFirstOrder | client/src/pages/admin-members.tsx:128-129 | the distinct present texts come in the order of their first entries |
| AdminMembers.BairrosHeld | client/src/pages/admin-members.tsx:128 | the neighbourhood values listed are those some member has |
| AdminMembers.ProfissoesHeld | client/src/pages/admin-members.tsx:129 | the profession values listed are those some member has |
| AdminMembers.Bairros | client/src/pages/admin-members.tsx:128 | each member's neighbourhood, position by position |
| AdminMembers.Profissoes | client/src/pages/admin-members.tsx:129 | each member's profession, position by position |
| AdminMembers.UniqueBairros | client/src/pages/admin-members.tsx:128 | each non-empty neighbourhood some member has, exactly once, in the order of the first member holding each |
| AdminMembers.UniqueProfissoes | client/src/pages/admin-members.tsx:129 | each non-empty profession some member has, exactly once, in the order of the first member holding each |
| AdminMembers.CsvRow | client/src/pages/admin-members.tsx:133-141 | seven fields in the header's order: name, e-mail, then birth date, profession, city and neighbourhood each as given when non-empty and '' otherwise, then "Sim" or "Não" for the admin flag |
| AdminMembers.CsvLines | client/src/pages/admin-members.tsx:132-143 | the header line, then one comma-joined line per member, in order |
| AdminMembers.Csv | client/src/pages/admin-members.tsx:143 | the file opens with the header line: alone for an empty list, followed by a newline otherwise |
| AdminMembers.CsvReadsBack | client/src/pages/admin-members.tsx:131-143 | when no field holds a comma or a newline, splitting the file by lines and commas gives back the header and every member's row |
| AdminMembers.HeaderReadsBack | client/src/pages/admin-members.tsx:132 | the header line splits back into the seven headers |
| AdminMembers.LinesAvoidNewline | client/src/pages/admin-members.tsx:143 | no line holds a newline when no field does |
| AdminMembers.HeaderLineAvoidsNewline | client/src/pages/admin-members.tsx:132 | the header line holds no newline |
| AdminMembers.ToggleAdmin | client/src/pages/admin-members.tsx:370 | the toggle asks for the opposite of the member's current flag |
| AdminPrayers.StatusBadge | client/src/pages/admin-prayers.tsx:46-54 | "Aprovado" for approved, "Arquivado" for archived, and the pending badge for pending and for any unknown status |
| AdminPrayers.Actions | client/src/pages/admin-prayers.tsx:108-158 | a pending row offers approve-public and approve-private; an approved row offers archive-private; every row ends with delete; each change moves one step along the workflow, and only approval can make a request public |
| AdminPrayers.Stage | client/src/pages/admin-prayers.tsx:108-158 | the workflow order of a status: pending first, then approved, then archived (any other status counts as the last step) |
| AdminPrayers.NoWayBack | client/src/pages/admin-prayers.tsx:108-158 | every row can be deleted and no button leads back to pending |
| AdminPrayers.WorkflowEnds | client/src/pages/admin-prayers.tsx:108-158 | two status changes in a row take a pending request to archived, after which only delete remains |
| AdminPrayers.ButtonKeepsPublicApproved | client/src/pages/admin-prayers.tsx:20-23 | after any button the stored row is public only if approved, archiving hides it, and no other row changes |
| AdminVisitors.WithForm | client/src/pages/admin-visitors.tsx:53 | `{ ...form, id }` has that id |
| AdminVisitors.FormRoundTrip | client/src/pages/admin-visitors.tsx:53-62 | a visitor is its form plus its id: the form survives the trip and a visitor is rebuilt from its own form |
| AdminVisitors.MaxId | client/src/pages/admin-visitors.tsx:56 | `Math.max(0, ...ids)`: not negative, at least every id, and 0 or one of the ids |
| AdminVisitors.NextId | client/src/pages/admin-visitors.tsx:56 | the new id is at least 1 and larger than every id in the list |
| AdminVisitors.ReplaceById | client/src/pages/admin-visitors.tsx:53 | the rows with that id become the form with that id; the others are unchanged |
| AdminVisitors.ToggleById | client/src/pages/admin-visitors.tsx:69 | the rows with that id have their flag flipped; the others are unchanged |
| AdminVisitors.ToggleTwice | client/src/pages/admin-visitors.tsx:68-70 | toggling the same visitor twice restores the list |
| AdminVisitors.InitialVisitorsValid | client/src/pages/admin-visitors.tsx:11-28 | the initial visitors have distinct positive ids |
| AdminVisitors.UpdatesKeepIds | client/src/pages/admin-visitors.tsx:52-70 | editing and toggling keep the ids distinct and positive |
| AdminVisitors.KeepsIds | client/src/pages/admin-visitors.tsx:53 | a row-by-row rewrite that keeps each id keeps the ids distinct and positive |
| AdminVisitors.AdminVisitorsPage.constructor | client/src/pages/admin-visitors.tsx:31-39 | the page starts with the two initial visitors, an empty form and no visitor being edited |
| AdminVisitors.AdminVisitorsPage.HandleSubmit | client/src/pages/admin-visitors.tsx:49-59 | an incomplete form changes nothing; while editing, the visitor is rewritten and editing ends; otherwise a visitor with the next id is appended; the form is cleared; ids stay distinct |
| AdminVisitors.AdminVisitorsPage.HandleEdit | client/src/pages/admin-visitors.tsx:60-63 | the form takes the visitor's fields and its id becomes the one edited |
| AdminVisitors.AdminVisitorsPage.HandleDelete | client/src/pages/admin-visitors.tsx:64-67 | the visitors with that id go and the rest keep their order; editing ends only if it was that visitor |
| AdminVisitors.AdminVisitorsPage.HandleToggleMembrou | client/src/pages/admin-visitors.tsx:68-70 | the flag of the visitors with that id flips; nothing else changes |
| AdminVisitors.CreateAddsFreshRow | client/src/pages/admin-visitors.tsx:56 | a created visitor adds one row whose id no other row has |
| AdminVisitors.AdminVisitorsPage.Cancel | client/src/pages/admin-visitors.tsx:118 | the cancel button ends editing and clears the form; the list stays |
| MemberVisitors.FormFrom | client/src/pages/member-visitors.tsx:95-104 | handleEdit's form: each text field or '', and the flag true exactly when the row's flag is true |
| MemberVisitors.FindVisitor | client/src/pages/member-visitors.tsx:110 | `visitors.find`: the first fetched visitor with that id, and none exactly when no visitor has it |
| MemberVisitors.TogglePayload | client/src/pages/member-visitors.tsx:112 | the row's four text fields as they are, and the negation of the flag passed in |
| MemberVisitors.MemberVisitorsPage.constructor | client/src/pages/member-visitors.tsx:17-24 | the page starts with an empty form and no visitor being edited |
| MemberVisitors.MemberVisitorsPage.HandleSubmit | client/src/pages/member-visitors.tsx:83-94 | no request exactly for an incomplete form; while editing, an update of that id with the form; otherwise a create with the form |
| MemberVisitors.MemberVisitorsPage.HandleEdit | client/src/pages/member-visitors.tsx:95-104 | the form is built from the row and its id becomes the one edited |
| MemberVisitors.MemberVisitorsPage.HandleDelete | client/src/pages/member-visitors.tsx:105-108 | a delete request for the id; editing ends only if it was that visitor; the form stays |
| MemberVisitors.MemberVisitorsPage.HandleToggleMembrou | client/src/pages/member-visitors.tsx:109-113 | no request exactly when no fetched visitor has the id; otherwise an update of that visitor with the flag negated |
| MemberVisitors.MemberVisitorsPage.CreateSucceeded | client/src/pages/member-visitors.tsx:36-40 | a successful create clears the form and keeps the editing state |
| MemberVisitors.MemberVisitorsPage.Cancel | client/src/pages/member-visitors.tsx:161 | the cancel button ends editing and clears the form |
| MemberVisitors.MemberVisitorsPage.UpdateSucceeded | client/src/pages/member-visitors.tsx:51-56 | a successful update ends editing and clears the form |
| MemberVisitors.ToggleNegatesRow | client/src/pages/member-visitors.tsx:109-113 | the checkbox's update asks for the opposite of what the row shows |
| Courses.LessonRows | client/src/pages/admin-courses.tsx:307-314 | the lesson cards: a permutation of the lessons sorted by `ordem`, numbered 1 to n |
| Courses.ServerOrderKept | client/src/pages/member-courses.tsx:147-159 | lessons already sorted by `ordem`, as the server returns them, keep their order on the page |
| Courses.CreateLessonPayload | client/src/pages/admin-courses.tsx:133-140 | nothing without a selected course; otherwise the form's data with `cursoId` set to the selected course's id and nothing else changed |
| Courses.CreatedLessonBelongsToCourse | client/src/pages/admin-courses.tsx:48-57 | the stored lesson belongs to the selected course whatever the form's `cursoId`, and with the form's defaults its `ordem` is 0 |
| Courses.UserIds | client/src/pages/admin-course-details.tsx:74 | the set of the enrolled users' ids |
| Courses.UsersToEnroll | client/src/pages/admin-course-details.tsx:74-75 | the users, in order, whose id no enrolled user has, and all of them |
| Courses.EnrolledNotOffered | client/src/pages/admin-course-details.tsx:74-75 | once a user is enrolled it is no longer offered |
| Courses.EnrolPartition | client/src/pages/admin-course-details.tsx:74-75 | the offered users and the users with an enrolled id add up to all users |
| Courses.CourseDetails | client/src/pages/admin-course-details.tsx:77-164 | loading while any of the three queries loads; then the student count, the "no students" and "all enrolled" messages exactly for empty lists, and the users offered |
| Courses.AllEnrolledMessage | client/src/pages/admin-course-details.tsx:135-139 | "all enrolled" shows exactly when every user's id is among the enrolled ids |
| Materials.MaterialsOf | client/src/pages/admin-materials.tsx:93-94 | a type's materials: exactly the materials of that type, in list order, as many as there are |
| Materials.TabsPartition | client/src/pages/admin-materials.tsx:93-94 | the PDF and video tabs share no material, add up to at most the header's count, and a material of another type is in neither |
| Materials.TabsCoverAll | client/src/pages/admin-materials.tsx:93-104 | when every material is a PDF or a video, the two tab counts add up to the header's count |
| Materials.SubmitPayload | client/src/pages/admin-materials.tsx:86-91 | the form's data with `tipo` replaced by the selector's type and nothing else changed |
| Materials.SubmittedLandsInTab | client/src/pages/admin-materials.tsx:86-94 | the stored material has the selected type, so it is listed in that type's tab |
| Materials.PlayerSource | client/src/pages/member-videos.tsx:95-105 | no player source exactly until a video is selected; then the embed URL of its id, or the link itself |
| Dashboards.QueryMonth | client/src/pages/member-dashboard.tsx:21 | `getMonth() + 1`: a month from 1 to 12, one past the zero-based index |
| Dashboards.SortedBirthdays | client/src/pages/member-dashboard.tsx:37 | a copy of the birthdays, a permutation of them, sorted by day |
| Dashboards.BirthdayView | client/src/pages/member-dashboard.tsx:38-95 | loading exactly while the query loads; the empty message exactly for no birthdays; otherwise today's block and the other list, both taken from the sorted copy |
| Dashboards.BirthdaySplit | client/src/pages/member-dashboard.tsx:37-95 | today's block holds exactly the birthdays on today's day and the other list exactly the rest; together they hold every birthday once; both stay sorted by day |
| Dashboards.MemberDashboard | client/src/pages/member-dashboard.tsx:144-255 | the course count, the PDF and video counts (which add up to at most the materials), the first three courses and at most four PDFs, each a material of type "pdf" |
| Dashboards.PdfPreviewIsFirstPdfs | client/src/pages/member-dashboard.tsx:253-255 | the PDF preview is the first four PDFs in list order, or all of them when fewer |
| Dashboards.AdminDashboard | client/src/pages/admin-dashboard.tsx:23-84 | members are the users without the admin flag, administrators those with it; the other cards show the list sizes |
| Dashboards.MembersPlusAdmins | client/src/pages/admin-dashboard.tsx:23-24 | every user is counted once, as a member or as an administrator |
| Dashboards.PromotionMovesOne | client/src/pages/admin-dashboard.tsx:23-24 | granting administrator rights to a member moves one person from the member count to the administrator count |
| MemberProfile.CheckEditProfile | client/src/pages/member-profile.tsx:16-26 | the dialog can be saved exactly when the name has at least 2 characters and the e-mail is valid; each failing rule is reported |
| MemberProfile.OptionalFieldsUnchecked | client/src/pages/member-profile.tsx:19-25 | only the name and the e-mail decide the validation; every other field is unchecked |
| MemberProfile.UpdateBody | client/src/pages/member-profile.tsx:104-124 | the body sent: the password left out exactly when it is missing, empty or only white space, else kept; the photo URL replaced by an uploaded one; every other field copied |
| MemberProfile.ResetValues | client/src/pages/member-profile.tsx:57-70 | the dialog after the user loads: the user's name and e-mail, the formatted birth date or '', the profession, address, neighbourhood, city and photo URL each as given when non-empty and '' otherwise, and no password |
| Common.OrEmpty | client/src/pages/member-profile.tsx:63-67 | `value or ""`: the text when present and non-empty, '' otherwise |
| MemberProfile.UntypedPasswordNotSent | client/src/pages/member-profile.tsx:57-70 | saving the dialog without typing a password, or with only spaces, sends none; a typed password is sent as typed |
| MemberProfile.CityLine | client/src/pages/member-profile.tsx:259-268 | the city line shows exactly when there is a city, followed by " - " and the neighbourhood when there is one |
| MemberProfile.MemberProfilePage.constructor | client/src/pages/member-profile.tsx:31-40 | on mount the page shows the stored user, if any, with the dialog closed |
| MemberProfile.MemberProfilePage.OnSubmit | client/src/pages/member-profile.tsx:80-125 | a failed upload stops everything; with no user there is no request ("Usuário não encontrado"); otherwise a PATCH of /api/profile with `UpdateBody` |
| MemberProfile.MemberProfilePage.UpdateSucceeded | client/src/pages/member-profile.tsx:85-92 | the returned user is stored and shown, and the dialog closes |
| Navigation.Browser.constructor | client/src/components/admin-layout.tsx:16-17 | the browser starts with the given stored token, stored user and location |
| Navigation.Browser.Navigate | client/src/components/app-sidebar.tsx:111 | moving to a page changes the location and leaves the stored token and user alone |
| Navigation.Browser.Logout | client/src/components/app-sidebar.tsx:81-85 | logging out forgets the token and the user and goes to the home page |
| Navigation.EscalasItem | client/src/components/app-sidebar.tsx:72-79 | the schedules item leads to the leader's page for a leader and to the member's page otherwise |
| Navigation.MenuItems | client/src/components/app-sidebar.tsx:30-79 | the six fixed pages first; the visitors item exactly for an obreiro, in seventh place; the schedules item exactly for an obreiro or a louvor member, last; every URL in the member area and no URL twice |
| Navigation.Menu | client/src/components/app-sidebar.tsx:30-79 | the six fixed pages, the visitors item in seventh place when added, the schedules item last when added |
| Navigation.MenuTitles | client/src/components/app-sidebar.tsx:63-79 | the menu has a "Visitantes" item exactly when it is added and an "Escalas" item exactly when it is added |
| Navigation.MenuUrls | client/src/components/app-sidebar.tsx:30-79 | every menu URL is a member-area page and the URLs are distinct, so at most one item is active |
| Navigation.AtMostOneActive | client/src/components/app-sidebar.tsx:108-112 | with distinct URLs no two items are active at once |
| Navigation.AdminLink | client/src/components/app-sidebar.tsx:124-134 | the admin link exists exactly for an administrator and is active exactly on pages under "/admin" |
| Navigation.AdminLinkExcludesMenu | client/src/components/app-sidebar.tsx:112-134 | while the admin link is active, no menu item is |
| Navigation.Greeting | client/src/components/app-sidebar.tsx:96-98 | "Olá, " and the name, shown exactly when a non-empty name is passed |
| Navigation.Avatar | client/src/components/app-sidebar.tsx:92 | the photo when a non-empty one is passed, the church logo otherwise |
| Navigation.AdminLayout.constructor | client/src/components/admin-layout.tsx:15-31 | without a token or a stored user: to the login page, nobody admitted; a stored user without the admin flag: to the member area, nobody admitted; an administrator: admitted, location unchanged; storage never changed |
| Navigation.AdminLayout.NavBar | client/src/components/admin-layout.tsx:39-76 | nothing while nobody is admitted; otherwise the seven admin pages in order, each highlighted exactly on its own path |
| Navigation.AdminLayout.Logout | client/src/components/admin-layout.tsx:33-37 | "Sair" forgets the token and the user and goes to the home page |
| Navigation.AdminPathsDistinct | client/src/components/admin-layout.tsx:43-51 | the admin paths are distinct, so at most one button is highlighted |
| Navigation.MemberLayout.constructor | client/src/components/member-layout.tsx:15-25 | without a token or a stored user: to the login page, nobody admitted; otherwise the stored user is admitted, administrators included, location unchanged |
| Navigation.MemberLayout.Props | client/src/components/member-layout.tsx:27-39 | nothing while nobody is admitted; otherwise only the name and the leader flag are passed to the sidebar |
| Navigation.MemberLayout.Sidebar | client/src/components/member-layout.tsx:39 | through this layout the sidebar shows exactly the six fixed pages and never the admin link, even to an administrator |
| Schedules.SchedulesOf | client/src/pages/leader-schedules.tsx:195-196 | a ministry's schedules: exactly the schedules of that type, in list order |
| Schedules.MinistriesPartition | client/src/pages/leader-schedules.tsx:195-196 | the louvor and obreiros lists share no schedule and together hold at most all schedules |
| Schedules.PositionLabel | client/src/pages/member-louvor-schedules.tsx:20-27 | "Teclado", "Violão", "Baixo", "Bateria", "Voz" and "Backing Vocal" for the six known positions; an unknown position shows its own key |
| Schedules.PositionLabelsDistinct | client/src/pages/member-louvor-schedules.tsx:20-27 | no two known positions share a caption |
| LouvorSchedules.MonthAt | client/src/pages/member-louvor-schedules.tsx:71-73 | `new Date(year, month - 1 + i, 1)` always falls in a month from 1 to 12 |
| LouvorSchedules.MonthWindow | client/src/pages/member-louvor-schedules.tsx:70-73 | five months, the k-th being k - 1 months after the selected one |
| LouvorSchedules.MonthAtNext | client/src/pages/member-louvor-schedules.tsx:71-73 | one more month offset is the next calendar month, rolling December over into January of the next year |
| LouvorSchedules.MonthWindowConsecutive | client/src/pages/member-louvor-schedules.tsx:70-73 | the window is five consecutive months with the selected month second |
| LouvorSchedules.JanuaryWindow | client/src/pages/member-louvor-schedules.tsx:70-73 | January's window starts in December of the year before |
| LouvorSchedules.Gathered | client/src/pages/member-louvor-schedules.tsx:80-81 | the gathered list holds only louvor schedules |
| LouvorSchedules.FetchLouvorSchedules | client/src/pages/member-louvor-schedules.tsx:68-84 | the loop's result is the louvor schedules of the five months, month after month, and nothing else |
| LouvorSchedules.CategoryOf | client/src/pages/member-louvor-schedules.tsx:99-108 | upcoming exactly from tomorrow on, today exactly on today, previous exactly in the 29 days before today, and dropped for an invalid date or anything older |
| LouvorSchedules.BucketIsFilter | client/src/pages/member-louvor-schedules.tsx:97-112 | what one pass pushes into a category is the filter of the list by that category |
| LouvorSchedules.Partition | client/src/pages/member-louvor-schedules.tsx:93-112 | after the forEach, each of the three lists is the filter of all schedules by its category, in order |
| LouvorSchedules.Classify | client/src/pages/member-louvor-schedules.tsx:88-119 | the three lists the page shows are the tab lists |
| LouvorSchedules.TabList | client/src/pages/member-louvor-schedules.tsx:114-116 | a tab is a permutation of its category's schedules; upcoming and today are sorted by date, previous latest first; the sort is stable, so schedules of one day keep their fetched order |
| Common.InsertByKeepsTies | client/src/pages/member-louvor-schedules.tsx:114-116 | inserting into a sorted list puts the element ahead of those of equal key and keeps their order |
| Common.SortByStable | client/src/pages/member-louvor-schedules.tsx:114-116 | the sort is stable: for every key, the elements with that key are in the same order as in the input |
| LouvorSchedules.TabsDisjoint | client/src/pages/member-louvor-schedules.tsx:97-116 | no schedule is in two tabs, and each tab holds exactly the schedules whose dates fall in its range |
| LouvorSchedules.CardRows | client/src/pages/member-louvor-schedules.tsx:187-197 | one row per assignment, in order: the position's caption, the assigned user's name or "Vazio", an empty badge exactly without a user and the viewer's badge exactly when the joined user's id is the viewer's |
| LouvorSchedules.RenderScheduleCards | client/src/pages/member-louvor-schedules.tsx:166-214 | the empty message exactly for an empty list; otherwise the first `limit` schedules, and the number hidden exactly when there are more |
| LouvorSchedules.TabLimit | client/src/pages/member-louvor-schedules.tsx:247-253 | 3 cards in the upcoming tab unless "Ver Todas" is on, 999 otherwise |
| LouvorSchedules.TabsShown | client/src/pages/member-louvor-schedules.tsx:226-243 | the today and previous buttons exactly when those lists are non-empty; the "Ver Todas" toggle exactly on the upcoming tab with more than three schedules |
| LouvorSchedules.UpcomingShowsThree | client/src/pages/member-louvor-schedules.tsx:205-248 | with "Ver Todas" off, the upcoming tab shows its first three schedules and how many more there are |
| LeaderSchedules.CheckScheduleForm | client/src/pages/leader-schedules.tsx:40-46 | the form passes exactly when the month is 1 to 12, the year at least 2024 and the ministry louvor or obreiros; each broken rule is reported |
| LeaderSchedules.DefaultForm | client/src/pages/leader-schedules.tsx:62-68 | the defaults: louvor, no date, empty notes, the current month; valid for a month from 1 to 12 and a year from 2024 |
| LeaderSchedules.Chosen | client/src/pages/leader-schedules.tsx:86 | the lookup is undefined exactly for an untouched position, null exactly for one set to nobody, and the chosen id otherwise |
| LeaderSchedules.StoredId | client/src/pages/leader-schedules.tsx:145 | a stored assignment's user id is a number or null, never undefined |
| LeaderSchedules.BodyUserId | client/src/pages/leader-schedules.tsx:91 | `userId` is put in the body exactly when the choice is neither null nor undefined |
| LeaderSchedules.ObreiroPositions | client/src/pages/leader-schedules.tsx:138 | n positions named "obreiro-0" to "obreiro-(n-1)" |
| LeaderSchedules.CreatePositions | client/src/pages/leader-schedules.tsx:96-100 | the six louvor positions for louvor, otherwise exactly "obreiro-0" to "obreiro-3" in that order |
| LeaderSchedules.CreatePlan | client/src/pages/leader-schedules.tsx:84-94 | one POST per position, in order, for the new schedule, carrying a user exactly when one was chosen |
| LeaderSchedules.AtPosition | client/src/pages/leader-schedules.tsx:141 | `find`: the first of the schedule's assignments at that position (none earlier in the list has it), none exactly when there is none |
| LeaderSchedules.UpdateStep | client/src/pages/leader-schedules.tsx:141-156 | an existing assignment is patched exactly when its stored id differs strictly from the choice; a missing one is created exactly when a non-zero id was chosen |
| LeaderSchedules.UpdatePlan | client/src/pages/leader-schedules.tsx:140-157 | at most one request per position; patches only of existing assignments; posts only at positions without one, with a non-zero user |
| LeaderSchedules.UpdatePositions | client/src/pages/leader-schedules.tsx:135-138 | the six louvor positions, or one obreiro position per existing assignment |
| LeaderSchedules.ExistingAssignments | client/src/pages/leader-schedules.tsx:133-134 | the assignments of the first schedule with the edited id, and none when no schedule has it |
| LeaderSchedules.UnchangedSendsNothing | client/src/pages/leader-schedules.tsx:140-157 | choosing again exactly what is stored sends no assignment request |
| LeaderSchedules.UntouchedNullIsPatched | client/src/pages/leader-schedules.tsx:142-148 | a stored "nobody" at an untouched position is still patched, with an empty body, because null differs strictly from undefined |
| LeaderSchedules.ClearingSendsNoUserId | client/src/pages/leader-schedules.tsx:145-148 | clearing an assigned position sends a patch without `userId`, so the request does not ask to remove the user |
| LeaderSchedules.LeaderSchedulesPage.constructor | client/src/pages/leader-schedules.tsx:52-69 | the page opens on the current month with the default form, the dialog closed, nothing being edited and no choices |
| LeaderSchedules.LeaderSchedulesPage.CreateRequests | client/src/pages/leader-schedules.tsx:80-101 | the requests sent are the schedule's POST, then the assignment plan of its ministry's positions for the id the server returned, awaited one by one up to and including the first the server rejects; the mutation succeeds exactly when every request sent was accepted |
| LeaderSchedules.LeaderSchedulesPage.UpdateRequests | client/src/pages/leader-schedules.tsx:125-160 | nothing, and success, without a (truthy) edited schedule; otherwise the schedule's PATCH, then the update plan of its positions, awaited one by one up to and including the first rejected request; success exactly when every request sent was accepted |
| LeaderSchedules.CreateAssignments | client/src/pages/leader-schedules.tsx:83-93 | the loop of criarAssignments sends the create plan up to and including the first rejected POST, and reports success exactly when all it sent were accepted |
| LeaderSchedules.UpdateAssignments | client/src/pages/leader-schedules.tsx:139-157 | the loop over the positions sends, for each position in order, the PATCH of a changed stored assignment or the POST of a new chosen member, up to and including the first rejected request; success exactly when all it sent were accepted |
| LeaderSchedules.SentUntilRejected | client/src/pages/leader-schedules.tsx:84-92 | awaiting each request in turn sends a prefix of the plan: every request but the last was accepted, and the prefix is the whole plan or ends with the rejected request |
| LeaderSchedules.SentAfterAccepted | client/src/pages/leader-schedules.tsx:84-92 | accepted requests do not stop the mutation: what follows them is sent as if they had not been there |
| LeaderSchedules.SentStopsAt | client/src/pages/leader-schedules.tsx:84-92 | after accepted requests, a rejected one is the last one sent |
| LeaderSchedules.SentRejectedAt | client/src/pages/leader-schedules.tsx:84-92 | when the request at i is the first rejected, the plan up to i is sent |
| LeaderSchedules.SentAllAccepted | client/src/pages/leader-schedules.tsx:84-92 | when every request is accepted, the whole plan is sent |
| LeaderSchedules.CreatePlanAt | client/src/pages/leader-schedules.tsx:85-91 | the request for the position at k is its POST, with the chosen user only when one was chosen |
| LeaderSchedules.UpdatePlanAppend | client/src/pages/leader-schedules.tsx:139-157 | the update plan of two runs of positions is the plan of the first followed by that of the second |
| LeaderSchedules.UpdatePlanStep | client/src/pages/leader-schedules.tsx:139-157 | one more position adds exactly the request its step needs, if any |
| LeaderSchedules.UpdateRejectedAt | client/src/pages/leader-schedules.tsx:139-157 | a rejected request at position i is the last one the update loop sends |
| LeaderSchedules.LeaderSchedulesPage.CreateSucceeded | client/src/pages/leader-schedules.tsx:104-113 | the dialog closes, the choices are forgotten and the form returns to its defaults |
| LeaderSchedules.LeaderSchedulesPage.UpdateSucceeded | client/src/pages/leader-schedules.tsx:161-171 | the same, and editing ends |
| MemberSchedules.VisibleSchedules | client/src/pages/member-schedules.tsx:45-55 | a ministry's schedules, all of them and only them, for its members; nothing for anyone else |
| MemberSchedules.NameOr | client/src/pages/member-schedules.tsx:188 | the assigned user's name, or the placeholder without an assignment or a user |
| MemberSchedules.IsViewers | client/src/pages/member-schedules.tsx:180 | a row is the viewer's exactly when there is an assignment whose user id is the viewer's |
| MemberSchedules.AssignmentAt | client/src/pages/member-schedules.tsx:172-174 | `find`: the first of the schedule's assignments at that position (none earlier in the list has it), none exactly when there is none |
| MemberSchedules.LouvorSlots | client/src/pages/member-schedules.tsx:171-192 | the six positions in order, each with its caption, the name or "Vazio", and highlighted exactly when it is the viewer's |
| MemberSchedules.ObreiroSlots | client/src/pages/member-schedules.tsx:231-247 | one row per assignment numbered from 1, with the name or "Não atribuído", highlighted exactly when it is the viewer's |
| MemberSchedules.Cards | client/src/pages/member-schedules.tsx:158-197 | one card per schedule in order, with the louvor or the obreiro rows of its ministry |
| MemberSchedules.SectionOf | client/src/pages/member-schedules.tsx:156-205 | the empty-month message exactly for no schedule, the cards otherwise |
| MemberSchedules.View | client/src/pages/member-schedules.tsx:134-263 | loading exactly while a query is pending; the no-ministry message exactly for a viewer in neither ministry; otherwise a section exactly for each ministry of the viewer, holding that ministry's schedules |
| MemberSchedules.HighlightIsOwn | client/src/pages/member-schedules.tsx:171-247 | a highlighted row of a louvor or obreiros card belongs to an assignment of that card's schedule naming the viewer |

## Left out

- Password hashing and comparison (bcrypt) and token signing and verification (JSON Web Tokens) are not computed: they are functions given as parameters, and the properties hold for any such functions.
- The database itself: connection setup, SQL, and every database error other than a duplicate e-mail and a lesson whose course does not exist. Tables are sequences of rows with identity counters.
- Everything asynchronous: the order in which awaited requests complete, React Query caching, invalidation and refetching, toasts and loading spinners. A mutation is modelled as the sequence of requests it sends, followed by its success handler. On the schedule page the server's answer to each awaited request is a parameter (`accepted`), so a rejection there ends the requests sent; on the other pages a request is assumed to succeed.
- The clock, time zones and locale formatting. Dates are whole day numbers or (month, year) pairs, and date text is turned into one by a parsing function given as a parameter.
- `JSON.parse` of the stored user in the layouts and the profile page is a parsing function given as a parameter. Malformed JSON, which throws in the browser, is not modelled.
- `JSON.parse` of a schedule's `louvores` list, and the list it renders, in member-schedules.tsx and member-louvor-schedules.tsx.
- File uploads (`apiUpload`) are not performed. Only their outcome is an input: no file, an uploaded URL, or a failure.
- Form field edits (`handleChange`, `handleSelect` and the form library's own state) are not modelled. A submitted form is an input.
- The delete mutation of leader-schedules.tsx:181-190, which sends one DELETE request and shows a toast, with no decision of its own.
- The fallback from `/api/users/me` to `/api/auth/me` when member-louvor-schedules.tsx loads the signed-in user is not modelled. The viewer's id is an input.
- The admin header's "Olá, name" line in admin-layout.tsx:64 is not modelled.
- server/db.ts, server/seed.ts, server/create-admin.ts, and the Vite and static-file serving of server/index.ts.
- The route handlers of server/routes.ts that pass a parsed body or a storage result straight through are in the route table with their guards, but their bodies are not modelled. These are the event, course and material handlers and the prayer list and delete handlers. The storage operations they call are modelled where they carry a rule.
- The profile, birthday, visitor, schedule and assignment APIs that the client pages call are not defined in server/routes.ts. The server side of these APIs is not part of this model; the pages are modelled against the responses they expect.
- Pages with no logic beyond a constant list or a slice: home, login, events, member prayers, member materials, and the application's router.
- The growth percentage and the charts of the analytics page, which use floating point.
- shared/schema.ts as given declares no prayer-request table, no `insertPrayerRequestSchema`, and no `isLider`, `ministerioLouvor`, `ministerioObreiro` or `fotoUrl` columns for users, although server/storage.ts, server/routes.ts and the client read and write them. The model gives these records the fields their uses require.
- String lengths are counted in characters. JavaScript counts UTF-16 code units, so the two differ for characters outside the Basic Multilingual Plane.
- Lower-casing in the member search is ASCII only. JavaScript's `toLowerCase` also maps non-ASCII letters.
- Schema.ValidEmail: an approximation of the e-mail rule of the validation library (one '@', a non-empty local part, a dotted domain, no spaces), not its exact regular expression.
- AdminPrayers.StatusBadge: a status that names a property every JavaScript object inherits (such as "constructor") finds that property in the lookup table in the browser. The model shows it as pending, like any other unknown status.
- Schedules.PositionLabel: the same holds for a position named like an inherited property.
- Analytics.Tally: `Object.entries` lists integer-like keys (a neighbourhood named "12") before the others, in ascending order. The model keeps first-seen order for every key, and an inherited property name used as a neighbourhood or profession is counted like any other.
- DateUtils.FormatDateForInput: a `Date` object holding an invalid time, which the browser formats as "NaN-NaN-NaN", cannot be given to the model. Its requires admits only month and day numbers in range.
- DateUtils.DateText: the same holds here; its requires admits only a month from 0 to 11 and a day from 1 to 31.
- Routes.ToggleAdmin: `isAdmin` is taken from an unvalidated body. A body without it, or with a value that is not a boolean, is not modelled; the model takes the flag as a boolean.
- Schema.NewPrayerRequest: the prayer table and its insert schema are not in shared/schema.ts, so three things about a new request are assumptions, not read from the source. The payload carries no `status`. The status defaults to "pending", the first stage the admin page shows (client/src/pages/admin-prayers.tsx:48). `isPublic` defaults to false when the payload leaves it out.
- Routes.UpdatePrayerHandler: `status` and `isPublic` come from an unvalidated body. A body missing either of them, or holding values of other types, is not modelled.
- leader-schedules.tsx ends at lines 198-199 with two comments and returns no markup. As written, the page renders nothing, so its create, update and assignment handlers are never triggered from it. The model describes what those handlers do when called.

=== FILE: admin_members.dfy ===
/** The admin members page (client/src/pages/admin-members.tsx): a search
    over name and e-mail with optional neighbourhood and profession filters,
    the distinct values those filters offer, the CSV export of the filtered
    list, and the admin toggle. The members are the password-free users the
    member list route returns. */
module AdminMembers {
  import opened Common
  import opened Routes

  // ---------------------------------------------------------------------
  // Search and filters

  /** `x.toLowerCase().includes(term.toLowerCase())`, lower-casing ASCII letters. */
  predicate ContainsIgnoringCase(x: string, term: string)
  {
    Contains(Lower(x), Lower(term))
  }

  /** `!filter || value === filter`: an empty filter lets everything through. */
  predicate PassesFilter(value: Option<string>, filter: string)
  {
    filter == "" || value == Some(filter)
  }

  predicate Kept(m: PublicUser, term: string, bairro: string, profissao: string)
  {
    (ContainsIgnoringCase(m.nome, term) || ContainsIgnoringCase(m.email, term))
    && PassesFilter(m.bairro, bairro) && PassesFilter(m.profissao, profissao)
  }

  function KeptBy(term: string, bairro: string, profissao: string): PublicUser -> bool
  {
    (m: PublicUser) => Kept(m, term, bairro, profissao)
  }

  /** filteredMembers: the members matching the search and both filters, in order. */
  function FilteredMembers(members: seq<PublicUser>, term: string, bairro: string, profissao: string)
    : (r: seq<PublicUser>)
    ensures IsSubsequence(r, members)
    ensures forall m :: m in r <==> m in members && Kept(m, term, bairro, profissao)
  {
    FilterIsSubsequence(members, KeptBy(term, bairro, profissao));
    Filter(members, KeptBy(term, bairro, profissao))
  }

  /** With an empty search and no filter every member is listed. */
  lemma NoFilterKeepsAll(members: seq<PublicUser>)
    ensures FilteredMembers(members, "", "", "") == members
  {
    forall m | m in members ensures Kept(m, "", "", "") {
      ContainsEmpty(Lower(m.nome));
    }
    FilterAll(members, KeptBy("", "", ""));
  }

  /** A neighbourhood filter keeps only members of that neighbourhood. */
  lemma BairroFilterExact(members: seq<PublicUser>, term: string, bairro: string, profissao: string)
    requires bairro != ""
    ensures forall m :: m in FilteredMembers(members, term, bairro, profissao) ==> m.bairro == Some(bairro)
  {
  }

  // ---------------------------------------------------------------------
  // Distinct filter values

  /** `Array.from(new Set(xs))`: the first occurrence of each value, in order. */
  function Dedupe(xs: seq<string>): (r: seq<string>)
    ensures forall x :: x in r <==> x in xs
    ensures forall i, j :: 0 <= i < j < |r| ==> r[i] != r[j]
    ensures |r| <= |xs|
  {
    if xs == [] then []
    else
      var init := xs[..|xs| - 1];
      var last := xs[|xs| - 1];
      assert xs == init + [last];
      var rest := Dedupe(init);
      if last in init then rest else rest + [last]
  }

  /** Index of the first occurrence of `x` in `xs`. */
  function FirstAt(xs: seq<string>, x: string): (i: nat)
    requires x in xs
    ensures i < |xs| && xs[i] == x && x !in xs[..i]
  {
    if xs[0] == x then 0
    else
      var k := FirstAt(xs[1..], x);
      assert xs[..k + 1] == [xs[0]] + xs[1..][..k];
      k + 1
  }

  /** Appending an element moves no first occurrence. */
  lemma {:induction false} FirstAtPrefix(xs: seq<string>, y: string, x: string)
    requires x in xs
    ensures x in xs + [y] && FirstAt(xs + [y], x) == FirstAt(xs, x)
  {
    if xs[0] != x {
      assert (xs + [y])[1..] == xs[1..] + [y];
      FirstAtPrefix(xs[1..], y, x);
    }
  }

  /** A value new to the list first occurs where it is appended. */
  lemma {:induction false} FirstAtAppended(xs: seq<string>, y: string)
    requires y !in xs
    ensures FirstAt(xs + [y], y) == |xs|
  {
    if xs != [] {
      assert (xs + [y])[1..] == xs[1..] + [y];
      FirstAtAppended(xs[1..], y);
    }
  }

  /** The deduplicated values keep the order of their first occurrences. */
  lemma {:induction false} DedupeFirstOccurrenceOrder(xs: seq<string>)
    ensures forall i, j :: 0 <= i < j < |Dedupe(xs)| ==> FirstAt(xs, Dedupe(xs)[i]) < FirstAt(xs, Dedupe(xs)[j])
  {
    if xs != [] {
      var init := xs[..|xs| - 1];
      var last := xs[|xs| - 1];
      assert xs == init + [last];
      DedupeFirstOccurrenceOrder(init);
      forall x | x in init ensures FirstAt(xs, x) == FirstAt(init, x) {
        FirstAtPrefix(init, last, x);
      }
      if last !in init {
        FirstAtAppended(init, last);
      }
    }
  }

  /** `.filter(Boolean)` over optional texts: the present, non-empty ones,
      position by position the values of the entries the filter keeps. */
  function PresentTexts(vs: seq<Option<string>>): (r: seq<string>)
    ensures |r| == |Filter(vs, Present)| && forall i :: 0 <= i < |r| ==> Filter(vs, Present)[i] == Some(r[i])
  {
    if vs == [] then []
    else
      var rest := PresentTexts(vs[1..]);
      if Present(vs[0]) then
        assert Filter(vs, Present) == [vs[0]] + Filter(vs[1..], Present);
        [vs[0].value] + rest
      else
        assert Filter(vs, Present) == Filter(vs[1..], Present);
        rest
  }

  /** The present texts are exactly the non-empty values some entry holds. */
  lemma PresentTextsMembers(vs: seq<Option<string>>)
    ensures forall x :: x in PresentTexts(vs) <==> Some(x) in vs && x != ""
  {
    var r := PresentTexts(vs);
    var f := Filter(vs, Present);
    forall x ensures x in r <==> Some(x) in vs && x != "" {
      if x in r {
        var i :| 0 <= i < |r| && r[i] == x;
        assert f[i] in f;
      }
      if Some(x) in vs && x != "" {
        assert Some(x) in f;
        var i :| 0 <= i < |f| && f[i] == Some(x);
        assert r[i] == x;
      }
    }
  }

  /** Index of the first occurrence of `o` in `vs`, or `|vs|` when it has none. */
  function FirstIndex(vs: seq<Option<string>>, o: Option<string>): (i: nat)
    ensures i <= |vs| && (i < |vs| <==> o in vs)
    ensures i < |vs| ==> vs[i] == o
    ensures forall k :: 0 <= k < i ==> vs[k] != o
  {
    if vs == [] then 0
    else if vs[0] == o then 0
    else 1 + FirstIndex(vs[1..], o)
  }

  /** The present texts keep the order of the entries they come from: a text
      that first occurs earlier among them first occurs earlier in `vs`. */
  lemma {:induction false} PresentTextsFirstOrder(vs: seq<Option<string>>, x: string, y: string)
    requires x in PresentTexts(vs) && y in PresentTexts(vs)
    requires FirstAt(PresentTexts(vs), x) < FirstAt(PresentTexts(vs), y)
    ensures FirstIndex(vs, Some(x)) < FirstIndex(vs, Some(y))
  {
    assert vs != [];
    if vs[0] == Some(x) {
      assert FirstIndex(vs, Some(x)) == 0;
      assert x != y;
    } else {
      PresentTextsTail(vs, x);
      PresentTextsTail(vs, y);
      PresentTextsFirstOrder(vs[1..], x, y);
    }
  }

  /** A text the first entry does not hold is among the present texts of the
      rest, one place further back when the first entry is present. */
  lemma PresentTextsTail(vs: seq<Option<string>>, x: string)
    requires x in PresentTexts(vs) && vs[0] != Some(x)
    ensures x in PresentTexts(vs[1..])
    ensures FirstAt(PresentTexts(vs), x) == FirstAt(PresentTexts(vs[1..]), x) + (if Present(vs[0]) then 1 else 0)
  {
    var pts := PresentTexts(vs);
    var rest := PresentTexts(vs[1..]);
    if Present(vs[0]) {
      assert pts == [vs[0].value] + rest;
      assert pts[0] != x && pts[1..] == rest;
    } else {
      assert pts == rest;
    }
  }

  function Bairros(members: seq<PublicUser>): (vs: seq<Option<string>>)
    ensures |vs| == |members| && forall i :: 0 <= i < |members| ==> vs[i] == members[i].bairro
  {
    seq(|members|, i requires 0 <= i < |members| => members[i].bairro)
  }

  function Profissoes(members: seq<PublicUser>): (vs: seq<Option<string>>)
    ensures |vs| == |members| && forall i :: 0 <= i < |members| ==> vs[i] == members[i].profissao
  {
    seq(|members|, i requires 0 <= i < |members| => members[i].profissao)
  }

  /** uniqueBairros: each neighbourhood some member has, once, none empty. */
  function UniqueBairros(members: seq<PublicUser>): (r: seq<string>)
    ensures forall x :: x in r <==> x != "" && exists m :: m in members && m.bairro == Some(x)
    ensures forall i, j :: 0 <= i < j < |r| ==> r[i] != r[j]
    ensures forall i, j :: 0 <= i < j < |r| ==> FirstIndex(Bairros(members), Some(r[i])) < FirstIndex(Bairros(members), Some(r[j]))
  {
    var vs := Bairros(members);
    BairrosHeld(members);
    UniquePresent(vs)
  }

  /** uniqueProfissoes: each profession some member has, once, none empty. */
  function UniqueProfissoes(members: seq<PublicUser>): (r: seq<string>)
    ensures forall x :: x in r <==> x != "" && exists m :: m in members && m.profissao == Some(x)
    ensures forall i, j :: 0 <= i < j < |r| ==> r[i] != r[j]
    ensures forall i, j :: 0 <= i < j < |r| ==> FirstIndex(Profissoes(members), Some(r[i])) < FirstIndex(Profissoes(members), Some(r[j]))
  {
    var vs := Profissoes(members);
    ProfissoesHeld(members);
    UniquePresent(vs)
  }

  /** The present values of bairro are those some member has. */
  lemma BairrosHeld(members: seq<PublicUser>)
    ensures forall x :: Some(x) in Bairros(members) <==> exists m :: m in members && m.bairro == Some(x)
  {
    var vs := Bairros(members);
    forall x ensures Some(x) in vs <==> exists m :: m in members && m.bairro == Some(x) {
      if Some(x) in vs {
        var i :| 0 <= i < |vs| && vs[i] == Some(x);
        assert members[i] in members;
      }
      if exists m :: m in members && m.bairro == Some(x) {
        var m :| m in members && m.bairro == Some(x);
        var i :| 0 <= i < |members| && members[i] == m;
        assert vs[i] == Some(x);
      }
    }
  }

  /** The present values of profissao are those some member has. */
  lemma ProfissoesHeld(members: seq<PublicUser>)
    ensures forall x :: Some(x) in Profissoes(members) <==> exists m :: m in members && m.profissao == Some(x)
  {
    var vs := Profissoes(members);
    forall x ensures Some(x) in vs <==> exists m :: m in members && m.profissao == Some(x) {
      if Some(x) in vs {
        var i :| 0 <= i < |vs| && vs[i] == Some(x);
        assert members[i] in members;
      }
      if exists m :: m in members && m.profissao == Some(x) {
        var m :| m in members && m.profissao == Some(x);
        var i :| 0 <= i < |members| && members[i] == m;
        assert vs[i] == Some(x);
      }
    }
  }

  /** `Array.from(new Set(vs.filter(Boolean)))`: each present text once, in
      the order of the entries where it first occurs. */
  function UniquePresent(vs: seq<Option<string>>): (r: seq<string>)
    ensures forall x :: x in r <==> x != "" && Some(x) in vs
    ensures forall i, j :: 0 <= i < j < |r| ==> r[i] != r[j]
    ensures forall i, j :: 0 <= i < j < |r| ==> FirstIndex(vs, Some(r[i])) < FirstIndex(vs, Some(r[j]))
  {
    var r := Dedupe(PresentTexts(vs));
    PresentTextsMembers(vs);
    DedupeThenFirstOrder(vs, r);
    r
  }

  lemma DedupeThenFirstOrder(vs: seq<Option<string>>, r: seq<string>)
    requires r == Dedupe(PresentTexts(vs))
    ensures forall i, j :: 0 <= i < j < |r| ==> FirstIndex(vs, Some(r[i])) < FirstIndex(vs, Some(r[j]))
  {
    var pts := PresentTexts(vs);
    DedupeFirstOccurrenceOrder(pts);
    forall i, j | 0 <= i < j < |r| ensures FirstIndex(vs, Some(r[i])) < FirstIndex(vs, Some(r[j])) {
      PresentTextsFirstOrder(vs, r[i], r[j]);
    }
  }

  // ---------------------------------------------------------------------
  // CSV export

  const CsvHeaders: seq<string> := ["Nome", "Email", "Data Nascimento", "Profissão", "Cidade", "Bairro", "Admin"]

  /** One member's fields in column order, the admin flag as "Sim" or "Não". */
  function CsvRow(m: PublicUser): (row: seq<string>)
    ensures |row| == |CsvHeaders|
    ensures row[0] == m.nome && row[1] == m.email
    ensures row[2] == (if Present(m.dataNascimento) then m.dataNascimento.value else "")
    ensures row[3] == (if Present(m.profissao) then m.profissao.value else "")
    ensures row[4] == (if Present(m.cidade) then m.cidade.value else "")
    ensures row[5] == (if Present(m.bairro) then m.bairro.value else "")
    ensures row[6] == (if m.isAdmin then "Sim" else "Não")
  {
    [m.nome, m.email, OrEmpty(m.dataNascimento), OrEmpty(m.profissao),
     OrEmpty(m.cidade), OrEmpty(m.bairro), if m.isAdmin then "Sim" else "Não"]
  }

  /** The lines of the file: the header, then one line per member. */
  function CsvLines(members: seq<PublicUser>): (lines: seq<string>)
    ensures |lines| == 1 + |members|
    ensures lines[0] == Join(CsvHeaders, ",")
    ensures forall i :: 0 <= i < |members| ==> lines[i + 1] == Join(CsvRow(members[i]), ",")
  {
    [Join(CsvHeaders, ",")] + seq(|members|, i requires 0 <= i < |members| => Join(CsvRow(members[i]), ","))
  }

  /** exportToCSV's content: the lines joined by newlines, with no quoting.
      It opens with the header line, alone when no member is listed and
      followed by a newline otherwise. */
  function Csv(members: seq<PublicUser>): (r: string)
    ensures members == [] ==> r == Join(CsvHeaders, ",")
    ensures members != [] ==> StartsWith(r, Join(CsvHeaders, ",") + "\n")
  {
    var lines := CsvLines(members);
    if members == [] then
      Join(lines, "\n")
    else
      var header := lines[0] + "\n";
      assert Join(lines, "\n") == header + Join(lines[1..], "\n");
      assert (header + Join(lines[1..], "\n"))[..|header|] == header;
      Join(lines, "\n")
  }

  /** No field of the member holds the character. */
  predicate FieldsAvoid(m: PublicUser, c: char)
  {
    forall k :: 0 <= k < |CsvRow(m)| ==> c !in CsvRow(m)[k]
  }

  /** Reading the file back: when no field holds a newline or a comma, the
      file splits into the header and one line per member, and each line
      splits into exactly that member's seven fields. */
  lemma CsvReadsBack(members: seq<PublicUser>)
    requires forall m :: m in members ==> FieldsAvoid(m, '\n') && FieldsAvoid(m, ',')
    ensures |Split(Csv(members), '\n')| == 1 + |members|
    ensures Split(Csv(members), '\n') == CsvLines(members)
    ensures Split(Split(Csv(members), '\n')[0], ',') == CsvHeaders
    ensures forall i :: 0 <= i < |members| ==> Split(Split(Csv(members), '\n')[i + 1], ',') == CsvRow(members[i])
  {
    var lines := CsvLines(members);
    LinesAvoidNewline(members);
    SplitJoin(lines, '\n');
    HeaderReadsBack();
    forall i | 0 <= i < |members| ensures Split(lines[i + 1], ',') == CsvRow(members[i]) {
      assert members[i] in members;
      SplitJoin(CsvRow(members[i]), ',');
    }
  }

  lemma HeaderReadsBack()
    ensures Split(Join(CsvHeaders, ","), ',') == CsvHeaders
  {
    forall k | 0 <= k < |CsvHeaders| ensures ',' !in CsvHeaders[k] {
      assert k == 0 || k == 1 || k == 2 || k == 3 || k == 4 || k == 5 || k == 6;
    }
    SplitJoin(CsvHeaders, ',');
  }

  lemma LinesAvoidNewline(members: seq<PublicUser>)
    requires forall m :: m in members ==> FieldsAvoid(m, '\n')
    ensures forall k :: 0 <= k < |CsvLines(members)| ==> '\n' !in CsvLines(members)[k]
  {
    var lines := CsvLines(members);
    HeaderLineAvoidsNewline();
    forall k | 0 <= k < |lines| ensures '\n' !in lines[k] {
      if k > 0 {
        assert members[k - 1] in members;
        JoinAvoids(CsvRow(members[k - 1]), ",", '\n');
      }
    }
  }

  lemma HeaderLineAvoidsNewline()
    ensures '\n' !in Join(CsvHeaders, ",")
  {
    forall k | 0 <= k < |CsvHeaders| ensures '\n' !in CsvHeaders[k] {
      assert k == 0 || k == 1 || k == 2 || k == 3 || k == 4 || k == 5 || k == 6;
    }
    JoinAvoids(CsvHeaders, ",", '\n');
  }

  // ---------------------------------------------------------------------
  // Admin toggle

  /** The toggle button asks for the opposite of the member's current flag. */
  datatype ToggleAdminRequest = ToggleAdminRequest(id: int, isAdmin: bool)

  function ToggleAdmin(m: PublicUser): (r: ToggleAdminRequest)
    ensures r.id == m.id && r.isAdmin == !m.isAdmin
  {
    ToggleAdminRequest(m.id, !m.isAdmin)
  }
}

=== FILE: admin_prayers.dfy ===
/** The admin prayer-request page (client/src/pages/admin-prayers.tsx): the
    status badge of each request and the buttons offered on its row. A
    request moves from pending to approved (public or private) to archived;
    each button sends the new status and visibility, which the server stores
    with the prayer table update. */
module AdminPrayers {
  import opened Common
  import opened Schema
  import opened Storage

  const Pending := "pending"
  const Approved := "approved"
  const Archived := "archived"

  datatype BadgeVariant = Default | Secondary | Outline

  datatype Badge = Badge(text: string, variant: BadgeVariant)

  /** getStatusBadge: the three known statuses have their own badge, and any
      other status is shown as pending. */
  function StatusBadge(status: string): (b: Badge)
    ensures status == Approved ==> b == Badge("Aprovado", Default)
    ensures status == Archived ==> b == Badge("Arquivado", Outline)
    ensures status != Approved && status != Archived ==> b == Badge("Pendente", Secondary)
  {
    if status == Approved then Badge("Aprovado", Default)
    else if status == Archived then Badge("Arquivado", Outline)
    else Badge("Pendente", Secondary)
  }

  /** The position of a status along the workflow. */
  function Stage(status: string): (r: nat)
    ensures r <= 2
    ensures r == 0 <==> status == Pending
    ensures r == 1 <==> status == Approved
  {
    if status == Pending then 0 else if status == Approved then 1 else 2
  }

  /** A row button: a status change sent with its visibility, or delete. */
  datatype Action = SetStatus(status: string, isPublic: bool) | Delete

  /** The buttons of a row, in order. */
  function Actions(status: string): (r: seq<Action>)
    ensures r != [] && r[|r| - 1] == Delete
    ensures forall a :: a in r && a.SetStatus? ==>
              (status == Pending || status == Approved) && Stage(a.status) == Stage(status) + 1
    ensures forall a :: a in r && a.SetStatus? && a.isPublic ==> a.status == Approved
    ensures status == Pending ==> SetStatus(Approved, true) in r && SetStatus(Approved, false) in r
    ensures status == Approved ==> SetStatus(Archived, false) in r
    ensures status != Pending && status != Approved ==> r == [Delete]
  {
    (if status == Pending then [SetStatus(Approved, true), SetStatus(Approved, false)] else [])
    + (if status == Approved then [SetStatus(Archived, false)] else [])
    + [Delete]
  }

  /** No button leads back to pending, and delete is on every row. */
  lemma NoWayBack(status: string)
    ensures Delete in Actions(status)
    ensures forall a :: a in Actions(status) && a.SetStatus? ==> a.status != Pending
  {
  }

  /** Following the buttons reaches a status with no further change in at
      most two steps: pending, approved, archived. */
  lemma {:induction false} WorkflowEnds(status: string, a: Action, b: Action)
    requires a in Actions(status) && a.SetStatus?
    requires b in Actions(a.status) && b.SetStatus?
    ensures status == Pending && b.status == Archived
    ensures forall c :: c in Actions(b.status) ==> c == Delete
  {
    assert Stage(b.status) == Stage(status) + 2;
  }

  /** After any button of a row, the stored row is public only if approved:
      archiving always hides a request, and no other row changes. */
  lemma ButtonKeepsPublicApproved(ps: seq<PrayerRequest>, row: PrayerRequest, a: Action)
    requires row in ps && a in Actions(row.status) && a.SetStatus?
    ensures var after := SetPrayerStatus(ps, row.id, a.status, a.isPublic);
            && (forall k :: 0 <= k < |ps| && ps[k].id == row.id ==>
                  (after[k].isPublic ==> after[k].status == Approved))
            && (forall k :: 0 <= k < |ps| && ps[k].id != row.id ==> after[k] == ps[k])
            && (a.status == Archived ==> forall p :: p in after && p.id == row.id ==> !p.isPublic)
  {
    var after := SetPrayerStatus(ps, row.id, a.status, a.isPublic);
    if a.status == Archived {
      forall p | p in after && p.id == row.id ensures !p.isPublic {
        var k :| 0 <= k < |after| && after[k] == p;
        assert PrayerId(after[k]) == PrayerId(ps[k]);
      }
    }
  }
}

=== FILE: admin_visitors.dfy ===
/** The admin visitors page (client/src/pages/admin-visitors.tsx): a list of
    visitors kept in the page's own state, a form, and the id of the visitor
    being edited. Submitting either creates a visitor with the next free id or
    rewrites the one being edited; rows can be deleted and their
    "became a member" flag toggled. Nothing is sent to the server. */
module AdminVisitors {
  import opened Common

  datatype Visitor = Visitor(
    id: int, nome: string, whatsapp: string, comoConheceu: string, culto: string, membrouSe: bool)

  datatype VisitorForm = VisitorForm(
    nome: string, whatsapp: string, comoConheceu: string, culto: string, membrouSe: bool)

  const EmptyForm := VisitorForm("", "", "", "", false)

  const InitialVisitors: seq<Visitor> := [
    Visitor(1, "João da Silva", "(11) 91234-5678", "Amigo/familiar", "Domingo Manhã", false),
    Visitor(2, "Maria Souza", "(11) 92345-8888", "Instagram", "Quarta", true)
  ]

  function VisitorId(v: Visitor): int { v.id }

  /** All four text fields are filled in. */
  predicate Complete(f: VisitorForm)
  {
    f.nome != "" && f.whatsapp != "" && f.comoConheceu != "" && f.culto != ""
  }

  /** JavaScript truthiness of `editingId`: set and not zero. */
  predicate Editing(editingId: Option<int>)
  {
    editingId.Some? && editingId.value != 0
  }

  function FormOf(v: Visitor): VisitorForm
  {
    VisitorForm(v.nome, v.whatsapp, v.comoConheceu, v.culto, v.membrouSe)
  }

  /** `{ ...form, id }`. */
  function WithForm(f: VisitorForm, id: int): (v: Visitor)
    ensures v.id == id
  {
    Visitor(id, f.nome, f.whatsapp, f.comoConheceu, f.culto, f.membrouSe)
  }

  /** A visitor is its form plus its id, and the form survives the trip. */
  lemma FormRoundTrip(f: VisitorForm, v: Visitor)
    ensures FormOf(WithForm(f, v.id)) == f
    ensures WithForm(FormOf(v), v.id) == v
  {
  }

  /** `Math.max(0, ...list.map(v => v.id))`. */
  function MaxId(vs: seq<Visitor>): (m: int)
    ensures m >= 0
    ensures forall v :: v in vs ==> v.id <= m
    ensures m == 0 || exists v :: v in vs && v.id == m
  {
    if vs == [] then 0
    else
      var rest := MaxId(vs[1..]);
      assert forall v :: v in vs[1..] ==> v in vs;
      if vs[0].id > rest then vs[0].id else rest
  }

  /** The id a new visitor receives: larger than every id in the list, and at least 1. */
  function NextId(vs: seq<Visitor>): (n: int)
    ensures n >= 1
    ensures forall v :: v in vs ==> v.id < n
  {
    MaxId(vs) + 1
  }

  /** `list.map(v => v.id === id ? { ...form, id } : v)`. */
  function ReplaceById(vs: seq<Visitor>, id: int, f: VisitorForm): (r: seq<Visitor>)
    ensures |r| == |vs|
    ensures forall k :: 0 <= k < |vs| && vs[k].id == id ==> r[k] == WithForm(f, id)
    ensures forall k :: 0 <= k < |vs| && vs[k].id != id ==> r[k] == vs[k]
  {
    if vs == [] then []
    else [if vs[0].id == id then WithForm(f, id) else vs[0]] + ReplaceById(vs[1..], id, f)
  }

  /** `list.map(v => v.id === id ? { ...v, membrouSe: !v.membrouSe } : v)`. */
  function ToggleById(vs: seq<Visitor>, id: int): (r: seq<Visitor>)
    ensures |r| == |vs|
    ensures forall k :: 0 <= k < |vs| && vs[k].id == id ==> r[k] == vs[k].(membrouSe := !vs[k].membrouSe)
    ensures forall k :: 0 <= k < |vs| && vs[k].id != id ==> r[k] == vs[k]
  {
    if vs == [] then []
    else [if vs[0].id == id then vs[0].(membrouSe := !vs[0].membrouSe) else vs[0]] + ToggleById(vs[1..], id)
  }

  /** Toggling the same visitor twice restores the list. */
  lemma ToggleTwice(vs: seq<Visitor>, id: int)
    ensures ToggleById(ToggleById(vs, id), id) == vs
  {
    var r := ToggleById(ToggleById(vs, id), id);
    assert forall k :: 0 <= k < |vs| ==> r[k] == vs[k];
  }

  /** The ids of the initial list are distinct and positive. */
  lemma InitialVisitorsValid()
    ensures KeysDistinct(InitialVisitors, VisitorId)
    ensures forall v :: v in InitialVisitors ==> v.id > 0
  {
  }

  /** Every row keeps its id through an edit or a toggle, so ids stay distinct. */
  lemma UpdatesKeepIds(vs: seq<Visitor>, id: int, f: VisitorForm)
    requires KeysDistinct(vs, VisitorId) && forall v :: v in vs ==> v.id > 0
    ensures KeysDistinct(ReplaceById(vs, id, f), VisitorId)
    ensures KeysDistinct(ToggleById(vs, id), VisitorId)
    ensures forall v :: v in ReplaceById(vs, id, f) ==> v.id > 0
    ensures forall v :: v in ToggleById(vs, id) ==> v.id > 0
  {
    KeepsIds(vs, ReplaceById(vs, id, f));
    KeepsIds(vs, ToggleById(vs, id));
  }

  /** A row-by-row rewrite that keeps every id keeps the ids distinct and positive. */
  lemma KeepsIds(vs: seq<Visitor>, r: seq<Visitor>)
    requires KeysDistinct(vs, VisitorId) && forall v :: v in vs ==> v.id > 0
    requires |r| == |vs| && forall k :: 0 <= k < |vs| ==> r[k].id == vs[k].id
    ensures KeysDistinct(r, VisitorId)
    ensures forall v :: v in r ==> v.id > 0
  {
    SameKeys(vs, r, VisitorId);
    forall v | v in r ensures v.id > 0 {
      var k :| 0 <= k < |r| && r[k] == v;
      assert vs[k] in vs;
    }
  }

  class AdminVisitorsPage {
    var visitors: seq<Visitor>
    var form: VisitorForm
    var editingId: Option<int>

    /** Visitor ids are distinct and positive. */
    ghost predicate Valid()
      reads this
    {
      KeysDistinct(visitors, VisitorId) && forall v :: v in visitors ==> v.id > 0
    }

    constructor()
      ensures Valid()
      ensures visitors == InitialVisitors && form == EmptyForm && editingId == None
    {
      visitors := InitialVisitors;
      form := EmptyForm;
      editingId := None;
      InitialVisitorsValid();
    }

    /** handleSubmit: an incomplete form changes nothing; otherwise the
        visitor being edited is rewritten (and editing ends) or a new visitor
        is appended with the next id, and the form is cleared. */
    method HandleSubmit()
      requires Valid()
      modifies this
      ensures Valid()
      ensures !Complete(old(form)) ==>
                visitors == old(visitors) && form == old(form) && editingId == old(editingId)
      ensures Complete(old(form)) && Editing(old(editingId)) ==>
                && visitors == ReplaceById(old(visitors), old(editingId).value, old(form))
                && editingId == None && form == EmptyForm
      ensures Complete(old(form)) && !Editing(old(editingId)) ==>
                && visitors == old(visitors) + [WithForm(old(form), NextId(old(visitors)))]
                && editingId == old(editingId) && form == EmptyForm
    {
      if form.nome == "" || form.whatsapp == "" || form.comoConheceu == "" || form.culto == "" {
        return;
      }
      if editingId.Some? && editingId.value != 0 {
        UpdatesKeepIds(visitors, editingId.value, form);
        visitors := ReplaceById(visitors, editingId.value, form);
        editingId := None;
      } else {
        var created := WithForm(form, NextId(visitors));
        AppendFresh(visitors, VisitorId, created);
        visitors := visitors + [created];
      }
      form := EmptyForm;
    }

    /** handleEdit: the form takes the visitor's fields and its id is the one edited. */
    method HandleEdit(v: Visitor)
      modifies this
      ensures form == FormOf(v) && editingId == Some(v.id)
      ensures visitors == old(visitors)
    {
      form := FormOf(v);
      editingId := Some(v.id);
    }

    /** handleDelete: every visitor with that id goes, the others keep their
        order; editing ends only if it was that visitor. */
    method HandleDelete(id: int)
      requires Valid()
      modifies this
      ensures Valid()
      ensures visitors == Filter(old(visitors), (v: Visitor) => v.id != id)
      ensures forall v :: v in visitors <==> v in old(visitors) && v.id != id
      ensures editingId == (if old(editingId) == Some(id) then None else old(editingId))
      ensures form == old(form)
    {
      FilterKeepsKeys(visitors, VisitorId, (v: Visitor) => v.id != id);
      visitors := Filter(visitors, (v: Visitor) => v.id != id);
      if editingId == Some(id) {
        editingId := None;
      }
    }

    /** handleToggleMembrou: flips the flag of the visitors with that id. */
    method HandleToggleMembrou(id: int)
      requires Valid()
      modifies this
      ensures Valid()
      ensures visitors == ToggleById(old(visitors), id)
      ensures form == old(form) && editingId == old(editingId)
    {
      UpdatesKeepIds(visitors, id, form);
      visitors := ToggleById(visitors, id);
    }

    /** The "Cancelar" button: editing ends and the form is cleared; the list stays. */
    method Cancel()
      modifies this
      ensures form == EmptyForm && editingId == None && visitors == old(visitors)
    {
      editingId := None;
      form := EmptyForm;
    }
  }

  /** Creating a visitor grows the list by exactly one row whose id no other
      row has. */
  lemma CreateAddsFreshRow(vs: seq<Visitor>, f: VisitorForm)
    requires KeysDistinct(vs, VisitorId)
    ensures |vs + [WithForm(f, NextId(vs))]| == |vs| + 1
    ensures KeysDistinct(vs + [WithForm(f, NextId(vs))], VisitorId)
  {
    AppendFresh(vs, VisitorId, WithForm(f, NextId(vs)));
  }
}

=== FILE: analytics.dfy ===
/** The member statistics of the admin area (getMemberAnalytics in
    server/storage.ts): six age groups, the ten most common neighbourhoods and
    professions, and the number of members who joined in the last thirty days.

    The tallies are kept, as in the source, as a list of (key, count) entries
    in the order the keys were first seen; `Bump` is one `counts[k] =
    (counts[k] || 0) + 1` step. */
module Analytics {
  import opened Common
  import opened Schema

  datatype KeyCount = KeyCount(key: string, count: nat)

  datatype MemberAnalytics = MemberAnalytics(
    totalMembers: nat,
    membersByAge: seq<KeyCount>,
    membersByNeighborhood: seq<KeyCount>,
    membersByProfession: seq<KeyCount>,
    recentMembersCount: nat)

  const AgeGroupLabels: seq<string> := ["18-25", "26-35", "36-45", "46-55", "56-65", "66+"]

  // ---------------------------------------------------------------------
  // Age groups

  /** The group an age falls in, by the source's chain of ranges; an age
      under 18 belongs to none. */
  function AgeGroup(age: int): (g: Option<nat>)
    ensures g.Some? <==> age >= 18
    ensures g.Some? ==> g.value < |AgeGroupLabels|
    ensures g == Some(0) <==> 18 <= age <= 25
    ensures g == Some(1) <==> 26 <= age <= 35
    ensures g == Some(2) <==> 36 <= age <= 45
    ensures g == Some(3) <==> 46 <= age <= 55
    ensures g == Some(4) <==> 56 <= age <= 65
    ensures g == Some(5) <==> age >= 66
  {
    if 18 <= age <= 25 then Some(0)
    else if 26 <= age <= 35 then Some(1)
    else if 36 <= age <= 45 then Some(2)
    else if 46 <= age <= 55 then Some(3)
    else if 56 <= age <= 65 then Some(4)
    else if age >= 66 then Some(5)
    else None
  }

  /** A member's age is the difference of calendar years; a missing or empty
      birth date, or one the date parser rejects (`birthYear` gives None,
      JavaScript's NaN), gives no age. */
  function AgeOf(u: User, nowYear: int, birthYear: string -> Option<int>): Option<int>
  {
    if !Present(u.dataNascimento) then None
    else match birthYear(u.dataNascimento.value) {
      case None => None
      case Some(y) => Some(nowYear - y)
    }
  }

  function AgeGroupOf(u: User, nowYear: int, birthYear: string -> Option<int>): (g: Option<nat>)
    ensures g.Some? ==> g.value < |AgeGroupLabels|
    ensures g.Some? ==> AgeOf(u, nowYear, birthYear).Some? && AgeOf(u, nowYear, birthYear).value >= 18
  {
    match AgeOf(u, nowYear, birthYear) {
      case None => None
      case Some(a) => AgeGroup(a)
    }
  }

  /** Membership of one age group, and of any, as predicates on members. */
  function InAgeGroup(nowYear: int, birthYear: string -> Option<int>, g: nat): User -> bool
  {
    (u: User) => AgeGroupOf(u, nowYear, birthYear) == Some(g)
  }

  function InSomeAgeGroup(nowYear: int, birthYear: string -> Option<int>): User -> bool
  {
    (u: User) => AgeGroupOf(u, nowYear, birthYear).Some?
  }

  /** The six group counters after visiting `us` in order. */
  function AgeGroupCounts(us: seq<User>, nowYear: int, birthYear: string -> Option<int>): (c: seq<nat>)
    ensures |c| == |AgeGroupLabels|
    decreases |us|
  {
    if us == [] then [0, 0, 0, 0, 0, 0]
    else
      var c := AgeGroupCounts(us[..|us| - 1], nowYear, birthYear);
      match AgeGroupOf(us[|us| - 1], nowYear, birthYear) {
        case None => c
        case Some(g) => c[g := c[g] + 1]
      }
  }

  /** Each counter is the number of members whose age falls in its group. */
  lemma {:induction false} AgeGroupCountsExact(us: seq<User>, nowYear: int, birthYear: string -> Option<int>, g: nat)
    requires g < |AgeGroupLabels|
    ensures AgeGroupCounts(us, nowYear, birthYear)[g]
            == Count(us, InAgeGroup(nowYear, birthYear, g))
    decreases |us|
  {
    if us != [] {
      var front := us[..|us| - 1];
      AgeGroupCountsExact(front, nowYear, birthYear, g);
      assert us == front + [us[|us| - 1]];
      FilterAppend(front, us[|us| - 1], InAgeGroup(nowYear, birthYear, g));
    }
  }

  function SumOf(c: seq<nat>): nat
  {
    if c == [] then 0 else c[0] + SumOf(c[1..])
  }

  /** The groups together count every member with an age of 18 or more once,
      so never more than all the members. */
  lemma {:induction false} AgeGroupCountsTotal(us: seq<User>, nowYear: int, birthYear: string -> Option<int>)
    ensures SumOf(AgeGroupCounts(us, nowYear, birthYear)) == Count(us, InSomeAgeGroup(nowYear, birthYear))
    ensures SumOf(AgeGroupCounts(us, nowYear, birthYear)) <= |us|
    decreases |us|
  {
    if us == [] {
      SumOfZeros(AgeGroupCounts(us, nowYear, birthYear));
    } else {
      var front := us[..|us| - 1];
      var last := us[|us| - 1];
      AgeGroupCountsTotal(front, nowYear, birthYear);
      AgeGroupCountsStep(us, nowYear, birthYear);
      assert us == front + [last];
      FilterAppend(front, last, InSomeAgeGroup(nowYear, birthYear));
    }
  }

  /** Visiting one more member adds one to the total exactly when it has a group. */
  lemma AgeGroupCountsStep(us: seq<User>, nowYear: int, birthYear: string -> Option<int>)
    requires us != []
    ensures SumOf(AgeGroupCounts(us, nowYear, birthYear))
            == SumOf(AgeGroupCounts(us[..|us| - 1], nowYear, birthYear))
               + (if AgeGroupOf(us[|us| - 1], nowYear, birthYear).Some? then 1 else 0)
  {
    var c := AgeGroupCounts(us[..|us| - 1], nowYear, birthYear);
    var d := AgeGroupCounts(us, nowYear, birthYear);
    match AgeGroupOf(us[|us| - 1], nowYear, birthYear) {
      case None =>
        assert d == c;
      case Some(g) =>
        assert d == c[g := c[g] + 1];
        SumIncrement(c, g);
    }
  }

  lemma {:induction false} SumOfZeros(c: seq<nat>)
    requires forall i :: 0 <= i < |c| ==> c[i] == 0
    ensures SumOf(c) == 0
  {
    if c != [] {
      SumOfZeros(c[1..]);
    }
  }

  lemma {:induction false} SumIncrement(c: seq<nat>, g: nat)
    requires g < |c|
    ensures SumOf(c[g := c[g] + 1]) == SumOf(c) + 1
  {
    if g > 0 {
      assert c[g := c[g] + 1][1..] == c[1..][g - 1 := c[g] + 1];
      SumIncrement(c[1..], g - 1);
    } else {
      assert c[g := c[g] + 1][1..] == c[1..];
    }
  }

  function Labelled(c: seq<nat>): (r: seq<KeyCount>)
    requires |c| == |AgeGroupLabels|
    ensures |r| == |AgeGroupLabels|
    ensures forall i :: 0 <= i < |r| ==> r[i].key == AgeGroupLabels[i] && r[i].count == c[i]
  {
    seq(|AgeGroupLabels|, i requires 0 <= i < |AgeGroupLabels| => KeyCount(AgeGroupLabels[i], c[i]))
  }

  // ---------------------------------------------------------------------
  // Tallies by key

  function KeysOf(t: seq<KeyCount>): (ks: seq<string>)
    ensures |ks| == |t|
    ensures forall i :: 0 <= i < |t| ==> ks[i] == t[i].key
  {
    if t == [] then [] else [t[0].key] + KeysOf(t[1..])
  }

  /** The count stored for `k`, 0 when `k` has no entry. */
  function CountOf(t: seq<KeyCount>, k: string): nat
  {
    if t == [] then 0 else if t[0].key == k then t[0].count else CountOf(t[1..], k)
  }

  function TotalOf(t: seq<KeyCount>): nat
  {
    if t == [] then 0 else t[0].count + TotalOf(t[1..])
  }

  ghost predicate DistinctKeys(t: seq<KeyCount>)
  {
    forall i, j :: 0 <= i < j < |t| ==> t[i].key != t[j].key
  }

  ghost predicate Positive(t: seq<KeyCount>)
  {
    forall e :: e in t ==> e.count >= 1
  }

  /** One `counts[k] = (counts[k] || 0) + 1`: a known key's entry is
      incremented in place, a new key is appended with count 1. */
  function Bump(t: seq<KeyCount>, k: string): (r: seq<KeyCount>)
    ensures KeysOf(r) == if k in KeysOf(t) then KeysOf(t) else KeysOf(t) + [k]
    ensures forall j :: CountOf(r, j) == CountOf(t, j) + (if j == k then 1 else 0)
    ensures TotalOf(r) == TotalOf(t) + 1
    ensures Positive(t) ==> Positive(r)
  {
    if t == [] then [KeyCount(k, 1)]
    else if t[0].key == k then [t[0].(count := t[0].count + 1)] + t[1..]
    else
      var r := [t[0]] + Bump(t[1..], k);
      assert KeysOf(r) == [t[0].key] + KeysOf(Bump(t[1..], k));
      r
  }

  /** Occurrences of `k` in `s`. */
  function Occurrences(s: seq<string>, k: string): nat
  {
    if s == [] then 0
    else Occurrences(s[..|s| - 1], k) + (if s[|s| - 1] == k then 1 else 0)
  }

  /** The tally of `s` in first-seen order: one entry per distinct value,
      holding the number of its occurrences. */
  function Tally(s: seq<string>): (t: seq<KeyCount>)
    ensures DistinctKeys(t) && Positive(t)
    ensures forall k :: k in KeysOf(t) <==> k in s
    ensures forall k :: CountOf(t, k) == Occurrences(s, k)
    ensures TotalOf(t) == |s|
  {
    if s == [] then []
    else
      var front := s[..|s| - 1];
      assert s == front + [s[|s| - 1]];
      var t := Tally(front);
      BumpKeepsDistinct(t, s[|s| - 1]);
      Bump(t, s[|s| - 1])
  }

  lemma BumpKeepsDistinct(t: seq<KeyCount>, k: string)
    requires DistinctKeys(t)
    ensures DistinctKeys(Bump(t, k))
  {
    var r := Bump(t, k);
    forall i, j | 0 <= i < j < |r| ensures r[i].key != r[j].key {
      assert r[i].key == KeysOf(r)[i] && r[j].key == KeysOf(r)[j];
      if k !in KeysOf(t) && j == |t| {
        assert KeysOf(t)[i] == t[i].key;
      }
    }
  }

  /** Tallying one more value bumps its entry. */
  lemma TallyAppend(s: seq<string>, k: string)
    ensures Tally(s + [k]) == Bump(Tally(s), k)
  {
    assert (s + [k])[..|s|] == s;
  }

  /** With distinct keys, an entry's count is the count looked up by its key. */
  lemma {:induction false} EntryCount(t: seq<KeyCount>, e: KeyCount)
    requires DistinctKeys(t) && e in t
    ensures e.count == CountOf(t, e.key)
  {
    if t[0] != e {
      assert DistinctKeys(t[1..]);
      assert e in t[1..];
      var i :| 0 <= i < |t[1..]| && t[1..][i] == e;
      assert t[0].key != t[i + 1].key;
      EntryCount(t[1..], e);
    }
  }

  function CountDescending(e: KeyCount): int { -(e.count as int) }

  /** `.sort((a, b) => b.count - a.count).slice(0, 10)`; the sort is stable. */
  function TopTen(t: seq<KeyCount>): (r: seq<KeyCount>)
    ensures |r| == Min(10, |t|)
  {
    Take(SortBy(t, CountDescending), 10)
  }

  /** The ten (or fewer) entries with the largest counts, largest first: any
      entry left out counts no more than any entry kept. */
  lemma TopTenProperties(t: seq<KeyCount>)
    ensures var r := TopTen(t);
      && (forall i, j :: 0 <= i < j < |r| ==> r[i].count >= r[j].count)
      && (forall e :: e in r ==> e in t)
      && (forall e :: e in t && e !in r ==> forall f :: f in r ==> e.count <= f.count)
      && (|t| <= 10 ==> forall e :: e in t ==> e in r)
  {
    var sorted := SortBy(t, CountDescending);
    SameMembers(sorted, t);
    TopTenOrdered(t);
    TopTenKeepsLargest(t);
    if |t| <= 10 {
      assert TopTen(t) == sorted;
    }
  }

  lemma TopTenOrdered(t: seq<KeyCount>)
    ensures var r := TopTen(t); forall i, j :: 0 <= i < j < |r| ==> r[i].count >= r[j].count
  {
    var sorted := SortBy(t, CountDescending);
    var r := TopTen(t);
    forall i, j | 0 <= i < j < |r| ensures r[i].count >= r[j].count {
      assert r[i] == sorted[i] && r[j] == sorted[j];
      assert CountDescending(sorted[i]) <= CountDescending(sorted[j]);
    }
  }

  lemma TopTenKeepsLargest(t: seq<KeyCount>)
    ensures var r := TopTen(t);
      && (forall e :: e in r ==> e in t)
      && (forall e :: e in t && e !in r ==> forall f :: f in r ==> e.count <= f.count)
  {
    var sorted := SortBy(t, CountDescending);
    var r := TopTen(t);
    SameMembers(sorted, t);
    assert r == sorted[..|r|];
    forall e | e in r ensures e in t {
      var m :| 0 <= m < |r| && r[m] == e;
      assert sorted[m] == e;
    }
    forall e | e in t && e !in r ensures forall f :: f in r ==> e.count <= f.count {
      var j :| 0 <= j < |sorted| && sorted[j] == e;
      forall f | f in r ensures e.count <= f.count {
        var m :| 0 <= m < |r| && r[m] == f;
        assert sorted[m] == f;
        assert CountDescending(sorted[m]) <= CountDescending(sorted[j]);
      }
    }
  }

  /** The top-ten list of a tally: at most ten entries, by non-increasing
      count, each with its key's true count, and no value left out that
      occurs more often than a listed one. */
  lemma TopTenOfTally(s: seq<string>)
    ensures var r := TopTen(Tally(s));
      && |r| <= 10
      && (forall i, j :: 0 <= i < j < |r| ==> r[i].count >= r[j].count)
      && (forall e :: e in r ==> e.key in s && e.count == Occurrences(s, e.key) && e.count >= 1)
      && (forall k :: k in s && k !in KeysOf(r) ==> forall e :: e in r ==> Occurrences(s, k) <= e.count)
      && (|Tally(s)| <= 10 ==> forall k :: k in s ==> k in KeysOf(r))
  {
    TopTenOrdered(Tally(s));
    TopTenEntriesExact(s);
    TopTenMissesNoLarger(s);
  }

  lemma TopTenEntriesExact(s: seq<string>)
    ensures forall e :: e in TopTen(Tally(s)) ==> e.key in s && e.count == Occurrences(s, e.key) && e.count >= 1
  {
    var t := Tally(s);
    var r := TopTen(t);
    TopTenKeepsLargest(t);
    forall e | e in r ensures e.key in s && e.count == Occurrences(s, e.key) && e.count >= 1 {
      EntryCount(t, e);
      var i :| 0 <= i < |t| && t[i] == e;
      assert KeysOf(t)[i] == e.key;
    }
  }

  lemma TopTenMissesNoLarger(s: seq<string>)
    ensures var r := TopTen(Tally(s));
      && (forall k :: k in s && k !in KeysOf(r) ==> forall e :: e in r ==> Occurrences(s, k) <= e.count)
      && (|Tally(s)| <= 10 ==> forall k :: k in s ==> k in KeysOf(r))
  {
    var t := Tally(s);
    var r := TopTen(t);
    TopTenProperties(t);
    forall k | k in s && k !in KeysOf(r) ensures forall e :: e in r ==> Occurrences(s, k) <= e.count {
      var f := TallyEntry(s, k);
      UnlistedKey(r, f);
    }
    if |t| <= 10 {
      forall k | k in s ensures k in KeysOf(r) {
        var f := TallyEntry(s, k);
        var m :| 0 <= m < |r| && r[m] == f;
        assert KeysOf(r)[m] == k;
      }
    }
  }


  lemma UnlistedKey(r: seq<KeyCount>, f: KeyCount)
    requires f.key !in KeysOf(r)
    ensures f !in r
  {
    forall m | 0 <= m < |r| ensures r[m] != f {
      assert KeysOf(r)[m] == r[m].key;
    }
  }

  /** Every value of `s` has an entry in the tally holding its number of occurrences. */
  lemma TallyEntry(s: seq<string>, k: string) returns (f: KeyCount)
    requires k in s
    ensures f in Tally(s) && f.key == k && f.count == Occurrences(s, k)
  {
    var t := Tally(s);
    var i :| 0 <= i < |t| && KeysOf(t)[i] == k;
    f := t[i];
    EntryCount(t, f);
  }

  /** The neighbourhoods of the members, in order, skipping a missing or
      empty one (the `if (user.bairro)` test). */
  function Neighborhoods(us: seq<User>): (ns: seq<string>)
    ensures |ns| <= |us|
    ensures forall n :: n in ns <==> exists u :: u in us && Present(u.bairro) && u.bairro.value == n
    decreases |us|
  {
    if us == [] then []
    else
      var last := us[|us| - 1];
      assert us == us[..|us| - 1] + [last];
      Neighborhoods(us[..|us| - 1]) + (if Present(last.bairro) then [last.bairro.value] else [])
  }

  /** The professions of the members, in order, skipping a missing or empty one. */
  function Professions(us: seq<User>): (ps: seq<string>)
    ensures |ps| <= |us|
    ensures forall p :: p in ps <==> exists u :: u in us && Present(u.profissao) && u.profissao.value == p
    decreases |us|
  {
    if us == [] then []
    else
      var last := us[|us| - 1];
      assert us == us[..|us| - 1] + [last];
      Professions(us[..|us| - 1]) + (if Present(last.profissao) then [last.profissao.value] else [])
  }

  lemma NeighborhoodsAppend(us: seq<User>, u: User)
    ensures Neighborhoods(us + [u]) == Neighborhoods(us) + (if Present(u.bairro) then [u.bairro.value] else [])
  {
    assert (us + [u])[..|us|] == us;
  }

  lemma ProfessionsAppend(us: seq<User>, u: User)
    ensures Professions(us + [u]) == Professions(us) + (if Present(u.profissao) then [u.profissao.value] else [])
  {
    assert (us + [u])[..|us|] == us;
  }

  /** A member joined recently when the row's creation time is not before
      the moment thirty days ago. */
  function JoinedSince(thirtyDaysAgo: int): User -> bool
  {
    (u: User) => u.createdAt >= thirtyDaysAgo
  }

  /** The recent-member count never exceeds the member count, and counts
      exactly the members created since the cut-off. */
  lemma RecentCountBounded(us: seq<User>, thirtyDaysAgo: int)
    ensures Count(us, JoinedSince(thirtyDaysAgo)) <= |us|
    ensures forall u :: u in Filter(us, JoinedSince(thirtyDaysAgo)) <==> u in us && u.createdAt >= thirtyDaysAgo
  {
  }
}

=== FILE: common.dfy ===
/** Value types and sequence/string helpers shared by every model module:
    the optional value that stands for JavaScript's null/undefined, filtering
    and counting, a stable sort by an integer key (what Array.prototype.sort
    and SQL ORDER BY produce on these lists), and the few string operations
    the application uses (split on one character, join, prefix, substring,
    ASCII lower-casing). */
module Common {

  datatype Option<+T> = None | Some(value: T)

  /** Elements of `s` satisfying `p`, in their original order (Array.prototype.filter). */
  function Filter<T>(s: seq<T>, p: T -> bool): (r: seq<T>)
    ensures |r| <= |s|
    ensures forall x :: x in r ==> x in s && p(x)
    ensures forall x :: x in s && p(x) ==> x in r
  {
    if s == [] then []
    else
      assert s == [s[0]] + s[1..];
      if p(s[0]) then [s[0]] + Filter(s[1..], p)
      else Filter(s[1..], p)
  }

  /** Number of elements of `s` satisfying `p` (filter(...).length). */
  function Count<T>(s: seq<T>, p: T -> bool): nat
  {
    |Filter(s, p)|
  }

  /** The first element of `s` satisfying `p` (Array.prototype.find, or a
      query with LIMIT 1). */
  function Find<T>(s: seq<T>, p: T -> bool): (r: Option<T>)
    ensures r.None? <==> forall x :: x in s ==> !p(x)
    ensures r.Some? ==> r.value in s && p(r.value)
    ensures r.Some? ==> Filter(s, p) != [] && r.value == Filter(s, p)[0]
  {
    if s == [] then None
    else if p(s[0]) then Some(s[0])
    else Find(s[1..], p)
  }

  /** What `find` returns is the element at the first index that satisfies `p`. */
  lemma {:induction false} FindFirst<T>(s: seq<T>, p: T -> bool)
    requires Find(s, p).Some?
    ensures exists k :: 0 <= k < |s| && s[k] == Find(s, p).value && forall j :: 0 <= j < k ==> !p(s[j])
  {
    if p(s[0]) {
      assert s[0] == Find(s, p).value;
    } else {
      FindFirst(s[1..], p);
      var k :| 0 <= k < |s[1..]| && s[1..][k] == Find(s, p).value && forall j :: 0 <= j < k ==> !p(s[1..][j]);
      assert s[k + 1] == Find(s, p).value;
      assert forall j :: 0 <= j < k + 1 ==> !p(s[j]) by {
        forall j | 0 < j < k + 1 ensures !p(s[j]) { assert s[j] == s[1..][j - 1]; }
      }
    }
  }

  /** `a` is an order-preserving subsequence of `b`. */
  ghost predicate IsSubsequence<T>(a: seq<T>, b: seq<T>)
    decreases |b|
  {
    a == [] || (b != [] && ((a[0] == b[0] && IsSubsequence(a[1..], b[1..])) || IsSubsequence(a, b[1..])))
  }

  lemma {:induction false} FilterIsSubsequence<T>(s: seq<T>, p: T -> bool)
    ensures IsSubsequence(Filter(s, p), s)
  {
    if s != [] {
      FilterIsSubsequence(s[1..], p);
      if !p(s[0]) {
        SubsequenceOfTail(Filter(s[1..], p), s);
      }
    }
  }

  lemma {:induction false} SubsequenceOfTail<T>(a: seq<T>, b: seq<T>)
    requires b != [] && IsSubsequence(a, b[1..])
    ensures IsSubsequence(a, b)
  {
  }

  /** Filtering twice by two predicates is filtering once by their conjunction. */
  lemma {:induction false} FilterFilter<T>(s: seq<T>, p: T -> bool, q: T -> bool)
    ensures Filter(Filter(s, p), q) == Filter(s, x => p(x) && q(x))
  {
    if s != [] {
      FilterFilter(s[1..], p, q);
    }
  }

  /** A filter by a predicate every element satisfies changes nothing. */
  lemma {:induction false} FilterAll<T>(s: seq<T>, p: T -> bool)
    requires forall x :: x in s ==> p(x)
    ensures Filter(s, p) == s
  {
    if s != [] {
      FilterAll(s[1..], p);
    }
  }

  /** The elements satisfying `p` and those not satisfying it add up to the whole. */
  lemma {:induction false} CountSplit<T>(s: seq<T>, p: T -> bool)
    ensures Count(s, p) + Count(s, x => !p(x)) == |s|
  {
    if s != [] {
      CountSplit(s[1..], p);
    }
  }

  /** A predicate and its complement, however written, split the sequence. */
  lemma {:induction false} CountComplement<T>(s: seq<T>, p: T -> bool, q: T -> bool)
    requires forall x :: q(x) <==> !p(x)
    ensures Count(s, p) + Count(s, q) == |s|
  {
    if s != [] {
      CountComplement(s[1..], p, q);
    }
  }

  /** Replacing one element changes a count by what the old and new elements contribute. */
  lemma {:induction false} CountUpdate<T>(s: seq<T>, k: nat, y: T, p: T -> bool)
    requires k < |s|
    ensures Count(s[k := y], p) + (if p(s[k]) then 1 else 0) == Count(s, p) + (if p(y) then 1 else 0)
  {
    var t := s[k := y];
    assert |Filter(t, p)| == (if p(t[0]) then 1 else 0) + |Filter(t[1..], p)|;
    assert |Filter(s, p)| == (if p(s[0]) then 1 else 0) + |Filter(s[1..], p)|;
    if k == 0 {
      assert t[1..] == s[1..];
    } else {
      assert t[1..] == s[1..][k - 1 := y];
      CountUpdate(s[1..], k - 1, y, p);
    }
  }

  /** Two predicates no element satisfies together select at most |s| elements between them. */
  lemma {:induction false} CountDisjoint<T>(s: seq<T>, p: T -> bool, q: T -> bool)
    requires forall x :: !(p(x) && q(x))
    ensures Count(s, p) + Count(s, q) <= |s|
  {
    if s != [] {
      CountDisjoint(s[1..], p, q);
    }
  }

  /** Filtering distributes over appending one element. */
  lemma {:induction false} FilterAppend<T>(s: seq<T>, x: T, p: T -> bool)
    ensures Filter(s + [x], p) == Filter(s, p) + (if p(x) then [x] else [])
  {
    if s == [] {
      assert s + [x] == [x];
    } else {
      var sx := s + [x];
      var head := if p(s[0]) then [s[0]] else [];
      var tail := if p(x) then [x] else [];
      assert sx[0] == s[0] && sx[1..] == s[1..] + [x];
      FilterAppend(s[1..], x, p);
      assert Filter(sx, p) == head + (Filter(s[1..], p) + tail);
      assert Filter(s, p) == head + Filter(s[1..], p);
      assert head + (Filter(s[1..], p) + tail) == (head + Filter(s[1..], p)) + tail;
    }
  }

  /** A filter keeps each element at most as often as the list holds it. */
  lemma {:induction false} FilterSubMultiset<T>(s: seq<T>, p: T -> bool)
    ensures multiset(Filter(s, p)) <= multiset(s)
  {
    if s != [] {
      assert s == [s[0]] + s[1..];
      FilterSubMultiset(s[1..], p);
    }
  }

  /** A filter by a predicate no element satisfies is empty. */
  lemma {:induction false} FilterNone<T>(s: seq<T>, p: T -> bool)
    requires forall x :: x in s ==> !p(x)
    ensures Filter(s, p) == []
  {
    if s != [] {
      FilterNone(s[1..], p);
    }
  }

  /** Filters by two predicates that no element satisfies together have disjoint results. */
  lemma FilterDisjoint<T>(s: seq<T>, p: T -> bool, q: T -> bool)
    requires forall x :: !(p(x) && q(x))
    ensures forall x :: x in Filter(s, p) ==> x !in Filter(s, q)
  {
  }

  // ---------------------------------------------------------------------
  // Stable sort by an integer key

  ghost predicate SortedBy<T>(s: seq<T>, key: T -> int)
  {
    forall i, j :: 0 <= i < j < |s| ==> key(s[i]) <= key(s[j])
  }

  /** Inserts `x` before the first element whose key is not smaller, so that
      `x` stays ahead of the equal elements that came after it in the input. */
  function InsertBy<T>(x: T, s: seq<T>, key: T -> int): (r: seq<T>)
    requires SortedBy(s, key)
    ensures SortedBy(r, key)
    ensures multiset(r) == multiset(s) + multiset{x}
    ensures |r| == |s| + 1
  {
    if s == [] then [x]
    else if key(x) <= key(s[0]) then [x] + s
    else
      var rest := InsertBy(x, s[1..], key);
      assert s == [s[0]] + s[1..];
      InsertedAfterHead(x, s, key, rest);
      [s[0]] + rest
  }

  /** Every element of the tail, and `x` when its key is larger, has a key no
      smaller than the head's. */
  lemma InsertedAfterHead<T>(x: T, s: seq<T>, key: T -> int, rest: seq<T>)
    requires SortedBy(s, key) && s != [] && key(s[0]) < key(x)
    requires multiset(rest) == multiset(s[1..]) + multiset{x}
    ensures forall j :: 0 <= j < |rest| ==> key(s[0]) <= key(rest[j])
  {
    forall j | 0 <= j < |rest| ensures key(s[0]) <= key(rest[j]) {
      var y := rest[j];
      assert y in multiset(rest);
      if y != x {
        assert y in multiset(s[1..]);
        var i :| 0 <= i < |s[1..]| && s[1..][i] == y;
        assert s[i + 1] == y;
      }
    }
  }

  /** A stable insertion sort by `key`: a sorted permutation of `s`. */
  function SortBy<T>(s: seq<T>, key: T -> int): (r: seq<T>)
    ensures SortedBy(r, key)
    ensures multiset(r) == multiset(s)
    ensures |r| == |s|
  {
    if s == [] then []
    else
      assert s == [s[0]] + s[1..];
      InsertBy(s[0], SortBy(s[1..], key), key)
  }

  /** The elements whose key is `k`. */
  function KeyIs<T>(key: T -> int, k: int): T -> bool
  {
    (x: T) => key(x) == k
  }

  /** Inserting `x` puts it ahead of every element of equal key and keeps
      the others of that key in their order. */
  lemma {:induction false} InsertByKeepsTies<T>(x: T, s: seq<T>, key: T -> int, k: int)
    requires SortedBy(s, key)
    ensures Filter(InsertBy(x, s, key), KeyIs(key, k)) == (if key(x) == k then [x] else []) + Filter(s, KeyIs(key, k))
  {
    var p := KeyIs(key, k);
    if s == [] {
      assert InsertBy(x, s, key) == [x];
      assert [x][1..] == [];
    } else if key(x) <= key(s[0]) {
      var r := [x] + s;
      assert InsertBy(x, s, key) == r;
      assert r[0] == x && r[1..] == s;
    } else {
      assert SortedBy(s[1..], key);
      InsertByKeepsTies(x, s[1..], key, k);
      var rest := InsertBy(x, s[1..], key);
      var r := [s[0]] + rest;
      assert InsertBy(x, s, key) == r;
      assert r[0] == s[0] && r[1..] == rest;
      assert Filter(r, p) == (if p(s[0]) then [s[0]] else []) + Filter(rest, p);
      assert Filter(s, p) == (if p(s[0]) then [s[0]] else []) + Filter(s[1..], p);
    }
  }

  /** Sorting is stable: the elements of each key keep their input order. */
  lemma {:induction false} SortByStable<T>(s: seq<T>, key: T -> int, k: int)
    ensures Filter(SortBy(s, key), KeyIs(key, k)) == Filter(s, KeyIs(key, k))
  {
    if s != [] {
      SortByStable(s[1..], key, k);
      InsertByKeepsTies(s[0], SortBy(s[1..], key), key, k);
      assert SortBy(s, key) == InsertBy(s[0], SortBy(s[1..], key), key);
      assert Filter(s, KeyIs(key, k)) == (if key(s[0]) == k then [s[0]] else []) + Filter(s[1..], KeyIs(key, k));
    }
  }

  /** Sorting a list already in order returns it unchanged. */
  lemma {:induction false} SortBySorted<T>(s: seq<T>, key: T -> int)
    requires SortedBy(s, key)
    ensures SortBy(s, key) == s
  {
    if s != [] {
      assert SortedBy(s[1..], key);
      SortBySorted(s[1..], key);
      if |s| > 1 {
        assert key(s[0]) <= key(s[1..][0]);
      }
    }
  }

  /** Filtering a sorted list keeps it sorted. */
  lemma {:induction false} FilterSorted<T>(s: seq<T>, p: T -> bool, key: T -> int)
    requires SortedBy(s, key)
    ensures SortedBy(Filter(s, p), key)
  {
    if s != [] {
      assert SortedBy(s[1..], key);
      FilterSorted(s[1..], p, key);
      var rest := Filter(s[1..], p);
      if p(s[0]) {
        forall x | x in rest ensures key(s[0]) <= key(x) {
          var k :| 0 <= k < |s[1..]| && s[1..][k] == x;
        }
      }
    }
  }

  /** Two permutations of each other have the same elements. */
  lemma SameMembers<T>(a: seq<T>, b: seq<T>)
    requires multiset(a) == multiset(b)
    ensures forall x :: x in a <==> x in b
  {
    forall x ensures x in a <==> x in b {
      assert x in a <==> x in multiset(a);
      assert x in b <==> x in multiset(b);
    }
  }

  // ---------------------------------------------------------------------
  // Keys

  /** No two rows of `s` agree on `key` (a primary key or a unique column). */
  ghost predicate KeysDistinct<T, K>(s: seq<T>, key: T -> K)
  {
    forall i, j :: 0 <= i < j < |s| ==> key(s[i]) != key(s[j])
  }

  /** Appending a row whose key no existing row has keeps the keys distinct. */
  lemma AppendFresh<T, K>(s: seq<T>, key: T -> K, x: T)
    requires KeysDistinct(s, key)
    requires forall y :: y in s ==> key(y) != key(x)
    ensures KeysDistinct(s + [x], key)
  {
    forall i, j | 0 <= i < j < |s + [x]| ensures key((s + [x])[i]) != key((s + [x])[j]) {
      if j == |s| {
        assert s[i] in s;
      }
    }
  }

  /** Deleting rows never makes two remaining rows share a key. */
  lemma {:induction false} FilterKeepsKeys<T, K>(s: seq<T>, key: T -> K, p: T -> bool)
    requires KeysDistinct(s, key)
    ensures KeysDistinct(Filter(s, p), key)
  {
    if s != [] {
      var tail := s[1..];
      assert KeysDistinct(tail, key);
      FilterKeepsKeys(tail, key, p);
      if p(s[0]) {
        forall y | y in Filter(tail, p) ensures key(y) != key(s[0]) {
          var k :| 0 <= k < |tail| && tail[k] == y;
          assert s[k + 1] == y;
        }
        PrependFresh(s[0], Filter(tail, p), key);
      }
    }
  }

  lemma PrependFresh<T, K>(x: T, s: seq<T>, key: T -> K)
    requires KeysDistinct(s, key)
    requires forall y :: y in s ==> key(y) != key(x)
    ensures KeysDistinct([x] + s, key)
  {
    forall i, j | 0 <= i < j < |[x] + s| ensures key(([x] + s)[i]) != key(([x] + s)[j]) {
      if i == 0 {
        assert ([x] + s)[j] == s[j - 1];
        assert s[j - 1] in s;
      } else {
        assert ([x] + s)[i] == s[i - 1] && ([x] + s)[j] == s[j - 1];
      }
    }
  }

  /** The row holding a key is the only one with it. */
  lemma UniqueKey<T, K>(s: seq<T>, key: T -> K, x: T)
    requires KeysDistinct(s, key) && x in s
    ensures forall y :: y in s && key(y) == key(x) ==> y == x
  {
    forall y | y in s && key(y) == key(x) ensures y == x {
      var i :| 0 <= i < |s| && s[i] == x;
      var j :| 0 <= j < |s| && s[j] == y;
    }
  }

  /** An update that leaves every row's key as it was keeps the keys distinct
      and the set of keys the same. */
  lemma SameKeys<T, K>(s: seq<T>, r: seq<T>, key: T -> K)
    requires KeysDistinct(s, key)
    requires |r| == |s| && forall k :: 0 <= k < |s| ==> key(r[k]) == key(s[k])
    ensures KeysDistinct(r, key)
    ensures forall y :: y in r ==> exists x :: x in s && key(x) == key(y)
    ensures forall x :: x in s ==> exists y :: y in r && key(x) == key(y)
  {
    forall y | y in r ensures exists x :: x in s && key(x) == key(y) {
      var k :| 0 <= k < |r| && r[k] == y;
      assert s[k] in s;
    }
    forall x | x in s ensures exists y :: y in r && key(x) == key(y) {
      var k :| 0 <= k < |s| && s[k] == x;
      assert r[k] in r;
    }
  }

  // ---------------------------------------------------------------------
  // Strings

  function Min(a: int, b: int): int { if a <= b then a else b }

  /** JavaScript truthiness of an optional string: present and non-empty. */
  predicate Present(o: Option<string>)
  {
    o.Some? && o.value != ""
  }

  /** `value || ""`: the text when it is truthy, the empty text otherwise. */
  function OrEmpty(o: Option<string>): (s: string)
    ensures Present(o) ==> s == o.value
    ensures !Present(o) ==> s == ""
  {
    if o.Some? then o.value else ""
  }

  /** JavaScript truthiness of an optional flag (`flag ?? false`, `!!flag`):
      only a present true counts. */
  predicate OrFalse(flag: Option<bool>)
  {
    flag == Some(true)
  }

  function Take<T>(s: seq<T>, n: nat): (r: seq<T>)
    ensures |r| == Min(n, |s|)
    ensures r == s[..Min(n, |s|)]
  {
    if n <= |s| then s[..n] else s
  }

  predicate StartsWith(s: string, prefix: string)
  {
    |prefix| <= |s| && s[..|prefix|] == prefix
  }

  /** `t` occurs somewhere in `s` (String.prototype.includes). */
  predicate Contains(s: string, t: string)
    decreases |s|
  {
    StartsWith(s, t) || (s != [] && Contains(s[1..], t))
  }

  lemma {:induction false} ContainsEmpty(s: string)
    ensures Contains(s, "")
  {
  }

  /** Index of the first occurrence of `c`, or |s| when there is none. */
  function IndexOf(s: string, c: char): (i: nat)
    ensures i <= |s|
    ensures c !in s[..i]
    ensures i < |s| <==> c in s
    ensures i < |s| ==> s[i] == c
  {
    if s == [] then 0
    else if s[0] == c then 0
    else
      var k := IndexOf(s[1..], c);
      assert s[..1 + k] == [s[0]] + s[1..][..k];
      1 + k
  }

  /** String.prototype.split with a one-character separator. */
  function Split(s: string, c: char): (r: seq<string>)
    ensures |r| >= 1
    ensures r[0] == s[..IndexOf(s, c)]
    ensures forall k :: 0 <= k < |r| ==> c !in r[k]
    decreases |s|
  {
    var i := IndexOf(s, c);
    if i == |s| then [s]
    else [s[..i]] + Split(s[i + 1..], c)
  }

  lemma {:induction false} SplitNoSeparator(s: string, c: char)
    requires c !in s
    ensures Split(s, c) == [s]
  {
  }

  /** Array.prototype.join. */
  function Join(parts: seq<string>, sep: string): (r: string)
    ensures parts == [] ==> r == ""
    ensures |parts| == 1 ==> r == parts[0]
  {
    if parts == [] then ""
    else if |parts| == 1 then parts[0]
    else parts[0] + sep + Join(parts[1..], sep)
  }

  /** A character that neither the parts nor the separator contain is not in the join. */
  lemma {:induction false} JoinAvoids(parts: seq<string>, sep: string, c: char)
    requires c !in sep
    requires forall k :: 0 <= k < |parts| ==> c !in parts[k]
    ensures c !in Join(parts, sep)
  {
    if |parts| > 1 {
      JoinAvoids(parts[1..], sep, c);
    }
  }

  /** Joining and splitting on a separator that no part contains are inverse. */
  lemma {:induction false} SplitJoin(parts: seq<string>, c: char)
    requires |parts| >= 1
    requires forall k :: 0 <= k < |parts| ==> c !in parts[k]
    ensures Split(Join(parts, [c]), c) == parts
  {
    if |parts| == 1 {
      SplitNoSeparator(parts[0], c);
    } else {
      var rest := Join(parts[1..], [c]);
      assert Join(parts, [c]) == parts[0] + [c] + rest;
      SplitJoin(parts[1..], c);
      SplitAfterFirst(parts[0], c, rest);
      assert parts == [parts[0]] + parts[1..];
    }
  }

  lemma SplitAfterFirst(a: string, c: char, b: string)
    requires c !in a
    ensures Split(a + [c] + b, c) == [a] + Split(b, c)
  {
    var j := a + [c] + b;
    IndexOfConcat(a, c, b);
    assert j[|a| + 1..] == b;
  }

  lemma {:induction false} IndexOfConcat(a: string, c: char, b: string)
    requires c !in a
    ensures IndexOf(a + [c] + b, c) == |a|
    ensures (a + [c] + b)[..|a|] == a
  {
    if a != [] {
      assert (a + [c] + b)[1..] == a[1..] + [c] + b;
      IndexOfConcat(a[1..], c, b);
    }
  }

  /** Number of occurrences of the separator plus one pieces. */
  function CountChar(s: string, c: char): nat
  {
    if s == [] then 0 else (if s[0] == c then 1 else 0) + CountChar(s[1..], c)
  }

  function LowerChar(c: char): char
  {
    if 'A' <= c <= 'Z' then (c as int + 32) as char else c
  }

  /** ASCII lower-casing (String.prototype.toLowerCase restricted to A-Z). */
  function Lower(s: string): (r: string)
    ensures |r| == |s|
    ensures forall k :: 0 <= k < |s| ==> r[k] == LowerChar(s[k])
  {
    if s == [] then [] else [LowerChar(s[0])] + Lower(s[1..])
  }

  /** Decimal digits of a natural number (String(n) for n >= 0). */
  function NatToString(n: nat): (r: string)
    ensures |r| >= 1
    ensures forall k :: 0 <= k < |r| ==> '0' <= r[k] <= '9'
    ensures n < 10 ==> |r| == 1
    ensures 10 <= n < 100 ==> |r| == 2
    ensures 1000 <= n < 10000 ==> |r| == 4
  {
    if n < 10 then [Digit(n)] else NatToString(n / 10) + [Digit(n % 10)]
  }

  function Digit(d: nat): (c: char)
    requires d < 10
    ensures '0' <= c <= '9'
  {
    ('0' as int + d) as char
  }

  /** String(n) for any integer. */
  function IntToString(n: int): (r: string)
    ensures |r| >= 1
  {
    if n < 0 then "-" + NatToString(-n) else NatToString(n)
  }

  /** The characters JavaScript counts as white space (what `trim` removes and
      `parseInt` skips): the white-space and line-terminator code points. */
  predicate IsJsWhitespace(c: char)
  {
    c == ' ' || c == '\t' || c == '\n' || c == '\r' || c == '\U{000B}' || c == '\U{000C}'
    || c == '\U{00A0}' || c == '\U{1680}' || ('\U{2000}' <= c <= '\U{200A}')
    || c == '\U{2028}' || c == '\U{2029}' || c == '\U{202F}' || c == '\U{205F}'
    || c == '\U{3000}' || c == '\U{FEFF}'
  }
}

=== FILE: courses.dfy ===
/** The course pages: the admin course page (client/src/pages/admin-courses.tsx)
    and the member course page (client/src/pages/member-courses.tsx) both list
    a course's lessons sorted by `ordem` and numbered from 1; the admin page
    also creates lessons for the selected course. The admin course details
    page (client/src/pages/admin-course-details.tsx) lists the enrolled
    students and the users that can still be enrolled. */
module Courses {
  import opened Common
  import opened Schema
  import opened Storage
  import opened Routes

  // ---------------------------------------------------------------------
  // Lesson lists

  /** A lesson card: its number and the lesson. */
  datatype LessonRow = LessonRow(number: nat, lesson: Lesson)

  /** `lessons.sort((a, b) => a.ordem - b.ordem).map((lesson, index) => ...)`:
      a stable sort by `ordem`, then cards numbered 1..n. */
  function LessonRows(lessons: seq<Lesson>): (rows: seq<LessonRow>)
    ensures |rows| == |lessons|
    ensures forall k :: 0 <= k < |rows| ==> rows[k].number == k + 1
    ensures forall i, j :: 0 <= i < j < |rows| ==> rows[i].lesson.ordem <= rows[j].lesson.ordem
    ensures multiset(seq(|rows|, k requires 0 <= k < |rows| => rows[k].lesson)) == multiset(lessons)
  {
    var sorted := SortBy(lessons, LessonOrdem);
    var rows := seq(|sorted|, k requires 0 <= k < |sorted| => LessonRow(k + 1, sorted[k]));
    assert seq(|rows|, k requires 0 <= k < |rows| => rows[k].lesson) == sorted;
    rows
  }

  /** The server already returns a course's lessons sorted by `ordem`, so the
      page's sort keeps the server's order. */
  lemma ServerOrderKept(lessons: seq<Lesson>)
    requires SortedBy(lessons, LessonOrdem)
    ensures forall k :: 0 <= k < |lessons| ==> LessonRows(lessons)[k] == LessonRow(k + 1, lessons[k])
  {
    SortBySorted(lessons, LessonOrdem);
  }

  // ---------------------------------------------------------------------
  // Creating a lesson (admin page)

  /** The lesson form's defaults. */
  const LessonFormDefaults := InsertLesson(0, "", "", "", Some(0))

  /** onCreateLesson: nothing without a selected course; otherwise the form's
      data with `cursoId` replaced by the selected course's id. */
  function CreateLessonPayload(selected: Option<Course>, data: InsertLesson): (r: Option<InsertLesson>)
    ensures r.None? <==> selected.None?
    ensures r.Some? ==> r.value.cursoId == selected.value.id
    ensures r.Some? ==> r.value.(cursoId := data.cursoId) == data
  {
    match selected
    case None => None
    case Some(c) => Some(data.(cursoId := c.id))
  }

  /** The lesson the server stores from that payload belongs to the selected
      course, whatever the form's own `cursoId` was. */
  lemma CreatedLessonBelongsToCourse(c: Course, data: InsertLesson, id: int, now: int)
    ensures NewLesson(CreateLessonPayload(Some(c), data).value, id, now).cursoId == c.id
    ensures NewLesson(CreateLessonPayload(Some(c), LessonFormDefaults).value, id, now).ordem == 0
  {
  }

  // ---------------------------------------------------------------------
  // Enrolment (admin course details page)

  function UserIds(users: seq<PublicUser>): (ids: set<int>)
    ensures forall id :: id in ids <==> exists u :: u in users && u.id == id
  {
    set u | u in users :: u.id
  }

  function NotIn(ids: set<int>): PublicUser -> bool
  {
    (u: PublicUser) => u.id !in ids
  }

  /** usersToEnroll: the users, in order, whose id no enrolled user has. */
  function UsersToEnroll(allUsers: seq<PublicUser>, enrolled: seq<PublicUser>): (r: seq<PublicUser>)
    ensures IsSubsequence(r, allUsers)
    ensures forall u :: u in r ==> u in allUsers && forall e :: e in enrolled ==> e.id != u.id
    ensures forall u :: u in allUsers && (forall e :: e in enrolled ==> e.id != u.id) ==> u in r
  {
    var ids := UserIds(enrolled);
    FilterIsSubsequence(allUsers, NotIn(ids));
    Filter(allUsers, NotIn(ids))
  }

  /** Once a user is enrolled, it is no longer offered. */
  lemma EnrolledNotOffered(allUsers: seq<PublicUser>, enrolled: seq<PublicUser>, u: PublicUser)
    ensures u !in UsersToEnroll(allUsers, enrolled + [u])
  {
    assert u in enrolled + [u];
  }

  function InIds(ids: set<int>): PublicUser -> bool
  {
    (u: PublicUser) => u.id in ids
  }

  /** The offered users and the users already enrolled split the user list. */
  lemma EnrolPartition(allUsers: seq<PublicUser>, enrolled: seq<PublicUser>)
    ensures |UsersToEnroll(allUsers, enrolled)| + Count(allUsers, InIds(UserIds(enrolled))) == |allUsers|
  {
    var ids := UserIds(enrolled);
    CountComplement(allUsers, InIds(ids), NotIn(ids));
  }

  datatype DetailsView =
    | LoadingDetails
    | Details(studentCount: nat, noStudents: bool, toEnroll: seq<PublicUser>, allEnrolled: bool)

  /** The details page: loading until the course, user and enrolment queries
      are done; then the student count, the two empty-list messages and the
      users offered. */
  function CourseDetails(courseLoading: bool, usersLoading: bool, enrolledLoading: bool,
                         allUsers: seq<PublicUser>, enrolled: seq<PublicUser>): (v: DetailsView)
    ensures v.LoadingDetails? <==> courseLoading || usersLoading || enrolledLoading
    ensures v.Details? ==> v.studentCount == |enrolled| && (v.noStudents <==> enrolled == [])
    ensures v.Details? ==> v.toEnroll == UsersToEnroll(allUsers, enrolled) && (v.allEnrolled <==> v.toEnroll == [])
  {
    if courseLoading || usersLoading || enrolledLoading then LoadingDetails
    else
      var toEnroll := UsersToEnroll(allUsers, enrolled);
      Details(|enrolled|, |enrolled| == 0, toEnroll, |toEnroll| == 0)
  }

  /** "All enrolled" shows exactly when every user's id is among the enrolled ids. */
  lemma AllEnrolledMessage(allUsers: seq<PublicUser>, enrolled: seq<PublicUser>)
    ensures CourseDetails(false, false, false, allUsers, enrolled).allEnrolled <==>
              forall u :: u in allUsers ==> exists e :: e in enrolled && e.id == u.id
  {
    var r := UsersToEnroll(allUsers, enrolled);
    if r != [] {
      assert r[0] in r;
    }
  }
}

=== FILE: dashboards.dfy ===
/** The two dashboards. The member dashboard
    (client/src/pages/member-dashboard.tsx) shows this month's birthdays
    sorted by day with today's set apart, the course and material counts,
    and the first courses and PDFs. The admin dashboard
    (client/src/pages/admin-dashboard.tsx) shows how many members and
    administrators there are, and the sizes of the other lists. */
module Dashboards {
  import opened Common
  import opened Schema
  import opened Routes
  import Materials

  // ---------------------------------------------------------------------
  // Birthdays (member dashboard)

  /** A birthday as the birthday query returns it. */
  datatype Birthday = Birthday(id: int, nome: string, fotoPerfil: Option<string>,
                               dataNascimento: string, dia: int, mes: int)

  /** The month the query asks for: `getMonth() + 1`, where `getMonth()` is 0..11. */
  function QueryMonth(monthIndex: int): (m: int)
    requires 0 <= monthIndex < 12
    ensures 1 <= m <= 12
    ensures m - 1 == monthIndex
  {
    monthIndex + 1
  }

  function Dia(b: Birthday): int { b.dia }

  function OnDay(today: int): Birthday -> bool
  {
    (b: Birthday) => b.dia == today
  }

  function NotOnDay(today: int): Birthday -> bool
  {
    (b: Birthday) => b.dia != today
  }

  /** `[...aniversariantes].sort((a, b) => a.dia - b.dia)`: a sorted copy; the
      fetched list is a value and stays as it was. */
  function SortedBirthdays(bs: seq<Birthday>): (r: seq<Birthday>)
    ensures |r| == |bs|
    ensures SortedBy(r, Dia)
    ensures multiset(r) == multiset(bs)
  {
    SortBy(bs, Dia)
  }

  /** The birthday card: loading, the empty message, or the two lists. */
  datatype BirthdayCard =
    | LoadingBirthdays
    | NoBirthdays
    | BirthdayLists(today: seq<Birthday>, others: seq<Birthday>)

  function BirthdayView(isLoading: bool, bs: seq<Birthday>, today: int): (v: BirthdayCard)
    ensures v.LoadingBirthdays? <==> isLoading
    ensures v.NoBirthdays? <==> !isLoading && bs == []
    ensures v.BirthdayLists? ==>
              v.today == Filter(SortedBirthdays(bs), OnDay(today))
              && v.others == Filter(SortedBirthdays(bs), NotOnDay(today))
  {
    if isLoading then LoadingBirthdays
    else if |bs| == 0 then NoBirthdays
    else
      var sorted := SortedBirthdays(bs);
      BirthdayLists(Filter(sorted, OnDay(today)), Filter(sorted, NotOnDay(today)))
  }

  /** Today's block holds exactly the fetched birthdays on today's day, the
      other list exactly the rest; each person is in one of them, and both
      lists keep the order by day. */
  lemma {:induction false} BirthdaySplit(bs: seq<Birthday>, today: int)
    requires bs != []
    ensures var v := BirthdayView(false, bs, today);
            && (forall b :: b in v.today <==> b in bs && b.dia == today)
            && (forall b :: b in v.others <==> b in bs && b.dia != today)
            && |v.today| + |v.others| == |bs|
            && SortedBy(v.today, Dia) && SortedBy(v.others, Dia)
  {
    var sorted := SortedBirthdays(bs);
    SameMembers(sorted, bs);
    CountComplement(sorted, OnDay(today), NotOnDay(today));
    FilterSorted(sorted, OnDay(today), Dia);
    FilterSorted(sorted, NotOnDay(today), Dia);
  }

  // ---------------------------------------------------------------------
  // Counts and previews (member dashboard)

  datatype MemberStats = MemberStats(courses: nat, pdfs: nat, videos: nat,
                                     shownCourses: seq<Course>, shownPdfs: seq<Material>)

  const CoursePreview := 3
  const PdfPreview := 4

  function MemberDashboard(courses: seq<Course>, materials: seq<Material>): (s: MemberStats)
    ensures s.courses == |courses|
    ensures s.pdfs == Count(materials, Materials.OfTipo(Materials.Pdf))
    ensures s.videos == Count(materials, Materials.OfTipo(Materials.Video))
    ensures s.pdfs + s.videos <= |materials|
    ensures |s.shownCourses| == Min(CoursePreview, |courses|) && s.shownCourses <= courses
    ensures |s.shownPdfs| <= PdfPreview
    ensures forall m :: m in s.shownPdfs ==> m in materials && m.tipo == Materials.Pdf
  {
    Materials.TabsPartition(materials);
    var pdfs := Materials.MaterialsOf(materials, Materials.Pdf);
    var videos := Materials.MaterialsOf(materials, Materials.Video);
    var shown := Take(pdfs, PdfPreview);
    assert forall m :: m in shown ==> m in pdfs;
    MemberStats(|courses|, |pdfs|, |videos|, Take(courses, CoursePreview), shown)
  }

  /** The PDF preview is the first four PDFs in the list's order. */
  lemma PdfPreviewIsFirstPdfs(courses: seq<Course>, materials: seq<Material>)
    ensures var s := MemberDashboard(courses, materials);
            s.shownPdfs <= Materials.MaterialsOf(materials, Materials.Pdf)
            && |s.shownPdfs| == Min(PdfPreview, s.pdfs)
  {
  }

  // ---------------------------------------------------------------------
  // Admin dashboard

  function IsAdmin(u: PublicUser): bool { u.isAdmin }

  function IsMember(u: PublicUser): bool { !u.isAdmin }

  datatype AdminStats = AdminStats(members: nat, admins: nat, courses: nat, events: nat, materials: nat)

  function AdminDashboard(users: seq<PublicUser>, courses: seq<Course>, events: seq<Event>,
                          materials: seq<Material>): (s: AdminStats)
    ensures s.members == Count(users, IsMember) && s.admins == Count(users, IsAdmin)
    ensures s.courses == |courses| && s.events == |events| && s.materials == |materials|
  {
    AdminStats(|Filter(users, IsMember)|, |Filter(users, IsAdmin)|, |courses|, |events|, |materials|)
  }

  /** Every user is counted once, as a member or as an administrator. */
  lemma MembersPlusAdmins(users: seq<PublicUser>, courses: seq<Course>, events: seq<Event>,
                          materials: seq<Material>)
    ensures var s := AdminDashboard(users, courses, events, materials);
            s.members + s.admins == |users|
  {
    CountComplement(users, IsAdmin, IsMember);
  }

  /** Granting administrator rights to a member moves one person from the
      member count to the administrator count. */
  lemma PromotionMovesOne(before: seq<PublicUser>, k: nat)
    requires k < |before| && !before[k].isAdmin
    ensures var after := before[k := before[k].(isAdmin := true)];
            Count(after, IsAdmin) == Count(before, IsAdmin) + 1
            && Count(after, IsMember) + 1 == Count(before, IsMember)
  {
    CountUpdate(before, k, before[k].(isAdmin := true), IsAdmin);
    CountUpdate(before, k, before[k].(isAdmin := true), IsMember);
  }
}

=== FILE: date_utils.dfy ===
/** formatDateForInput (client/src/lib/dateUtils.ts): the "YYYY-MM-DD" text a
    date input expects, from either the text the server sent or a calendar
    date. A calendar date arrives as its local year, zero-based month and day
    of the month; time zones are left out. */
module DateUtils {
  import opened Common
  import opened JsNumber

  datatype DateInput = Text(s: string) | Date(year: int, month0: nat, day: nat)

  /** String.prototype.padStart(width, '0'). */
  function PadStart(s: string, width: nat): (r: string)
    ensures |r| == if |s| >= width then |s| else width
    ensures r[|r| - |s|..] == s
    ensures forall k :: 0 <= k < |r| - |s| ==> r[k] == '0'
    decreases width - |s|
  {
    if |s| >= width then s else PadStart("0" + s, width)
  }

  /** Two digits of a day or month number below 100, which read back as it. */
  function TwoDigits(n: nat): (r: string)
    requires n < 100
    ensures |r| == 2 && IsDigitChar(r[0]) && IsDigitChar(r[1])
    ensures DigitValue(r[0]) * 10 + DigitValue(r[1]) == n
  {
    PaddedDigits(n);
    PadStart(NatToString(n), 2)
  }

  /** `String(n).padStart(2, '0')` spelled out: a leading zero below 10. */
  lemma PaddedDigits(n: nat)
    requires n < 100
    ensures PadStart(NatToString(n), 2) == if n < 10 then ['0', Digit(n)] else [Digit(n / 10), Digit(n % 10)]
  {
    var s := NatToString(n);
    if n < 10 {
      assert s == [Digit(n)];
      assert PadStart(s, 2) == PadStart("0" + s, 2) == "0" + s;
    } else {
      assert NatToString(n / 10) == [Digit(n / 10)];
      assert s == [Digit(n / 10), Digit(n % 10)];
    }
  }

  /** `r` is "<year>-MM-DD": the year as `String` prints it, then the month
      and the day as two digits each, which read back as `month` and `day`. */
  ghost predicate IsDateText(r: string, year: int, month: int, day: int)
  {
    HasDateFields(r, IntToString(year), month, day)
  }

  /** `r` is `y`, a dash, two digits denoting `month`, a dash and two digits
      denoting `day`. */
  ghost predicate HasDateFields(r: string, y: string, month: int, day: int)
  {
    && |r| == |y| + 6
    && r[..|y|] == y
    && r[|y|] == '-' && r[|y| + 3] == '-'
    && IsDigitChar(r[|y| + 1]) && IsDigitChar(r[|y| + 2])
    && IsDigitChar(r[|y| + 4]) && IsDigitChar(r[|y| + 5])
    && DigitValue(r[|y| + 1]) * 10 + DigitValue(r[|y| + 2]) == month
    && DigitValue(r[|y| + 4]) * 10 + DigitValue(r[|y| + 5]) == day
  }

  /** `${year}-${month}-${day}` with the month counted from 1 and both
      month and day padded to two digits. */
  function DateText(year: int, month0: nat, day: nat): (r: string)
    requires month0 < 12 && 1 <= day <= 31
    ensures IsDateText(r, year, month0 + 1, day)
    ensures 1000 <= year <= 9999 ==> |r| == 10 && r[4] == '-' && r[7] == '-'
    ensures 'T' !in r
  {
    var y := IntToString(year);
    var m := TwoDigits(month0 + 1);
    var d := TwoDigits(day);
    NoLetterInNumber(year);
    NoLetterInTwoDigits(month0 + 1);
    NoLetterInTwoDigits(day);
    NoLetterInConcat(y, m, d);
    DateFields(y, m, d, month0 + 1, day);
    if 1000 <= year <= 9999 then
      FourDigitYear(year);
      y + "-" + m + "-" + d
    else
      y + "-" + m + "-" + d
  }

  lemma DateFields(y: string, m: string, d: string, month: int, day: int)
    requires |m| == 2 && IsDigitChar(m[0]) && IsDigitChar(m[1]) && DigitValue(m[0]) * 10 + DigitValue(m[1]) == month
    requires |d| == 2 && IsDigitChar(d[0]) && IsDigitChar(d[1]) && DigitValue(d[0]) * 10 + DigitValue(d[1]) == day
    ensures HasDateFields(y + "-" + m + "-" + d, y, month, day)
  {
    var r := y + "-" + m + "-" + d;
    assert r[..|y|] == y;
    assert r[|y| + 1] == m[0] && r[|y| + 2] == m[1] && r[|y| + 4] == d[0] && r[|y| + 5] == d[1];
  }

  /** The fields pin the text down: two texts with the same year, month and
      day are the same text, so `DateText` is the only text `IsDateText`
      admits. */
  lemma DateTextDetermined(r1: string, r2: string, year: int, month: int, day: int)
    requires IsDateText(r1, year, month, day) && IsDateText(r2, year, month, day)
    ensures r1 == r2
  {
    var y := IntToString(year);
    forall k | 0 <= k < |r1| ensures r1[k] == r2[k] {
      if k < |y| {
        assert r1[k] == r1[..|y|][k] && r2[k] == r2[..|y|][k];
      } else if k == |y| + 1 || k == |y| + 2 {
        TwoDigitsDetermined(r1[|y| + 1], r1[|y| + 2], r2[|y| + 1], r2[|y| + 2]);
      } else if k == |y| + 4 || k == |y| + 5 {
        TwoDigitsDetermined(r1[|y| + 4], r1[|y| + 5], r2[|y| + 4], r2[|y| + 5]);
      }
    }
  }

  lemma TwoDigitsDetermined(a0: char, a1: char, b0: char, b1: char)
    requires IsDigitChar(a0) && IsDigitChar(a1) && IsDigitChar(b0) && IsDigitChar(b1)
    requires DigitValue(a0) * 10 + DigitValue(a1) == DigitValue(b0) * 10 + DigitValue(b1)
    ensures a0 == b0 && a1 == b1
  {
    assert DigitValue(a0) == DigitValue(b0);
  }

  lemma FourDigitYear(year: int)
    requires 1000 <= year <= 9999
    ensures |IntToString(year)| == 4
  {
    assert IntToString(year) == NatToString(year);
  }

  lemma NoLetterInTwoDigits(n: nat)
    requires n < 100
    ensures 'T' !in TwoDigits(n)
  {
    var m := TwoDigits(n);
    forall k | 0 <= k < |m| ensures m[k] != 'T' {
      assert k == 0 || k == 1;
    }
  }

  lemma NoLetterInConcat(y: string, m: string, d: string)
    requires 'T' !in y && 'T' !in m && 'T' !in d
    ensures 'T' !in y + "-" + m + "-" + d
  {
  }

  lemma NoLetterInNumber(n: int)
    ensures 'T' !in IntToString(n)
  {
    var y := IntToString(n);
    if n < 0 {
      var s := NatToString(-n);
      assert y == "-" + s;
      assert 'T' !in s;
    }
  }

  /** The text the date input gets: the part of the server's text before the
      first 'T', or the calendar date as "<year>-MM-DD" with the month
      counted from 1. */
  function FormatDateForInput(date: DateInput): (r: string)
    requires date.Date? ==> date.month0 < 12 && 1 <= date.day <= 31
    ensures date.Text? ==> r == date.s[..IndexOf(date.s, 'T')]
    ensures 'T' !in r
    ensures date.Date? ==> IsDateText(r, date.year, date.month0 + 1, date.day)
  {
    match date
    case Text(s) => Split(s, 'T')[0]
    case Date(year, month0, day) => DateText(year, month0, day)
  }

  /** The text branch is idempotent: formatting its result again changes nothing. */
  lemma FormatTextIdempotent(s: string)
    ensures FormatDateForInput(Text(FormatDateForInput(Text(s)))) == FormatDateForInput(Text(s))
  {
    var r := FormatDateForInput(Text(s));
    assert IndexOf(r, 'T') == |r|;
  }

  /** A formatted calendar date passes through the text branch unchanged, so
      the value a form holds is the same whichever way the date arrived. */
  lemma FormatDateThenText(year: int, month0: nat, day: nat)
    requires month0 < 12 && 1 <= day <= 31
    ensures FormatDateForInput(Text(FormatDateForInput(Date(year, month0, day)))) == FormatDateForInput(Date(year, month0, day))
  {
    var r := FormatDateForInput(Date(year, month0, day));
    assert IndexOf(r, 'T') == |r|;
  }
}

=== FILE: js_number.dfy ===
/** JavaScript's `parseInt`. With radix 10, as the server reads its PORT, it
    skips leading white space, takes an optional sign and then as many
    decimal digits as follow, and gives NaN when there are none. Without a
    radix, as the server reads the ids in request paths, a "0x" or "0X" after
    the sign switches to hexadecimal digits instead (section 19.2.5 of
    ECMA-262, `parseInt ( string, radix )`). NaN is `None`. */
module JsNumber {
  import opened Common

  predicate IsDigitChar(c: char) { '0' <= c <= '9' }

  /** The string without its leading white space: what is removed is all
      white space, and what is left does not start with any. */
  function TrimStart(s: string): (r: string)
    ensures |r| <= |s| && r == s[|s| - |r|..]
    ensures forall k :: 0 <= k < |s| - |r| ==> IsJsWhitespace(s[k])
    ensures r == [] || !IsJsWhitespace(r[0])
  {
    if s != [] && IsJsWhitespace(s[0]) then TrimStart(s[1..]) else s
  }

  lemma TrimStartUnchanged(s: string)
    requires s != [] && !IsJsWhitespace(s[0])
    ensures TrimStart(s) == s
  {
  }

  lemma TrimStartDrops(s: string)
    requires s != [] && IsJsWhitespace(s[0])
    ensures TrimStart(s) == TrimStart(s[1..])
  {
  }

  /** The longest prefix of `s` made of decimal digits. */
  function DigitPrefix(s: string): (d: string)
    ensures |d| <= |s| && d == s[..|d|]
    ensures forall k :: 0 <= k < |d| ==> IsDigitChar(d[k])
    ensures |d| == |s| || !IsDigitChar(s[|d|])
  {
    if s != [] && IsDigitChar(s[0]) then
      var rest := DigitPrefix(s[1..]);
      assert s[..1 + |rest|] == [s[0]] + rest;
      [s[0]] + rest
    else []
  }

  /** The number a string of decimal digits denotes. */
  function DigitsValue(d: string): nat
    requires forall k :: 0 <= k < |d| ==> IsDigitChar(d[k])
  {
    if d == [] then 0
    else DigitsValue(d[..|d| - 1]) * 10 + DigitValue(d[|d| - 1])
  }

  function DigitValue(c: char): (v: nat)
    requires IsDigitChar(c)
    ensures v < 10
  {
    c as int - '0' as int
  }

  /** parseInt(s, 10): leading white space, an optional sign, then as many
      digits as there are; None stands for NaN (no digit at all). */
  function ParseInt(s: string): (r: Option<int>)
    ensures r.None? <==> DigitPrefix(SignedPart(TrimStart(s)).1) == []
  {
    ParseTrimmed(TrimStart(s))
  }

  /** parseInt after the leading white space is gone. */
  function ParseTrimmed(t: string): Option<int>
  {
    var (negative, body) := SignedPart(t);
    var d := DigitPrefix(body);
    if d == [] then None
    else Some(if negative then -(DigitsValue(d) as int) else DigitsValue(d))
  }

  function SignedPart(t: string): (string_parts: (bool, string))
  {
    if t != [] && (t[0] == '-' || t[0] == '+') then (t[0] == '-', t[1..]) else (false, t)
  }

  /** The digits of a number read back as that number. */
  lemma {:induction false} NatToStringValue(n: nat)
    ensures DigitsValue(NatToString(n)) == n
  {
    var s := NatToString(n);
    if n >= 10 {
      NatToStringValue(n / 10);
      assert s[..|s| - 1] == NatToString(n / 10);
    }
  }

  lemma {:induction false} DigitPrefixAll(s: string)
    requires forall k :: 0 <= k < |s| ==> IsDigitChar(s[k])
    ensures DigitPrefix(s) == s
  {
    if s != [] {
      DigitPrefixAll(s[1..]);
    }
  }

  /** A non-empty run of digits parses to the number it denotes. */
  lemma {:induction false} ParseDigits(s: string)
    requires s != [] && forall k :: 0 <= k < |s| ==> IsDigitChar(s[k])
    ensures ParseInt(s) == Some(DigitsValue(s))
  {
    TrimStartUnchanged(s);
    assert SignedPart(s) == (false, s);
    DigitPrefixAll(s);
  }

  /** Leading white space, including the no-break and other Unicode spaces,
      does not change what `parseInt` reads. */
  lemma {:induction false} ParseIntSkipsWhitespace(w: string, s: string)
    requires forall k :: 0 <= k < |w| ==> IsJsWhitespace(w[k])
    ensures ParseInt(w + s) == ParseInt(s)
  {
    TrimStartSkips(w, s);
    var t := TrimStart(w + s);
    assert t == TrimStart(s);
    assert ParseInt(w + s) == ParseTrimmed(t);
    assert ParseInt(s) == ParseTrimmed(t);
  }

  lemma {:induction false} TrimStartSkips(w: string, s: string)
    requires forall k :: 0 <= k < |w| ==> IsJsWhitespace(w[k])
    ensures TrimStart(w + s) == TrimStart(s)
  {
    if w != [] {
      var ws := w + s;
      assert ws[0] == w[0];
      assert ws[1..] == w[1..] + s;
      TrimStartDrops(ws);
      TrimStartSkips(w[1..], s);
    } else {
      assert w + s == s;
    }
  }

  /** `parseInt(String(n), 10)` is `n`, negative numbers included: the
      decimal text of a number reads back as that number. */
  lemma {:induction false} ParseIntRoundTrip(n: int)
    ensures ParseInt(IntToString(n)) == Some(n)
  {
    if n < 0 {
      ParseNegativeRoundTrip(n);
    } else {
      var digits := NatToString(n);
      assert IntToString(n) == digits;
      NatToStringValue(n);
      ParseDigits(digits);
    }
  }

  lemma {:induction false} ParseNegativeRoundTrip(n: int)
    requires n < 0
    ensures ParseInt(IntToString(n)) == Some(n)
  {
    var m: nat := -n;
    assert IntToString(n) == "-" + NatToString(m);
    ParseNegativeNat(m);
  }

  /** A minus sign followed by the digits of `m` parses to `-m`. */
  lemma {:induction false} ParseNegativeNat(m: nat)
    ensures ParseInt("-" + NatToString(m)) == Some(-(m as int))
  {
    var s := NatToString(m);
    NatToStringValue(m);
    ParseDigits(s);
    ParseMinus("-" + s, s, m);
  }

  /** A minus sign before an unsigned number negates what parses. */
  lemma ParseMinus(t: string, s: string, v: int)
    requires s != [] && IsDigitChar(s[0])
    requires t == "-" + s && ParseInt(s) == Some(v)
    ensures ParseInt(t) == Some(-v)
  {
    TrimStartUnchanged(s);
    assert SignedPart(s) == (false, s);
    assert t[0] == '-' && t[1..] == s;
    TrimStartUnchanged(t);
    assert SignedPart(t) == (true, s);
  }

  // ---------------------------------------------------------------------
  // parseInt(s) with no radix

  predicate IsHexDigitChar(c: char)
  {
    IsDigitChar(c) || 'a' <= c <= 'f' || 'A' <= c <= 'F'
  }

  /** The value of a hexadecimal digit, either case; a decimal digit keeps its value. */
  function HexDigitValue(c: char): (v: nat)
    requires IsHexDigitChar(c)
    ensures v < 16
    ensures IsDigitChar(c) ==> v == DigitValue(c)
    ensures !IsDigitChar(c) ==> v >= 10
  {
    if IsDigitChar(c) then DigitValue(c)
    else if 'a' <= c <= 'f' then c as int - 'a' as int + 10
    else c as int - 'A' as int + 10
  }

  /** The longest prefix of `s` made of hexadecimal digits. */
  function HexPrefix(s: string): (d: string)
    ensures |d| <= |s| && d == s[..|d|]
    ensures forall k :: 0 <= k < |d| ==> IsHexDigitChar(d[k])
    ensures |d| == |s| || !IsHexDigitChar(s[|d|])
  {
    if s != [] && IsHexDigitChar(s[0]) then
      var rest := HexPrefix(s[1..]);
      assert s[..1 + |rest|] == [s[0]] + rest;
      [s[0]] + rest
    else []
  }

  /** The number a string of hexadecimal digits denotes. */
  function HexDigitsValue(d: string): nat
    requires forall k :: 0 <= k < |d| ==> IsHexDigitChar(d[k])
  {
    if d == [] then 0
    else HexDigitsValue(d[..|d| - 1]) * 16 + HexDigitValue(d[|d| - 1])
  }

  /** The "0x" or "0X" that makes a radix-free parseInt read hexadecimal. */
  predicate HasHexPrefix(body: string)
  {
    |body| >= 2 && body[0] == '0' && (body[1] == 'x' || body[1] == 'X')
  }

  /** parseInt(s) with no radix: like radix 10, except that after the sign a
      "0x" or "0X" is dropped and hexadecimal digits are read; NaN when no
      digit of the radix in use follows. */
  function ParseIntAuto(s: string): (r: Option<int>)
    ensures !HasHexPrefix(SignedPart(TrimStart(s)).1) ==> r == ParseInt(s)
    ensures HasHexPrefix(SignedPart(TrimStart(s)).1) ==>
              (r.None? <==> HexPrefix(SignedPart(TrimStart(s)).1[2..]) == [])
  {
    var t := TrimStart(s);
    var (negative, body) := SignedPart(t);
    if HasHexPrefix(body) then
      var d := HexPrefix(body[2..]);
      if d == [] then None
      else Some(if negative then -(HexDigitsValue(d) as int) else HexDigitsValue(d))
    else ParseTrimmed(t)
  }

  /** The decimal text of any integer never carries the hexadecimal prefix,
      so reading it without a radix gives the integer back: an id written
      into a request path is the id the handler acts on. */
  lemma {:induction false} ParseIntAutoRoundTrip(n: int)
    ensures ParseIntAuto(IntToString(n)) == Some(n)
  {
    var s := IntToString(n);
    var m := if n < 0 then -n else n;
    var digits := NatToString(m);
    assert s == (if n < 0 then "-" + digits else digits);
    TrimStartUnchanged(s);
    assert SignedPart(s).1 == digits;
    assert !HasHexPrefix(digits) by {
      if |digits| >= 2 {
        assert '0' <= digits[1] <= '9';
      }
    }
    ParseIntRoundTrip(n);
  }

  /** "0x" followed by hexadecimal digits reads as the number they denote. */
  lemma {:induction false} ParseIntAutoHex(d: string)
    requires d != [] && forall k :: 0 <= k < |d| ==> IsHexDigitChar(d[k])
    ensures ParseIntAuto("0x" + d) == Some(HexDigitsValue(d))
  {
    var s := "0x" + d;
    assert s[0] == '0';
    TrimStartUnchanged(s);
    assert SignedPart(s) == (false, s);
    assert HasHexPrefix(s) && s[2..] == d;
    HexPrefixAll(d);
  }

  lemma {:induction false} HexPrefixAll(s: string)
    requires forall k :: 0 <= k < |s| ==> IsHexDigitChar(s[k])
    ensures HexPrefix(s) == s
  {
    if s != [] {
      HexPrefixAll(s[1..]);
    }
  }

  /** Where the two readings part: "0x" and one hexadecimal digit is that
      digit's value without a radix ("0x5" is 5), and 0 with radix 10. */
  lemma HexIdDiffers(c: char)
    requires IsHexDigitChar(c)
    ensures ParseIntAuto("0x" + [c]) == Some(HexDigitValue(c))
    ensures ParseInt("0x" + [c]) == Some(0)
  {
    HexSingleDigit(c);
    ParseIntAutoHex([c]);
    LeadingZeroDecimal("0x" + [c]);
  }

  lemma HexSingleDigit(c: char)
    requires IsHexDigitChar(c)
    ensures HexDigitsValue([c]) == HexDigitValue(c)
  {
    assert [c][..0] == [];
  }

  /** "0x" with no hexadecimal digit after it is NaN without a radix, and 0
      with radix 10. */
  lemma BareHexPrefix(s: string)
    requires |s| >= 2 && s[0] == '0' && s[1] == 'x'
    requires |s| == 2 || !IsHexDigitChar(s[2])
    ensures ParseIntAuto(s) == None && ParseInt(s) == Some(0)
  {
    TrimStartUnchanged(s);
    assert SignedPart(s) == (false, s);
    assert HexPrefix(s[2..]) == [];
    LeadingZeroDecimal(s);
  }

  /** With radix 10, "0x…" reads the zero and stops at the 'x'. */
  lemma LeadingZeroDecimal(s: string)
    requires |s| >= 2 && s[0] == '0' && s[1] == 'x'
    ensures ParseInt(s) == Some(0)
  {
    TrimStartUnchanged(s);
    assert SignedPart(s) == (false, s);
    assert DigitPrefix(s[1..]) == [];
    assert DigitPrefix(s) == "0";
    assert DigitsValue("0") == 0;
  }
}

=== FILE: leader_schedules.dfy ===
/** The leader's schedule page (client/src/pages/leader-schedules.tsx). A leader
    picks a user (or nobody) per position in a record keyed by position; the
    create and update mutations turn the form and that record into a sequence
    of requests, sent one after the other.

    The record is a map from position to `Some(user id)` or `None` (null); a
    position not in the map reads as `undefined`, which JavaScript's strict
    comparison tells apart from null. The id of the schedule a POST creates
    is a parameter. */
module LeaderSchedules {
  import opened Common
  import opened Schedules

  // ---------------------------------------------------------------------
  // The form

  datatype ScheduleForm = ScheduleForm(mes: int, ano: int, tipo: string, data: string, observacoes: Option<string>)

  /** scheduleFormSchema: month 1..12, year from 2024, one of the two ministries. */
  predicate ValidScheduleForm(f: ScheduleForm)
  {
    1 <= f.mes <= 12 && f.ano >= 2024 && (f.tipo == Louvor || f.tipo == Obreiros)
  }

  /** A rule of scheduleFormSchema that the form breaks. */
  datatype FormIssue = MonthOutOfRange | YearTooEarly | UnknownMinistry

  /** The resolver's verdict: every broken rule, in field order; the dialog
      submits only when there is none. */
  function CheckScheduleForm(f: ScheduleForm): (issues: seq<FormIssue>)
    ensures issues == [] <==> ValidScheduleForm(f)
    ensures MonthOutOfRange in issues <==> f.mes < 1 || f.mes > 12
    ensures YearTooEarly in issues <==> f.ano < 2024
    ensures UnknownMinistry in issues <==> f.tipo != Louvor && f.tipo != Obreiros
  {
    (if 1 <= f.mes <= 12 then [] else [MonthOutOfRange])
    + (if f.ano >= 2024 then [] else [YearTooEarly])
    + (if f.tipo == Louvor || f.tipo == Obreiros then [] else [UnknownMinistry])
  }

  /** The default values, to which `form.reset()` also returns. */
  function DefaultForm(month: int, year: int): (f: ScheduleForm)
    ensures f.tipo == Louvor && f.data == "" && f.observacoes == Some("")
    ensures 1 <= month <= 12 && year >= 2024 ==> ValidScheduleForm(f)
  {
    ScheduleForm(month, year, Louvor, "", Some(""))
  }

  // ---------------------------------------------------------------------
  // Values as JavaScript compares them

  datatype JsId = Undefined | Null | Num(n: int)

  /** `assignments[posicao]`. */
  function Chosen(assignments: map<string, Option<int>>, posicao: string): (v: JsId)
    ensures v == Undefined <==> posicao !in assignments
    ensures v == Null <==> posicao in assignments && assignments[posicao].None?
    ensures v.Num? <==> posicao in assignments && assignments[posicao].Some?
    ensures v.Num? ==> v.n == assignments[posicao].value
  {
    if posicao !in assignments then Undefined
    else if assignments[posicao].None? then Null
    else Num(assignments[posicao].value)
  }

  /** A stored assignment's `userId`: a number or null, never undefined. */
  function StoredId(a: Assignment): (v: JsId)
    ensures v != Undefined
    ensures v.Num? <==> a.userId.Some?
  {
    if a.userId.Some? then Num(a.userId.value) else Null
  }

  /** The `userId` of a request body: set only when neither null nor undefined. */
  function BodyUserId(v: JsId): (u: Option<int>)
    ensures u.Some? <==> v.Num?
    ensures u.Some? ==> u.value == v.n
  {
    if v.Num? then Some(v.n) else None
  }

  // ---------------------------------------------------------------------
  // Requests

  datatype Request =
    | PostSchedule(form: ScheduleForm)
    | PatchSchedule(id: int, form: ScheduleForm)
    | PostAssignment(scheduleId: int, posicao: string, userId: Option<int>)
    | PatchAssignment(assignmentId: int, userId: Option<int>)

  /** `obreiro-0`, `obreiro-1`, ... for `n` positions. */
  function ObreiroPositions(n: nat): (ps: seq<string>)
    ensures |ps| == n
    ensures forall i :: 0 <= i < n ==> ps[i] == "obreiro-" + NatToString(i)
  {
    if n == 0 then [] else ObreiroPositions(n - 1) + ["obreiro-" + NatToString(n - 1)]
  }

  /** The positions created with a new schedule: the six louvor ones, or four obreiros. */
  function CreatePositions(tipo: string): (ps: seq<string>)
    ensures tipo == Louvor ==> ps == LouvorPositions
    ensures tipo != Louvor ==> ps == ["obreiro-0", "obreiro-1", "obreiro-2", "obreiro-3"]
  {
    if tipo == Louvor then LouvorPositions
    else
      var ps := ObreiroPositions(4);
      assert ps[0] == "obreiro-0" && ps[1] == "obreiro-1" && ps[2] == "obreiro-2" && ps[3] == "obreiro-3";
      ps
  }

  /** criarAssignments: one POST per position, in order, carrying the chosen
      user when one was chosen. */
  function CreatePlan(positions: seq<string>, assignments: map<string, Option<int>>, scheduleId: int): (r: seq<Request>)
    ensures |r| == |positions|
    ensures forall k :: 0 <= k < |r| ==>
              r[k].PostAssignment? && r[k].scheduleId == scheduleId && r[k].posicao == positions[k]
    ensures forall k :: 0 <= k < |r| ==>
              (r[k].userId.Some? <==> positions[k] in assignments && assignments[positions[k]].Some?)
    ensures forall k :: 0 <= k < |r| && r[k].userId.Some? ==> r[k].userId == assignments[positions[k]]
  {
    if positions == [] then []
    else
      var p := positions[|positions| - 1];
      CreatePlan(positions[..|positions| - 1], assignments, scheduleId)
        + [PostAssignment(scheduleId, p, BodyUserId(Chosen(assignments, p)))]
  }

  /** The assignment of that position, if the schedule has one (`find`):
      the first one when several have it. */
  function AtPosition(existing: seq<Assignment>, posicao: string): (r: Option<Assignment>)
    ensures r.None? <==> forall a :: a in existing ==> a.posicao != posicao
    ensures r.Some? ==> r.value in existing && r.value.posicao == posicao
    ensures r.Some? ==> exists k :: 0 <= k < |existing| && existing[k] == r.value
                                    && forall j :: 0 <= j < k ==> existing[j].posicao != posicao
  {
    var atIt := (a: Assignment) => a.posicao == posicao;
    var r := Find(existing, atIt);
    if r.Some? then FindFirst(existing, atIt); r else r
  }

  /** One step of the update loop: an existing assignment is patched when its
      stored id differs strictly from the chosen one; a missing one is
      created only when a truthy id was chosen. */
  function UpdateStep(posicao: string, existing: seq<Assignment>, assignments: map<string, Option<int>>, scheduleId: int)
    : (r: Option<Request>)
    ensures AtPosition(existing, posicao).Some? ==>
              var a := AtPosition(existing, posicao).value;
              (r.None? <==> StoredId(a) == Chosen(assignments, posicao))
              && (r.Some? ==> r.value == PatchAssignment(a.id, BodyUserId(Chosen(assignments, posicao))))
    ensures AtPosition(existing, posicao).None? ==>
              (r.Some? <==> posicao in assignments && assignments[posicao].Some? && assignments[posicao].value != 0)
              && (r.Some? ==> r.value == PostAssignment(scheduleId, posicao, assignments[posicao]))
  {
    var v := Chosen(assignments, posicao);
    match AtPosition(existing, posicao)
    case Some(a) =>
      if StoredId(a) != v then Some(PatchAssignment(a.id, BodyUserId(v))) else None
    case None =>
      if v.Num? && v.n != 0 then Some(PostAssignment(scheduleId, posicao, Some(v.n))) else None
  }

  /** The assignment requests of an update, in position order. */
  function UpdatePlan(positions: seq<string>, existing: seq<Assignment>, assignments: map<string, Option<int>>, scheduleId: int)
    : (r: seq<Request>)
    ensures |r| <= |positions|
    ensures forall q :: q in r ==> q.PatchAssignment? || q.PostAssignment?
    ensures forall q :: q in r && q.PatchAssignment? ==> exists a :: a in existing && a.id == q.assignmentId
    ensures forall q :: q in r && q.PostAssignment? ==>
              && q.scheduleId == scheduleId && q.posicao in positions
              && AtPosition(existing, q.posicao).None?
              && q.userId.Some? && q.userId.value != 0
  {
    if positions == [] then []
    else
      var init := positions[..|positions| - 1];
      var p := positions[|positions| - 1];
      var step := UpdateStep(p, existing, assignments, scheduleId);
      var rest := UpdatePlan(init, existing, assignments, scheduleId);
      assert forall x :: x in init ==> x in positions;
      rest + (if step.Some? then [step.value] else [])
  }

  /** The positions an update walks: the six louvor ones, or one obreiro
      position per assignment the schedule already has. */
  function UpdatePositions(tipo: string, existing: seq<Assignment>): (ps: seq<string>)
    ensures tipo == Louvor ==> ps == LouvorPositions
    ensures tipo != Louvor ==> |ps| == |existing|
  {
    if tipo == Louvor then LouvorPositions else ObreiroPositions(|existing|)
  }

  /** criarAssignments: for each position in order, the POST of its
      assignment, awaited before the next; a rejected one ends the loop. */
  method CreateAssignments(posicoes: seq<string>, assignments: map<string, Option<int>>, createdId: int, accepted: Request -> bool)
    returns (sent: seq<Request>, ok: bool)
    ensures sent == SentUntilRejected(CreatePlan(posicoes, assignments, createdId), accepted)
    ensures ok <==> forall k :: 0 <= k < |sent| ==> accepted(sent[k])
  {
    ghost var plan := CreatePlan(posicoes, assignments, createdId);
    sent := [];
    for i := 0 to |posicoes|
      invariant sent == plan[..i]
      invariant forall k :: 0 <= k < |sent| ==> accepted(sent[k])
    {
      var posicao := posicoes[i];
      var userId := Chosen(assignments, posicao);
      var body := PostAssignment(createdId, posicao, BodyUserId(userId));
      CreatePlanAt(posicoes, i, assignments, createdId);
      sent := sent + [body];
      assert sent == plan[..i + 1];
      if !accepted(body) {
        SentRejectedAt(plan, i, accepted);
        return sent, false;
      }
    }
    assert sent == plan;
    SentAllAccepted(sent, accepted);
    ok := true;
  }

  /** The update loop over the positions: for each in turn, the request its
      choice needs, if any, awaited before the next; a rejected one ends the
      loop. */
  method UpdateAssignments(positions: seq<string>, existing: seq<Assignment>, assignments: map<string, Option<int>>,
                           id: int, accepted: Request -> bool)
    returns (sent: seq<Request>, ok: bool)
    ensures sent == SentUntilRejected(UpdatePlan(positions, existing, assignments, id), accepted)
    ensures ok <==> forall k :: 0 <= k < |sent| ==> accepted(sent[k])
  {
    sent := [];
    for i := 0 to |positions|
      invariant sent == UpdatePlan(positions[..i], existing, assignments, id)
      invariant forall k :: 0 <= k < |sent| ==> accepted(sent[k])
    {
      var step := UpdateStep(positions[i], existing, assignments, id);
      UpdatePlanStep(positions, i, existing, assignments, id);
      if step.Some? {
        ghost var before := sent;
        sent := sent + [step.value];
        if !accepted(step.value) {
          UpdateRejectedAt(positions, i, existing, assignments, id, accepted);
          assert !accepted(sent[|before|]);
          return sent, false;
        }
        assert forall k :: 0 <= k < |sent| ==> accepted(sent[k]) by {
          forall k | 0 <= k < |sent| ensures accepted(sent[k]) {
            if k < |before| { assert sent[k] == before[k]; }
          }
        }
      }
    }
    assert positions[..|positions|] == positions;
    SentAllAccepted(sent, accepted);
    ok := true;
  }

  /** The request criarAssignments sends for the position at `k`. */
  lemma {:induction false} CreatePlanAt(positions: seq<string>, k: nat, assignments: map<string, Option<int>>, scheduleId: int)
    requires k < |positions|
    ensures CreatePlan(positions, assignments, scheduleId)[k]
         == PostAssignment(scheduleId, positions[k], BodyUserId(Chosen(assignments, positions[k])))
  {
    if k < |positions| - 1 {
      CreatePlanAt(positions[..|positions| - 1], k, assignments, scheduleId);
    }
  }

  /** The update plan of two runs of positions is the plan of the first
      followed by the plan of the second. */
  lemma {:induction false} UpdatePlanAppend(a: seq<string>, b: seq<string>, existing: seq<Assignment>,
                                            assignments: map<string, Option<int>>, scheduleId: int)
    ensures UpdatePlan(a + b, existing, assignments, scheduleId)
         == UpdatePlan(a, existing, assignments, scheduleId) + UpdatePlan(b, existing, assignments, scheduleId)
  {
    if b == [] {
      assert a + b == a;
    } else {
      var init, p := b[..|b| - 1], b[|b| - 1];
      var ab := a + b;
      assert ab[..|ab| - 1] == a + init && ab[|ab| - 1] == p;
      UpdatePlanAppend(a, init, existing, assignments, scheduleId);
    }
  }

  // ---------------------------------------------------------------------
  // Awaited one by one

  /** What a mutation sends when it awaits each request before the next:
      the plan up to and including the first request the server rejects
      (which ends the mutation in its error handler), or all of it. */
  function SentUntilRejected(plan: seq<Request>, accepted: Request -> bool): (sent: seq<Request>)
    ensures |sent| <= |plan| && sent == plan[..|sent|]
    ensures forall k :: 0 <= k < |sent| - 1 ==> accepted(sent[k])
    ensures sent == plan || (sent != [] && !accepted(sent[|sent| - 1]))
  {
    if plan == [] then []
    else if accepted(plan[0]) then
      var rest := SentUntilRejected(plan[1..], accepted);
      assert plan[..1 + |rest|] == [plan[0]] + plan[1..][..|rest|];
      [plan[0]] + rest
    else [plan[0]]
  }

  /** Requests the server accepts do not stop the mutation. */
  lemma {:induction false} SentAfterAccepted(q: seq<Request>, r: seq<Request>, accepted: Request -> bool)
    requires forall k :: 0 <= k < |q| ==> accepted(q[k])
    ensures SentUntilRejected(q + r, accepted) == q + SentUntilRejected(r, accepted)
  {
    if q != [] {
      var qr := q + r;
      assert qr[0] == q[0] && qr[1..] == q[1..] + r;
      SentAfterAccepted(q[1..], r, accepted);
    } else {
      assert q + r == r;
    }
  }

  /** A rejected request is the last one sent. */
  lemma SentStopsAt(q: seq<Request>, x: Request, r: seq<Request>, accepted: Request -> bool)
    requires forall k :: 0 <= k < |q| ==> accepted(q[k])
    requires !accepted(x)
    ensures SentUntilRejected(q + [x] + r, accepted) == q + [x]
  {
    assert q + [x] + r == q + ([x] + r);
    SentAfterAccepted(q, [x] + r, accepted);
    assert SentUntilRejected([x] + r, accepted) == [x];
  }

  /** The request at `i` is the first one rejected: the mutation sends the
      plan up to it. */
  lemma SentRejectedAt(plan: seq<Request>, i: nat, accepted: Request -> bool)
    requires i < |plan|
    requires forall k :: 0 <= k < i ==> accepted(plan[k])
    requires !accepted(plan[i])
    ensures SentUntilRejected(plan, accepted) == plan[..i + 1]
  {
    assert plan == plan[..i] + [plan[i]] + plan[i + 1..];
    SentStopsAt(plan[..i], plan[i], plan[i + 1..], accepted);
  }

  /** One more position adds the request its step needs, if any. */
  lemma UpdatePlanStep(positions: seq<string>, i: nat, existing: seq<Assignment>,
                       assignments: map<string, Option<int>>, id: int)
    requires i < |positions|
    ensures UpdatePlan(positions[..i + 1], existing, assignments, id)
         == UpdatePlan(positions[..i], existing, assignments, id)
            + (if UpdateStep(positions[i], existing, assignments, id).Some?
               then [UpdateStep(positions[i], existing, assignments, id).value] else [])
  {
    assert positions[..i + 1][..i] == positions[..i];
  }

  /** In the update loop, a rejected request at position `i` is the last
      one sent: what was sent is the plan of the positions up to `i`. */
  lemma UpdateRejectedAt(positions: seq<string>, i: nat, existing: seq<Assignment>,
                         assignments: map<string, Option<int>>, id: int, accepted: Request -> bool)
    requires i < |positions|
    requires forall k :: 0 <= k < |UpdatePlan(positions[..i], existing, assignments, id)| ==>
               accepted(UpdatePlan(positions[..i], existing, assignments, id)[k])
    requires UpdateStep(positions[i], existing, assignments, id).Some?
    requires !accepted(UpdateStep(positions[i], existing, assignments, id).value)
    ensures SentUntilRejected(UpdatePlan(positions, existing, assignments, id), accepted)
         == UpdatePlan(positions[..i], existing, assignments, id) + [UpdateStep(positions[i], existing, assignments, id).value]
  {
    var before := UpdatePlan(positions[..i], existing, assignments, id);
    var x := UpdateStep(positions[i], existing, assignments, id).value;
    var after := UpdatePlan(positions[i + 1..], existing, assignments, id);
    UpdatePlanStep(positions, i, existing, assignments, id);
    assert positions == positions[..i + 1] + positions[i + 1..];
    UpdatePlanAppend(positions[..i + 1], positions[i + 1..], existing, assignments, id);
    SentStopsAt(before, x, after, accepted);
  }

  /** When the server accepts every request, the whole plan is sent. */
  lemma SentAllAccepted(plan: seq<Request>, accepted: Request -> bool)
    requires forall k :: 0 <= k < |plan| ==> accepted(plan[k])
    ensures SentUntilRejected(plan, accepted) == plan
  {
    SentAfterAccepted(plan, [], accepted);
    assert plan + [] == plan;
  }

  function HasId(id: int): Schedule -> bool
  {
    (s: Schedule) => s.id == id
  }

  /** `schedules.find(s => s.id === editingSchedule)?.assignments || []`:
      the assignments of the first schedule with that id, or none. */
  function ExistingAssignments(schedules: seq<Schedule>, id: int): (r: seq<Assignment>)
    ensures (forall s :: s in schedules ==> s.id != id) ==> r == []
    ensures (exists s :: s in schedules && s.id == id) ==>
              exists k :: 0 <= k < |schedules| && schedules[k].id == id && r == AssignmentsOf(schedules[k])
                          && forall j :: 0 <= j < k ==> schedules[j].id != id
  {
    match Find(schedules, HasId(id))
    case Some(s) =>
      FindFirst(schedules, HasId(id));
      AssignmentsOf(s)
    case None => []
  }

  /** Choosing again what is stored sends no assignment request: every
      position either has an assignment whose user is the chosen one (null
      chosen for null stored), or has none and no user was chosen. */
  lemma {:induction false} UnchangedSendsNothing(
    positions: seq<string>, existing: seq<Assignment>, assignments: map<string, Option<int>>, scheduleId: int)
    requires forall p :: p in positions && AtPosition(existing, p).Some? ==>
               p in assignments && assignments[p] == AtPosition(existing, p).value.userId
    requires forall p :: p in positions && AtPosition(existing, p).None? ==>
               p !in assignments || assignments[p].None?
    ensures UpdatePlan(positions, existing, assignments, scheduleId) == []
  {
    if positions != [] {
      var init := positions[..|positions| - 1];
      assert forall x :: x in init ==> x in positions;
      UnchangedSendsNothing(init, existing, assignments, scheduleId);
    }
  }

  /** A stored "nobody" at a position the leader did not touch differs
      strictly (null against undefined), so the update still patches it,
      with an empty body. */
  lemma UntouchedNullIsPatched(existing: seq<Assignment>, assignments: map<string, Option<int>>, posicao: string, scheduleId: int)
    requires AtPosition(existing, posicao).Some? && AtPosition(existing, posicao).value.userId.None?
    requires posicao !in assignments
    ensures UpdateStep(posicao, existing, assignments, scheduleId) ==
              Some(PatchAssignment(AtPosition(existing, posicao).value.id, None))
  {
  }

  /** Clearing an assigned position sends a patch without `userId`: the
      request does not ask for the user to be removed. */
  lemma ClearingSendsNoUserId(existing: seq<Assignment>, assignments: map<string, Option<int>>, posicao: string, scheduleId: int)
    requires AtPosition(existing, posicao).Some? && AtPosition(existing, posicao).value.userId.Some?
    requires posicao in assignments && assignments[posicao].None?
    ensures UpdateStep(posicao, existing, assignments, scheduleId) ==
              Some(PatchAssignment(AtPosition(existing, posicao).value.id, None))
  {
  }

  // ---------------------------------------------------------------------
  // The page

  class LeaderSchedulesPage {
    var isDialogOpen: bool
    var editingSchedule: Option<int>
    var assignments: map<string, Option<int>>
    var form: ScheduleForm
    const selectedMonth: int
    const selectedYear: int

    /** The page opens on the current month with the default form. */
    constructor(month: int, year: int)
      ensures selectedMonth == month && selectedYear == year
      ensures form == DefaultForm(month, year)
      ensures !isDialogOpen && editingSchedule == None && assignments == map[]
    {
      selectedMonth, selectedYear := month, year;
      form := DefaultForm(month, year);
      isDialogOpen, editingSchedule, assignments := false, None, map[];
    }

    /** The create mutation: the schedule, then one assignment per position
      of its ministry, in order, for the id the server gave the schedule.
      Each request is awaited before the next, and `accepted` is the
      server's answer to it: the first rejection ends the mutation (`ok` is
      false and the error handler runs). */
    method CreateRequests(data: ScheduleForm, createdId: int, accepted: Request -> bool)
      returns (requests: seq<Request>, ok: bool)
      ensures requests == SentUntilRejected([PostSchedule(data)] + CreatePlan(CreatePositions(data.tipo), assignments, createdId), accepted)
      ensures ok <==> forall k :: 0 <= k < |requests| ==> accepted(requests[k])
    {
      var posicoes := CreatePositions(data.tipo);
      ghost var plan := CreatePlan(posicoes, assignments, createdId);
      if !accepted(PostSchedule(data)) {
        SentStopsAt([], PostSchedule(data), plan, accepted);
        return [PostSchedule(data)], false;
      }
      var sent;
      sent, ok := CreateAssignments(posicoes, assignments, createdId, accepted);
      requests := [PostSchedule(data)] + sent;
      SentAfterAccepted([PostSchedule(data)], plan, accepted);
    }

    /** The update mutation: nothing when no schedule is being edited (and
      the mutation succeeds); otherwise the schedule's patch, then the
      assignment requests of its positions, awaited one by one until the
      server rejects one. */
    method UpdateRequests(data: ScheduleForm, schedules: seq<Schedule>, accepted: Request -> bool)
      returns (requests: seq<Request>, ok: bool)
      ensures editingSchedule.None? || editingSchedule.value == 0 ==> requests == [] && ok
      ensures editingSchedule.Some? && editingSchedule.value != 0 ==>
                var id := editingSchedule.value;
                var existing := ExistingAssignments(schedules, id);
                requests == SentUntilRejected([PatchSchedule(id, data)] + UpdatePlan(UpdatePositions(data.tipo, existing), existing, assignments, id), accepted)
      ensures ok <==> forall k :: 0 <= k < |requests| ==> accepted(requests[k])
    {
      if editingSchedule.None? || editingSchedule.value == 0 {
        return [], true;
      }
      var id := editingSchedule.value;
      var existing := ExistingAssignments(schedules, id);
      var positions := UpdatePositions(data.tipo, existing);
      ghost var plan := UpdatePlan(positions, existing, assignments, id);
      if !accepted(PatchSchedule(id, data)) {
        SentStopsAt([], PatchSchedule(id, data), plan, accepted);
        return [PatchSchedule(id, data)], false;
      }
      var sent;
      sent, ok := UpdateAssignments(positions, existing, assignments, id, accepted);
      requests := [PatchSchedule(id, data)] + sent;
      SentAfterAccepted([PatchSchedule(id, data)], plan, accepted);
    }

    /** onSuccess of the create mutation: the dialog closes, the choices are
      forgotten and the form returns to its defaults. */
    method CreateSucceeded()
      modifies this
      ensures !isDialogOpen && assignments == map[] && form == DefaultForm(selectedMonth, selectedYear)
      ensures editingSchedule == old(editingSchedule)
    {
      isDialogOpen := false;
      assignments := map[];
      form := DefaultForm(selectedMonth, selectedYear);
    }

    /** onSuccess of the update mutation: the same, and editing ends. */
    method UpdateSucceeded()
      modifies this
      ensures !isDialogOpen && editingSchedule == None && assignments == map[]
      ensures form == DefaultForm(selectedMonth, selectedYear)
    {
      isDialogOpen := false;
      editingSchedule := None;
      assignments := map[];
      form := DefaultForm(selectedMonth, selectedYear);
    }
  }
}

=== FILE: louvor_schedules.dfy ===
/** The member's louvor schedule page
    (client/src/pages/member-louvor-schedules.tsx): it fetches the louvor
    schedules of a five-month window around the selected month, sorts them
    into upcoming, today and recent (the last 30 days) relative to today, and
    shows a limited number of cards per tab.

    Dates are day numbers; a schedule's date text is turned into one by a
    parsing function given as a parameter, None standing for an invalid date
    (every comparison with it is false, so such a schedule lands in no tab).
    Fetching is a function from (month, year) to the schedules returned. */
module LouvorSchedules {
  import opened Common
  import opened Schedules

  // ---------------------------------------------------------------------
  // The month window

  /** `new Date(year, month - 1 + i, 1)` as (month, year), month in 1..12. */
  function MonthAt(month: int, year: int, i: int): (my: (int, int))
    ensures 1 <= my.0 <= 12
  {
    var m0 := month - 1 + i;
    (m0 % 12 + 1, year + m0 / 12)
  }

  /** The month after (month, year). */
  function NextMonth(my: (int, int)): (int, int)
  {
    if my.0 == 12 then (1, my.1 + 1) else (my.0 + 1, my.1)
  }

  /** The five months fetched: from one before the selected month to three after. */
  function MonthWindow(month: int, year: int): (w: seq<(int, int)>)
    ensures |w| == 5
    ensures forall k :: 0 <= k < 5 ==> w[k] == MonthAt(month, year, k - 1)
  {
    [MonthAt(month, year, -1), MonthAt(month, year, 0), MonthAt(month, year, 1),
     MonthAt(month, year, 2), MonthAt(month, year, 3)]
  }

  lemma MonthAtNext(month: int, year: int, i: int)
    ensures MonthAt(month, year, i + 1) == NextMonth(MonthAt(month, year, i))
  {
    var m0 := month - 1 + i;
    if m0 % 12 == 11 {
      assert (m0 + 1) % 12 == 0 && (m0 + 1) / 12 == m0 / 12 + 1;
    } else {
      assert (m0 + 1) % 12 == m0 % 12 + 1 && (m0 + 1) / 12 == m0 / 12;
    }
  }

  /** The window is five consecutive months with the selected one second,
      rolling the year over at December and January. */
  lemma MonthWindowConsecutive(month: int, year: int)
    requires 1 <= month <= 12
    ensures var w := MonthWindow(month, year);
            && w[1] == (month, year)
            && (forall k :: 0 <= k < 5 ==> 1 <= w[k].0 <= 12)
            && (forall k :: 0 <= k < 4 ==> w[k + 1] == NextMonth(w[k]))
  {
    MonthAtNext(month, year, -1);
    MonthAtNext(month, year, 0);
    MonthAtNext(month, year, 1);
    MonthAtNext(month, year, 2);
  }

  /** January's window starts in December of the year before. */
  lemma JanuaryWindow(year: int)
    ensures MonthWindow(1, year)[0] == (12, year - 1)
  {
  }

  /** The louvor schedules of the months in `w`, month after month. */
  function Gathered(w: seq<(int, int)>, fetch: (int, int) -> seq<Schedule>): (r: seq<Schedule>)
    ensures forall s :: s in r ==> s.tipo == Louvor
  {
    if w == [] then []
    else Gathered(w[..|w| - 1], fetch) + SchedulesOf(fetch(w[|w| - 1].0, w[|w| - 1].1), Louvor)
  }

  /** The query function: five requests, keeping only the louvor schedules. */
  method FetchLouvorSchedules(month: int, year: int, fetch: (int, int) -> seq<Schedule>)
    returns (schedules: seq<Schedule>)
    ensures schedules == Gathered(MonthWindow(month, year), fetch)
    ensures forall s :: s in schedules ==> s.tipo == Louvor
  {
    schedules := [];
    ghost var w := MonthWindow(month, year);
    for i := -1 to 4
      invariant schedules == Gathered(w[..i + 1], fetch)
    {
      var (m, y) := MonthAt(month, year, i);
      var response := fetch(m, y);
      var louvorSchedules := Filter(response, OfTipo(Louvor));
      assert w[..i + 2][..i + 1] == w[..i + 1];
      assert w[i + 1] == (m, y);
      schedules := schedules + louvorSchedules;
    }
    assert w[..5] == w;
  }

  // ---------------------------------------------------------------------
  // Classification

  datatype Category = Upcoming | Today | Previous | Dropped

  /** Where a schedule on day `d` goes when today is `t`. */
  function CategoryOf(d: Option<int>, t: int): (c: Category)
    ensures c == Upcoming <==> d.Some? && d.value >= t + 1
    ensures c == Today <==> d.Some? && d.value == t
    ensures c == Previous <==> d.Some? && t - 30 < d.value < t
    ensures c == Dropped <==> d.None? || d.value <= t - 30
  {
    if d.None? then Dropped
    else if d.value >= t + 1 then Upcoming
    else if d.value == t then Today
    else if t - 30 < d.value && d.value < t then Previous
    else Dropped
  }

  function InCategory(c: Category, t: int, dayOf: string -> Option<int>): Schedule -> bool
  {
    (s: Schedule) => CategoryOf(dayOf(s.data), t) == c
  }

  /** The sort key: the schedule's day (0 for an invalid date, which no
      category holds). */
  function DayKey(dayOf: string -> Option<int>): Schedule -> int
  {
    (s: Schedule) => if dayOf(s.data).Some? then dayOf(s.data).value else 0
  }

  function LatestFirstKey(dayOf: string -> Option<int>): Schedule -> int
  {
    (s: Schedule) => -DayKey(dayOf)(s)
  }

  /** The schedules of `s` in category `c`, in order, built as the page's
      pass builds them: one push per schedule. */
  function Bucket(s: seq<Schedule>, c: Category, t: int, dayOf: string -> Option<int>): seq<Schedule>
  {
    if s == [] then []
    else
      var last := s[|s| - 1];
      Bucket(s[..|s| - 1], c, t, dayOf) + (if CategoryOf(dayOf(last.data), t) == c then [last] else [])
  }

  /** The pass's bucket is the filter by the category. */
  lemma {:induction false} BucketIsFilter(s: seq<Schedule>, c: Category, t: int, dayOf: string -> Option<int>)
    ensures Bucket(s, c, t, dayOf) == Filter(s, InCategory(c, t, dayOf))
  {
    if s != [] {
      var init, last := s[..|s| - 1], s[|s| - 1];
      assert s == init + [last];
      BucketIsFilter(init, c, t, dayOf);
      FilterAppend(init, last, InCategory(c, t, dayOf));
    }
  }

  /** The forEach of the useMemo block: one pass pushing each schedule into
      its category, in the order of the fetched list. */
  method Partition(all: seq<Schedule>, t: int, dayOf: string -> Option<int>)
    returns (proximas: seq<Schedule>, atuais: seq<Schedule>, anteriores: seq<Schedule>)
    ensures proximas == Filter(all, InCategory(Upcoming, t, dayOf))
    ensures atuais == Filter(all, InCategory(Today, t, dayOf))
    ensures anteriores == Filter(all, InCategory(Previous, t, dayOf))
  {
    proximas, atuais, anteriores := [], [], [];
    for i := 0 to |all|
      invariant proximas == Bucket(all[..i], Upcoming, t, dayOf)
      invariant atuais == Bucket(all[..i], Today, t, dayOf)
      invariant anteriores == Bucket(all[..i], Previous, t, dayOf)
    {
      var s := all[i];
      assert all[..i + 1][..i] == all[..i];
      var d := dayOf(s.data);
      if d.Some? && d.value >= t + 1 {
        proximas := proximas + [s];
      } else if d.Some? && d.value == t {
        atuais := atuais + [s];
      } else if d.Some? && t - 30 < d.value && d.value < t {
        anteriores := anteriores + [s];
      }
    }
    assert all[..|all|] == all;
    BucketIsFilter(all, Upcoming, t, dayOf);
    BucketIsFilter(all, Today, t, dayOf);
    BucketIsFilter(all, Previous, t, dayOf);
  }

  /** The useMemo block: the pass above, then upcoming and today sorted by
      date and the recent ones latest first. */
  method Classify(all: seq<Schedule>, t: int, dayOf: string -> Option<int>)
    returns (proximas: seq<Schedule>, atuais: seq<Schedule>, anteriores: seq<Schedule>)
    ensures proximas == TabList(all, Upcoming, t, dayOf)
    ensures atuais == TabList(all, Today, t, dayOf)
    ensures anteriores == TabList(all, Previous, t, dayOf)
  {
    proximas, atuais, anteriores := Partition(all, t, dayOf);
    proximas := SortBy(proximas, TabKey(Upcoming, dayOf));
    atuais := SortBy(atuais, TabKey(Today, dayOf));
    anteriores := SortBy(anteriores, TabKey(Previous, dayOf));
  }

  /** The key a tab sorts by: the day, negated for the recent ones. */
  function TabKey(c: Category, dayOf: string -> Option<int>): Schedule -> int
  {
    if c == Previous then LatestFirstKey(dayOf) else DayKey(dayOf)
  }

  /** The list a category's tab shows: its schedules sorted by date, latest
      first for the recent ones. The sort is stable, so schedules of the same
      day keep the order of the fetched list. */
  function TabList(all: seq<Schedule>, c: Category, t: int, dayOf: string -> Option<int>): (r: seq<Schedule>)
    ensures multiset(r) == multiset(Filter(all, InCategory(c, t, dayOf)))
    ensures forall s :: s in r <==> s in all && CategoryOf(dayOf(s.data), t) == c
    ensures c != Previous ==> SortedBy(r, DayKey(dayOf))
    ensures c == Previous ==> forall i, j :: 0 <= i < j < |r| ==> DayKey(dayOf)(r[i]) >= DayKey(dayOf)(r[j])
    ensures forall k :: Filter(r, KeyIs(TabKey(c, dayOf), k)) == Filter(Filter(all, InCategory(c, t, dayOf)), KeyIs(TabKey(c, dayOf), k))
  {
    var members := Filter(all, InCategory(c, t, dayOf));
    var r := SortBy(members, TabKey(c, dayOf));
    SameMembers(r, members);
    assert c == Previous ==> SortedBy(r, LatestFirstKey(dayOf));
    forall k ensures Filter(r, KeyIs(TabKey(c, dayOf), k)) == Filter(members, KeyIs(TabKey(c, dayOf), k)) {
      SortByStable(members, TabKey(c, dayOf), k);
    }
    r
  }

  /** No schedule appears in two tabs, and each tab holds exactly the
      schedules dated in its range. */
  lemma TabsDisjoint(all: seq<Schedule>, t: int, dayOf: string -> Option<int>)
    ensures forall s :: s in TabList(all, Upcoming, t, dayOf) <==> s in all && dayOf(s.data).Some? && dayOf(s.data).value > t
    ensures forall s :: s in TabList(all, Today, t, dayOf) <==> s in all && dayOf(s.data) == Some(t)
    ensures forall s :: s in TabList(all, Previous, t, dayOf) <==>
              s in all && dayOf(s.data).Some? && t - 30 < dayOf(s.data).value < t
    ensures forall s :: s in TabList(all, Upcoming, t, dayOf) ==>
              s !in TabList(all, Today, t, dayOf) && s !in TabList(all, Previous, t, dayOf)
    ensures forall s :: s in TabList(all, Today, t, dayOf) ==> s !in TabList(all, Previous, t, dayOf)
  {
  }

  // ---------------------------------------------------------------------
  // Rendering

  datatype Tab = Proximas | Atuais | Anteriores

  /** renderScheduleCards: a message for an empty list; otherwise the first
      `limit` cards and, when some are hidden, how many. */
  datatype CardsView = NoSchedules | Cards(shown: seq<Schedule>, hidden: Option<nat>)

  function RenderScheduleCards(schedules: seq<Schedule>, limit: nat): (v: CardsView)
    ensures schedules == [] <==> v == NoSchedules
    ensures v.Cards? ==> |v.shown| == Min(limit, |schedules|) && v.shown == schedules[..|v.shown|]
    ensures v.Cards? ==> (v.hidden.Some? <==> |schedules| > limit)
    ensures v.Cards? && v.hidden.Some? ==> |v.shown| + v.hidden.value == |schedules|
  {
    if schedules == [] then NoSchedules
    else Cards(Take(schedules, limit),
               if |schedules| > limit then Some(|schedules| - limit) else None)
  }

  /** The badge of an assignment row: the viewer's own, someone else's, or nobody's. */
  datatype BadgeVariant = OwnBadge | FilledBadge | EmptyBadge

  datatype CardRow = CardRow(caption: string, name: string, badge: BadgeVariant)

  const Vazio := "Vazio"

  /** The rows of a card, one per assignment in the schedule's order: the
      position's caption, the assigned user's name or "Vazio", and the badge.
      `viewer` is the id of the signed-in user once it has loaded; the viewer
      is matched on the joined user's id, not on `userId`. */
  function CardRows(s: Schedule, viewer: Option<int>): (r: seq<CardRow>)
    ensures |r| == |AssignmentsOf(s)|
    ensures forall k :: 0 <= k < |r| ==> r[k].caption == PositionLabel(AssignmentsOf(s)[k].posicao)
    ensures forall k :: 0 <= k < |r| ==>
              r[k].name == (if AssignmentsOf(s)[k].user.Some? then AssignmentsOf(s)[k].user.value.nome else Vazio)
    ensures forall k :: 0 <= k < |r| ==> (r[k].badge == EmptyBadge <==> AssignmentsOf(s)[k].user.None?)
    ensures forall k :: 0 <= k < |r| ==>
              (r[k].badge == OwnBadge <==> AssignmentsOf(s)[k].user.Some? && viewer == Some(AssignmentsOf(s)[k].user.value.id))
  {
    var assignments := AssignmentsOf(s);
    seq(|assignments|, k requires 0 <= k < |assignments| => RowOf(assignments[k], viewer))
  }

  function RowOf(a: Assignment, viewer: Option<int>): CardRow
  {
    var badge := if a.user.None? then EmptyBadge
                 else if viewer == Some(a.user.value.id) then OwnBadge
                 else FilledBadge;
    CardRow(PositionLabel(a.posicao), if a.user.Some? then a.user.value.nome else Vazio, badge)
  }

  const ShowAllLimit := 999
  const DefaultLimit := 3

  /** The card limit of a tab: 3 upcoming unless "Ver Todas" is on, 999 elsewhere. */
  function TabLimit(tab: Tab, showAll: bool): (n: nat)
    ensures tab != Proximas ==> n == ShowAllLimit
    ensures tab == Proximas ==> n == (if showAll then ShowAllLimit else DefaultLimit)
  {
    if tab == Proximas && !showAll then DefaultLimit else ShowAllLimit
  }

  /** Which tab buttons and toggles the page shows. */
  datatype TabBar = TabBar(today: bool, previous: bool, showAllToggle: bool)

  function TabsShown(tab: Tab, proximas: seq<Schedule>, atuais: seq<Schedule>, anteriores: seq<Schedule>): (b: TabBar)
    ensures b.today <==> atuais != []
    ensures b.previous <==> anteriores != []
    ensures b.showAllToggle <==> tab == Proximas && |proximas| > DefaultLimit
  {
    TabBar(|atuais| > 0, |anteriores| > 0, tab == Proximas && |proximas| > 3)
  }

  /** With "Ver Todas" off, the upcoming tab shows at most three cards and
      says how many more there are. */
  lemma UpcomingShowsThree(proximas: seq<Schedule>)
    requires |proximas| > DefaultLimit
    ensures RenderScheduleCards(proximas, TabLimit(Proximas, false)) == Cards(proximas[..3], Some(|proximas| - 3))
  {
  }
}

=== FILE: materials.dfy ===
/** The material pages: the admin page (client/src/pages/admin-materials.tsx)
    creates materials of the type chosen in its selector and lists PDFs and
    videos in two tabs; the member video page (client/src/pages/member-videos.tsx)
    lists the videos and plays the selected one through its embed URL. */
module Materials {
  import opened Common
  import opened Schema
  import YouTube

  const Pdf := "pdf"
  const Video := "video"

  function OfTipo(tipo: string): Material -> bool
  {
    (m: Material) => m.tipo == tipo
  }

  /** `materials.filter(m => m.tipo === tipo)`: that type's materials, in order. */
  function MaterialsOf(ms: seq<Material>, tipo: string): (r: seq<Material>)
    ensures forall m :: m in r <==> m in ms && m.tipo == tipo
    ensures IsSubsequence(r, ms)
    ensures |r| == Count(ms, OfTipo(tipo))
  {
    FilterIsSubsequence(ms, OfTipo(tipo));
    Filter(ms, OfTipo(tipo))
  }

  /** The two tabs never share a material, their counts add up to at most
      the header's count, and a material of any other type is in neither. */
  lemma TabsPartition(ms: seq<Material>)
    ensures forall m :: m in MaterialsOf(ms, Pdf) ==> m !in MaterialsOf(ms, Video)
    ensures |MaterialsOf(ms, Pdf)| + |MaterialsOf(ms, Video)| <= |ms|
    ensures forall m :: m in ms && m.tipo != Pdf && m.tipo != Video ==>
              m !in MaterialsOf(ms, Pdf) && m !in MaterialsOf(ms, Video)
  {
    CountDisjoint(ms, OfTipo(Pdf), OfTipo(Video));
  }

  /** When every material is a PDF or a video, the tab counts add up to the header's. */
  lemma {:induction false} TabsCoverAll(ms: seq<Material>)
    requires forall m :: m in ms ==> m.tipo == Pdf || m.tipo == Video
    ensures |MaterialsOf(ms, Pdf)| + |MaterialsOf(ms, Video)| == |ms|
  {
    if ms != [] {
      assert ms[0] in ms;
      assert forall m :: m in ms[1..] ==> m in ms;
      TabsCoverAll(ms[1..]);
    }
  }

  /** The type selector starts on "pdf", as does the form's own `tipo`. */
  const InitialMaterialType := Pdf
  const MaterialFormDefaults := InsertMaterial("", Some(""), "", Some(Pdf))

  /** onSubmit: the form's data with `tipo` replaced by the selected type. */
  function SubmitPayload(data: InsertMaterial, materialType: string): (r: InsertMaterial)
    ensures r.tipo == Some(materialType)
    ensures r.(tipo := data.tipo) == data
  {
    data.(tipo := Some(materialType))
  }

  /** The stored material has the selected type, so once listed it is in
      that type's tab, whatever the form said. */
  lemma SubmittedLandsInTab(ms: seq<Material>, data: InsertMaterial, materialType: string, id: int, now: int)
    ensures var m := NewMaterial(SubmitPayload(data, materialType), id, now);
            m.tipo == materialType && m in MaterialsOf(ms + [m], materialType)
  {
    var m := NewMaterial(SubmitPayload(data, materialType), id, now);
    assert m in ms + [m];
  }

  // ---------------------------------------------------------------------
  // Member videos

  /** The player's source: none until a video is selected, then its embed URL. */
  function PlayerSource(selected: Option<Material>): (src: Option<string>)
    ensures src.Some? <==> selected.Some?
    ensures src.Some? && YouTube.VideoId(selected.value.arquivoUrl).Some? ==>
              src.value == YouTube.EmbedBase + YouTube.VideoId(selected.value.arquivoUrl).value
    ensures src.Some? && YouTube.VideoId(selected.value.arquivoUrl).None? ==> src.value == selected.value.arquivoUrl
  {
    match selected
    case None => None
    case Some(v) => Some(YouTube.EmbedUrl(v.arquivoUrl))
  }
}

=== FILE: member_profile.dfy ===
/** The member profile page (client/src/pages/member-profile.tsx): the
    profile of the signed-in user, kept in the browser's storage, and the
    dialog that edits it. Submitting the dialog drops a blank password,
    uploads a chosen photo first and stops if that upload fails, then sends
    the update; a successful update replaces the stored and shown user and
    closes the dialog. */
module MemberProfile {
  import opened Common
  import opened Schema

  /** The user as the page keeps it (the JSON of the signed-in user). */
  datatype ProfileUser = ProfileUser(
    id: int, nome: string, email: string,
    dataNascimento: Option<string>, profissao: Option<string>, endereco: Option<string>,
    bairro: Option<string>, cidade: Option<string>, fotoUrl: Option<string>)

  /** The dialog's fields; `None` is a field the form holds no value for. */
  datatype EditProfileForm = EditProfileForm(
    nome: string, email: string, senha: Option<string>,
    dataNascimento: Option<string>, profissao: Option<string>, endereco: Option<string>,
    bairro: Option<string>, cidade: Option<string>, fotoUrl: Option<string>)

  /** editProfileSchema: `nome` at least 2 characters and a valid `email`;
      every other field is optional and unchecked. */
  function CheckEditProfile(f: EditProfileForm): (issues: seq<SchemaError>)
    ensures issues == [] <==> |f.nome| >= 2 && ValidEmail(f.email)
    ensures TooShort("nome", 2) in issues <==> |f.nome| < 2
    ensures InvalidEmail("email") in issues <==> !ValidEmail(f.email)
  {
    (if |f.nome| < 2 then [TooShort("nome", 2)] else [])
    + (if !ValidEmail(f.email) then [InvalidEmail("email")] else [])
  }

  /** Only the name and the e-mail decide whether the dialog can be saved. */
  lemma OptionalFieldsUnchecked(f: EditProfileForm, g: EditProfileForm)
    requires f.nome == g.nome && f.email == g.email
    ensures CheckEditProfile(f) == CheckEditProfile(g)
  {
  }

  /** `s.trim() === ""`: nothing but white space. */
  predicate Blank(s: string)
  {
    forall k :: 0 <= k < |s| ==> IsJsWhitespace(s[k])
  }

  /** `!senha || senha.trim() === ""`: no password, an empty one, or only spaces. */
  predicate DropsPassword(senha: Option<string>)
  {
    senha.None? || Blank(senha.value)
  }

  /** The update the page sends; `None` is a key left out of the request body. */
  datatype ProfileUpdate = ProfileUpdate(
    nome: string, email: string, senha: Option<string>,
    dataNascimento: Option<string>, profissao: Option<string>, endereco: Option<string>,
    bairro: Option<string>, cidade: Option<string>, fotoUrl: Option<string>)

  /** What a photo upload does: none chosen, uploaded to a URL, or failed. */
  datatype Upload = NoFile | Uploaded(url: string) | UploadFailed

  /** What submitting the dialog leads to. */
  datatype Submission = Aborted | UserNotFound | Patch(path: string, body: ProfileUpdate)

  const ProfilePath := "/api/profile"

  /** The body built from the form: every field copied, the password left out
      when blank, and the photo URL replaced by an uploaded one. */
  function UpdateBody(data: EditProfileForm, upload: Upload): (u: ProfileUpdate)
    requires !upload.UploadFailed?
    ensures u.senha.None? <==> DropsPassword(data.senha)
    ensures u.senha.Some? ==> u.senha == data.senha
    ensures u.fotoUrl == (if upload.Uploaded? then Some(upload.url) else data.fotoUrl)
    ensures u.nome == data.nome && u.email == data.email && u.dataNascimento == data.dataNascimento
    ensures u.profissao == data.profissao && u.endereco == data.endereco
    ensures u.bairro == data.bairro && u.cidade == data.cidade
  {
    ProfileUpdate(data.nome, data.email, if DropsPassword(data.senha) then None else data.senha,
                  data.dataNascimento, data.profissao, data.endereco, data.bairro, data.cidade,
                  if upload.Uploaded? then Some(upload.url) else data.fotoUrl)
  }

  /** The dialog's values after the user is loaded: the user's fields, empty
      text for the missing ones, and no password. The birth date is given as
      the page formats it. */
  function ResetValues(u: ProfileUser, isoDate: string -> string): (f: EditProfileForm)
    ensures f.senha.None?
    ensures f.nome == u.nome && f.email == u.email
    ensures f.dataNascimento == Some(if Present(u.dataNascimento) then isoDate(u.dataNascimento.value) else "")
    ensures f.fotoUrl == Some(if Present(u.fotoUrl) then u.fotoUrl.value else "")
    ensures f.profissao == Some(if Present(u.profissao) then u.profissao.value else "")
    ensures f.endereco == Some(if Present(u.endereco) then u.endereco.value else "")
    ensures f.bairro == Some(if Present(u.bairro) then u.bairro.value else "")
    ensures f.cidade == Some(if Present(u.cidade) then u.cidade.value else "")
  {
    EditProfileForm(u.nome, u.email, None,
      Some(if Present(u.dataNascimento) then isoDate(u.dataNascimento.value) else ""),
      Some(OrEmpty(u.profissao)), Some(OrEmpty(u.endereco)), Some(OrEmpty(u.bairro)),
      Some(OrEmpty(u.cidade)), Some(OrEmpty(u.fotoUrl)))
  }

  /** Saving the dialog without typing a password never sends one, and
      saving it with spaces only does not either. */
  lemma UntypedPasswordNotSent(u: ProfileUser, isoDate: string -> string, typed: string)
    ensures UpdateBody(ResetValues(u, isoDate), NoFile).senha.None?
    ensures Blank(typed) ==> UpdateBody(ResetValues(u, isoDate).(senha := Some(typed)), NoFile).senha.None?
    ensures !Blank(typed) ==> UpdateBody(ResetValues(u, isoDate).(senha := Some(typed)), NoFile).senha == Some(typed)
  {
  }

  /** The city line: shown only with a city, followed by " - " and the
      neighbourhood when there is one. */
  function CityLine(u: ProfileUser): (line: Option<string>)
    ensures line.Some? <==> Present(u.cidade)
    ensures line.Some? && Present(u.bairro) ==> line.value == u.cidade.value + " - " + u.bairro.value
    ensures line.Some? && !Present(u.bairro) ==> line.value == u.cidade.value
  {
    if !Present(u.cidade) then None
    else if Present(u.bairro) then Some(u.cidade.value + " - " + u.bairro.value)
    else Some(u.cidade.value)
  }

  class MemberProfilePage {
    /** The shown user; `None` until it is read from storage. */
    var user: Option<ProfileUser>
    /** The user kept in the browser's storage under "user". */
    var storedUser: Option<ProfileUser>
    var isEditDialogOpen: bool

    /** On mount the page shows the stored user, if any. */
    constructor (stored: Option<ProfileUser>)
      ensures user == stored && storedUser == stored && !isEditDialogOpen
    {
      user := stored;
      storedUser := stored;
      isEditDialogOpen := false;
    }

    /** onSubmit followed by the update's request: a failed upload stops
        everything; without a user there is no request; otherwise the PATCH
        with the built body. */
    method OnSubmit(data: EditProfileForm, upload: Upload) returns (s: Submission)
      ensures s == Aborted <==> upload.UploadFailed?
      ensures s == UserNotFound <==> !upload.UploadFailed? && user.None?
      ensures s.Patch? ==> s.path == ProfilePath && s.body == UpdateBody(data, upload)
    {
      var body := ProfileUpdate(data.nome, data.email, data.senha, data.dataNascimento,
                                data.profissao, data.endereco, data.bairro, data.cidade, data.fotoUrl);
      if body.senha.None? || Blank(body.senha.value) {
        body := body.(senha := None);
      }
      match upload {
        case UploadFailed =>
          return Aborted;
        case Uploaded(url) =>
          body := body.(fotoUrl := Some(url));
        case NoFile =>
      }
      if user.None? {
        return UserNotFound;
      }
      s := Patch(ProfilePath, body);
    }

    /** onSuccess: the returned user is stored and shown, and the dialog closes. */
    method UpdateSucceeded(updated: ProfileUser)
      modifies this
      ensures user == Some(updated) && storedUser == Some(updated) && !isEditDialogOpen
    {
      storedUser := Some(updated);
      user := Some(updated);
      isEditDialogOpen := false;
    }
  }
}

=== FILE: member_schedules.dfy ===
/** The member's schedule page (client/src/pages/member-schedules.tsx): the
    schedules of the selected month, shown per ministry only to members of
    that ministry. A louvor card lists the six positions with the name of the
    user assigned; an obreiros card numbers its assignments. The viewer's own
    assignments are highlighted. */
module MemberSchedules {
  import opened Common
  import opened Schedules

  /** A position row of a card: its caption, the name shown, and whether it is
      highlighted as the viewer's own. */
  datatype Slot = Slot(caption: string, name: string, highlighted: bool)

  datatype ScheduleCard = ScheduleCard(schedule: Schedule, slots: seq<Slot>)

  /** A ministry section: a message when the month has no schedule, the cards otherwise. */
  datatype Section = NoSchedulesThisMonth | CardList(cards: seq<ScheduleCard>)

  datatype PageView =
    | Loading
    | NoMinistry
    | Sections(louvor: Option<Section>, obreiros: Option<Section>)

  const Vazio := "Vazio"
  const NaoAtribuido := "Não atribuído"

  function HasLouvor(user: Option<SessionUser>): bool
  {
    user.Some? && OrFalse(user.value.ministerioLouvor)
  }

  function HasObreiro(user: Option<SessionUser>): bool
  {
    user.Some? && OrFalse(user.value.ministerioObreiro)
  }

  /** The lists behind the two sections: a ministry's schedules for its
      members, nothing for anyone else. */
  function VisibleSchedules(user: Option<SessionUser>, schedules: seq<Schedule>, tipo: string): (r: seq<Schedule>)
    requires tipo == Louvor || tipo == Obreiros
    ensures !(if tipo == Louvor then HasLouvor(user) else HasObreiro(user)) ==> r == []
    ensures forall s :: s in r ==> s in schedules && s.tipo == tipo
    ensures (if tipo == Louvor then HasLouvor(user) else HasObreiro(user)) ==>
              forall s :: s in schedules && s.tipo == tipo ==> s in r
  {
    var member := if tipo == Louvor then HasLouvor(user) else HasObreiro(user);
    if member then SchedulesOf(schedules, tipo) else []
  }

  /** The name on a badge: the assigned user's name, or the placeholder
      (`?.nome ?? placeholder`; an empty name is shown as it is). */
  function NameOr(a: Option<Assignment>, placeholder: string): (name: string)
    ensures a.Some? && a.value.user.Some? ==> name == a.value.user.value.nome
    ensures a.None? || a.value.user.None? ==> name == placeholder
  {
    if a.Some? && a.value.user.Some? then a.value.user.value.nome else placeholder
  }

  /** `assignment?.userId === currentUser?.id` for a signed-in viewer: a
      missing assignment and a null userId are never the viewer's number. */
  function IsViewers(a: Option<Assignment>, viewerId: int): (b: bool)
    ensures b <==> a.Some? && a.value.userId == Some(viewerId)
  {
    match a
    case None => false
    case Some(x) => x.userId.Some? && x.userId.value == viewerId
  }

  /** The assignment of a position on a schedule, the first one if several. */
  function AssignmentAt(s: Schedule, key: string): (r: Option<Assignment>)
    ensures r.None? <==> forall a :: a in AssignmentsOf(s) ==> a.posicao != key
    ensures r.Some? ==> r.value in AssignmentsOf(s) && r.value.posicao == key
    ensures r.Some? ==> exists k :: 0 <= k < |AssignmentsOf(s)| && AssignmentsOf(s)[k] == r.value
                                    && forall j :: 0 <= j < k ==> AssignmentsOf(s)[j].posicao != key
  {
    var atIt := (a: Assignment) => a.posicao == key;
    var r := Find(AssignmentsOf(s), atIt);
    if r.Some? then FindFirst(AssignmentsOf(s), atIt); r else r
  }

  /** A louvor card's rows: the six positions in order, whatever the schedule holds. */
  function LouvorSlots(s: Schedule, viewerId: int): (r: seq<Slot>)
    ensures |r| == |LouvorPositions|
    ensures forall k :: 0 <= k < |r| ==> r[k].caption == PositionLabel(LouvorPositions[k])
    ensures forall k :: 0 <= k < |r| ==> r[k].name == NameOr(AssignmentAt(s, LouvorPositions[k]), Vazio)
    ensures forall k :: 0 <= k < |r| ==>
              (r[k].highlighted <==> AssignmentAt(s, LouvorPositions[k]).Some?
                                     && AssignmentAt(s, LouvorPositions[k]).value.userId == Some(viewerId))
  {
    seq(|LouvorPositions|, k requires 0 <= k < |LouvorPositions| =>
      var a := AssignmentAt(s, LouvorPositions[k]);
      Slot(PositionLabel(LouvorPositions[k]), NameOr(a, Vazio), IsViewers(a, viewerId)))
  }

  /** An obreiros card's rows: one per assignment, numbered from 1. */
  function ObreiroSlots(assignments: seq<Assignment>, viewerId: int): (r: seq<Slot>)
    ensures |r| == |assignments|
    ensures forall k :: 0 <= k < |r| ==> r[k].caption == "Obreiro " + NatToString(k + 1)
    ensures forall k :: 0 <= k < |r| ==> r[k].name == NameOr(Some(assignments[k]), NaoAtribuido)
    ensures forall k :: 0 <= k < |r| ==> (r[k].highlighted <==> assignments[k].userId == Some(viewerId))
  {
    seq(|assignments|, k requires 0 <= k < |assignments| =>
      Slot("Obreiro " + NatToString(k + 1), NameOr(Some(assignments[k]), NaoAtribuido),
           IsViewers(Some(assignments[k]), viewerId)))
  }

  function Cards(ss: seq<Schedule>, tipo: string, viewerId: int): (r: seq<ScheduleCard>)
    ensures |r| == |ss|
    ensures forall k :: 0 <= k < |r| ==> r[k].schedule == ss[k]
    ensures forall k :: 0 <= k < |r| ==>
              r[k].slots == (if tipo == Louvor then LouvorSlots(ss[k], viewerId)
                             else ObreiroSlots(AssignmentsOf(ss[k]), viewerId))
  {
    seq(|ss|, k requires 0 <= k < |ss| =>
      ScheduleCard(ss[k], if tipo == Louvor then LouvorSlots(ss[k], viewerId)
                          else ObreiroSlots(AssignmentsOf(ss[k]), viewerId)))
  }

  function SectionOf(ss: seq<Schedule>, tipo: string, viewerId: int): (sec: Section)
    ensures ss == [] <==> sec == NoSchedulesThisMonth
    ensures sec.CardList? ==> sec.cards == Cards(ss, tipo, viewerId)
  {
    if |ss| > 0 then CardList(Cards(ss, tipo, viewerId)) else NoSchedulesThisMonth
  }

  /** The page: loading while either query is pending; a message for a
      viewer in no ministry; otherwise a section per ministry of the viewer. */
  function View(pendingUser: bool, pendingSchedules: bool, user: Option<SessionUser>, schedules: seq<Schedule>)
    : (v: PageView)
    ensures v == Loading <==> pendingUser || pendingSchedules
    ensures v == NoMinistry <==> !pendingUser && !pendingSchedules && !HasLouvor(user) && !HasObreiro(user)
    ensures v.Sections? ==> user.Some?
    ensures v.Sections? ==> (v.louvor.Some? <==> HasLouvor(user)) && (v.obreiros.Some? <==> HasObreiro(user))
    ensures v.Sections? && v.louvor.Some? ==>
              v.louvor.value == SectionOf(SchedulesOf(schedules, Louvor), Louvor, user.value.id)
    ensures v.Sections? && v.obreiros.Some? ==>
              v.obreiros.value == SectionOf(SchedulesOf(schedules, Obreiros), Obreiros, user.value.id)
  {
    if pendingUser || pendingSchedules then Loading
    else if !(HasLouvor(user) || HasObreiro(user)) then NoMinistry
    else
      var id := user.value.id;
      Sections(
        if HasLouvor(user) then Some(SectionOf(VisibleSchedules(user, schedules, Louvor), Louvor, id)) else None,
        if HasObreiro(user) then Some(SectionOf(VisibleSchedules(user, schedules, Obreiros), Obreiros, id)) else None)
  }

  /** Every highlighted row on the page is an assignment of the viewer: the
      rows of a card (see Cards) that are highlighted belong to assignments of
      the card's schedule that name the viewer. */
  lemma HighlightIsOwn(s: Schedule, tipo: string, viewerId: int, slots: seq<Slot>, j: nat)
    requires slots == (if tipo == Louvor then LouvorSlots(s, viewerId) else ObreiroSlots(AssignmentsOf(s), viewerId))
    requires j < |slots| && slots[j].highlighted
    ensures exists a :: a in AssignmentsOf(s) && a.userId == Some(viewerId)
  {
    if tipo == Louvor {
      var a := AssignmentAt(s, LouvorPositions[j]).value;
      assert a in AssignmentsOf(s) && a.userId == Some(viewerId);
    } else {
      var a := AssignmentsOf(s)[j];
      assert a in AssignmentsOf(s) && a.userId == Some(viewerId);
    }
  }
}

=== FILE: member_visitors.dfy ===
/** The member visitors page (client/src/pages/member-visitors.tsx): the same
    form as the admin page, but the list lives on the server. The page keeps
    only the form and the id being edited; each handler decides which request
    to send, and the success callbacks of the create and update requests reset
    the page state. */
module MemberVisitors {
  import opened Common
  import AdminVisitors

  type VisitorForm = AdminVisitors.VisitorForm

  /** A visitor row as fetched: any text column may be null. */
  datatype FetchedVisitor = FetchedVisitor(
    id: int, nome: Option<string>, whatsapp: Option<string>, comoConheceu: Option<string>,
    culto: Option<string>, membrouSe: Option<bool>)

  /** The JSON body of a create or update request. */
  datatype Payload = Payload(
    nome: Option<string>, whatsapp: Option<string>, comoConheceu: Option<string>,
    culto: Option<string>, membrouSe: bool)

  datatype VisitorRequest =
    | NoRequest
    | CreateVisitor(body: Payload)
    | UpdateVisitor(id: int, body: Payload)
    | DeleteVisitor(id: int)

  function PayloadOf(f: VisitorForm): Payload
  {
    Payload(Some(f.nome), Some(f.whatsapp), Some(f.comoConheceu), Some(f.culto), f.membrouSe)
  }

  /** handleEdit's form: missing text becomes '', the flag becomes a boolean. */
  function FormFrom(v: FetchedVisitor): (f: VisitorForm)
    ensures f.nome == OrEmpty(v.nome) && f.whatsapp == OrEmpty(v.whatsapp)
    ensures f.comoConheceu == OrEmpty(v.comoConheceu) && f.culto == OrEmpty(v.culto)
    ensures f.membrouSe <==> v.membrouSe == Some(true)
  {
    AdminVisitors.VisitorForm(OrEmpty(v.nome), OrEmpty(v.whatsapp),
      OrEmpty(v.comoConheceu), OrEmpty(v.culto), v.membrouSe == Some(true))
  }

  /** The first fetched visitor with that id (`visitors.find`). */
  function FindVisitor(vs: seq<FetchedVisitor>, id: int): (r: Option<FetchedVisitor>)
    ensures r.None? <==> forall v :: v in vs ==> v.id != id
    ensures r.Some? ==> r.value in vs && r.value.id == id
    ensures r.Some? ==> exists k :: 0 <= k < |vs| && vs[k] == r.value
                                    && forall j :: 0 <= j < k ==> vs[j].id != id
  {
    var withId := (v: FetchedVisitor) => v.id == id;
    var r := Find(vs, withId);
    if r.Some? then FindFirst(vs, withId); r else r
  }

  /** The toggle payload: the row's four text fields as they are, with the
      flag set to the negation of `current`. */
  function TogglePayload(v: FetchedVisitor, current: bool): (p: Payload)
    ensures p.nome == v.nome && p.whatsapp == v.whatsapp
    ensures p.comoConheceu == v.comoConheceu && p.culto == v.culto
    ensures p.membrouSe == !current
  {
    Payload(v.nome, v.whatsapp, v.comoConheceu, v.culto, !current)
  }

  class MemberVisitorsPage {
    var form: VisitorForm
    var editingId: Option<int>

    constructor()
      ensures form == AdminVisitors.EmptyForm && editingId == None
    {
      form := AdminVisitors.EmptyForm;
      editingId := None;
    }

    /** handleSubmit: nothing is sent for an incomplete form; otherwise an
        update of the visitor being edited, or a create, carrying the form. */
    method HandleSubmit() returns (r: VisitorRequest)
      ensures !AdminVisitors.Complete(form) <==> r == NoRequest
      ensures AdminVisitors.Complete(form) && AdminVisitors.Editing(editingId) ==>
                r == UpdateVisitor(editingId.value, PayloadOf(form))
      ensures AdminVisitors.Complete(form) && !AdminVisitors.Editing(editingId) ==>
                r == CreateVisitor(PayloadOf(form))
    {
      if form.nome == "" || form.whatsapp == "" || form.comoConheceu == "" || form.culto == "" {
        return NoRequest;
      }
      if editingId.Some? && editingId.value != 0 {
        return UpdateVisitor(editingId.value, PayloadOf(form));
      }
      return CreateVisitor(PayloadOf(form));
    }

    /** handleEdit. */
    method HandleEdit(v: FetchedVisitor)
      modifies this
      ensures form == FormFrom(v) && editingId == Some(v.id)
    {
      form := FormFrom(v);
      editingId := Some(v.id);
    }

    /** handleDelete: a delete request for the id; editing ends only if it
        was that visitor. */
    method HandleDelete(id: int) returns (r: VisitorRequest)
      modifies this
      ensures r == DeleteVisitor(id)
      ensures editingId == (if old(editingId) == Some(id) then None else old(editingId))
      ensures form == old(form)
    {
      r := DeleteVisitor(id);
      if editingId == Some(id) {
        editingId := None;
      }
    }

    /** handleToggleMembrou: nothing for an id not in the fetched list,
        otherwise an update of that visitor with the flag negated. */
    method HandleToggleMembrou(visitors: seq<FetchedVisitor>, id: int, current: bool)
      returns (r: VisitorRequest)
      ensures FindVisitor(visitors, id).None? <==> r == NoRequest
      ensures FindVisitor(visitors, id).Some? ==>
                r == UpdateVisitor(id, TogglePayload(FindVisitor(visitors, id).value, current))
    {
      var v := FindVisitor(visitors, id);
      if v.None? {
        return NoRequest;
      }
      return UpdateVisitor(id, TogglePayload(v.value, current));
    }

    /** onSuccess of the create request: the form is cleared. */
    method CreateSucceeded()
      modifies this
      ensures form == AdminVisitors.EmptyForm && editingId == old(editingId)
    {
      form := AdminVisitors.EmptyForm;
    }

    /** The "Cancelar" button: editing ends and the form is cleared. */
    method Cancel()
      modifies this
      ensures form == AdminVisitors.EmptyForm && editingId == None
    {
      editingId := None;
      form := AdminVisitors.EmptyForm;
    }

    /** onSuccess of the update request: editing ends and the form is cleared. */
    method UpdateSucceeded()
      modifies this
      ensures form == AdminVisitors.EmptyForm && editingId == None
    {
      editingId := None;
      form := AdminVisitors.EmptyForm;
    }
  }

  /** The row's checkbox passes `!!v.membrouSe` as `current`, so the update
      asks for the opposite of what the row shows. */
  lemma ToggleNegatesRow(v: FetchedVisitor)
    ensures TogglePayload(v, v.membrouSe == Some(true)).membrouSe <==> v.membrouSe != Some(true)
  {
  }
}

=== FILE: navigation.dfy ===
/** Navigation and the sign-in guards of the two areas. The member sidebar
    (client/src/components/app-sidebar.tsx) lists six fixed pages and adds
    the visitors and schedules pages by ministry; the admin layout
    (client/src/components/admin-layout.tsx) admits administrators only; the
    member layout (client/src/components/member-layout.tsx) admits anyone
    signed in. The browser's storage and location are a `Browser` object the
    components update. */
module Navigation {
  import opened Common

  /** The browser state the components read and write: the stored token and
      user (`localStorage`) and the current location. */
  class Browser {
    var token: Option<string>
    var userData: Option<string>
    var location: string

    constructor (token: Option<string>, userData: Option<string>, location: string)
      ensures this.token == token && this.userData == userData && this.location == location
    {
      this.token := token;
      this.userData := userData;
      this.location := location;
    }

    /** Moves to another page; the storage is left alone. */
    method Navigate(to: string)
      modifies this
      ensures location == to && token == old(token) && userData == old(userData)
    {
      location := to;
    }

    /** handleLogout: forgets the token and the user, and goes to the home page. */
    method Logout()
      modifies this
      ensures token.None? && userData.None? && location == "/"
    {
      token := None;
      userData := None;
      location := "/";
    }
  }

  /** The user JSON kept in storage, as far as the layouts read it. */
  datatype StoredUser = StoredUser(nome: string, isAdmin: Option<bool>, isLider: Option<bool>)

  // ---------------------------------------------------------------------
  // Member sidebar

  datatype NavItem = NavItem(title: string, url: string)

  /** The sidebar's optional properties; `None` is a property not passed. */
  datatype SidebarProps = SidebarProps(
    userNome: Option<string>, isLider: Option<bool>, isAdmin: Option<bool>,
    isObreiro: Option<bool>, isLouvor: Option<bool>, fotoUrl: Option<string>)

  const BaseItems := [
    NavItem("Dashboard", "/membro"),
    NavItem("Cursos", "/membro/cursos"),
    NavItem("Apostilas", "/membro/apostilas"),
    NavItem("Vídeos", "/membro/videos"),
    NavItem("Pedidos de Oração", "/membro/oracoes"),
    NavItem("Perfil", "/membro/perfil")]

  const VisitantesItem := NavItem("Visitantes", "/membro/visitantes")

  function EscalasItem(isLider: Option<bool>): (item: NavItem)
    ensures item.title == "Escalas"
    ensures item.url == (if OrFalse(isLider) then "/lider/escalas" else "/membro/escalas")
  {
    NavItem("Escalas", if OrFalse(isLider) then "/lider/escalas" else "/membro/escalas")
  }

  /** A page of the member area: under "/membro" or "/lider". */
  predicate MemberArea(url: string)
  {
    StartsWith(url, "/membro") || StartsWith(url, "/lider")
  }

  predicate HasTitle(items: seq<NavItem>, title: string)
  {
    exists k :: 0 <= k < |items| && items[k].title == title
  }

  /** The menu: the six fixed pages, then the visitors page for obreiros,
      then the schedules page for obreiros and louvor members, the leaders'
      version for a leader. Every page is in the member area and no two
      share a URL, so at most one item is active. */
  method MenuItems(props: SidebarProps) returns (items: seq<NavItem>)
    ensures |items| == 6 + (if OrFalse(props.isObreiro) then 1 else 0)
                         + (if OrFalse(props.isObreiro) || OrFalse(props.isLouvor) then 1 else 0)
    ensures items[..6] == BaseItems
    ensures HasTitle(items, "Visitantes") <==> OrFalse(props.isObreiro)
    ensures OrFalse(props.isObreiro) ==> items[6] == VisitantesItem
    ensures HasTitle(items, "Escalas") <==> OrFalse(props.isObreiro) || OrFalse(props.isLouvor)
    ensures HasTitle(items, "Escalas") ==> items[|items| - 1] == EscalasItem(props.isLider)
    ensures forall k :: 0 <= k < |items| ==> MemberArea(items[k].url)
    ensures forall i, j :: 0 <= i < j < |items| ==> items[i].url != items[j].url
  {
    items := BaseItems;
    if OrFalse(props.isObreiro) {
      items := items + [VisitantesItem];
    }
    if OrFalse(props.isObreiro) || OrFalse(props.isLouvor) {
      items := items + [EscalasItem(props.isLider)];
    }
    var ob := OrFalse(props.isObreiro);
    var es := OrFalse(props.isObreiro) || OrFalse(props.isLouvor);
    assert items == Menu(ob, es, EscalasItem(props.isLider));
    MenuTitles(ob, es, EscalasItem(props.isLider));
    MenuUrls(ob, es, EscalasItem(props.isLider));
  }

  /** The menu with the visitors item when `ob` and the schedules item `e` when `es`. */
  function Menu(ob: bool, es: bool, e: NavItem): (items: seq<NavItem>)
    ensures |items| == 6 + (if ob then 1 else 0) + (if es then 1 else 0)
    ensures items[..6] == BaseItems
    ensures ob ==> items[6] == VisitantesItem
    ensures es ==> items[|items| - 1] == e
  {
    BaseItems + (if ob then [VisitantesItem] else []) + (if es then [e] else [])
  }

  lemma MenuTitles(ob: bool, es: bool, e: NavItem)
    requires e.title == "Escalas"
    ensures HasTitle(Menu(ob, es, e), "Visitantes") <==> ob
    ensures HasTitle(Menu(ob, es, e), "Escalas") <==> es
  {
    var items := Menu(ob, es, e);
    forall k | 0 <= k < 6 ensures items[k].title != "Visitantes" && items[k].title != "Escalas" {
      assert items[k] == BaseItems[k];
    }
    forall k | 6 <= k < |items|
      ensures if k == 6 && ob then items[k] == VisitantesItem else items[k] == e
    {
    }
    if ob {
      assert items[6].title == "Visitantes";
    }
    if es {
      assert items[|items| - 1].title == "Escalas";
    }
  }

  lemma MenuUrls(ob: bool, es: bool, e: NavItem)
    requires e.url == "/lider/escalas" || e.url == "/membro/escalas"
    ensures forall k :: 0 <= k < |Menu(ob, es, e)| ==> MemberArea(Menu(ob, es, e)[k].url)
    ensures forall i, j :: 0 <= i < j < |Menu(ob, es, e)| ==> Menu(ob, es, e)[i].url != Menu(ob, es, e)[j].url
  {
    var items := Menu(ob, es, e);
    forall k | 0 <= k < |items| ensures MemberArea(items[k].url) {
      var u := items[k].url;
      assert u[..7] == "/membro" || u[..6] == "/lider";
    }
    forall i, j | 0 <= i < j < |items| ensures items[i].url != items[j].url {
      if j < 6 {
        assert items[i] == BaseItems[i] && items[j] == BaseItems[j];
      }
    }
  }

  /** `isActive` of a menu item: the location is exactly its URL. */
  predicate IsActive(item: NavItem, location: string)
  {
    location == item.url
  }

  /** With distinct URLs, as the menu has, at most one item is active. */
  lemma AtMostOneActive(items: seq<NavItem>, location: string, i: nat, j: nat)
    requires forall a, b :: 0 <= a < b < |items| ==> items[a].url != items[b].url
    requires i < |items| && j < |items| && IsActive(items[i], location) && IsActive(items[j], location)
    ensures i == j
  {
  }

  /** The admin link: absent unless the user is an administrator; active on
      every page under "/admin". */
  function AdminLink(props: SidebarProps, location: string): (link: Option<bool>)
    ensures link.Some? <==> OrFalse(props.isAdmin)
    ensures link.Some? ==> (link.value <==> StartsWith(location, "/admin"))
  {
    if OrFalse(props.isAdmin) then Some(StartsWith(location, "/admin")) else None
  }

  /** While the admin link is active no menu item is: member-area pages are
      never under "/admin". */
  lemma AdminLinkExcludesMenu(items: seq<NavItem>, props: SidebarProps, location: string)
    requires forall k :: 0 <= k < |items| ==> MemberArea(items[k].url)
    requires AdminLink(props, location) == Some(true)
    ensures forall k :: 0 <= k < |items| ==> !IsActive(items[k], location)
  {
    assert location[1] == "/admin"[1] == 'a';
    forall k | 0 <= k < |items| ensures !IsActive(items[k], location) {
      var u := items[k].url;
      assert u[1] == 'm' || u[1] == 'l' by {
        if StartsWith(u, "/membro") {
          assert u[1] == "/membro"[1];
        } else {
          assert u[1] == "/lider"[1];
        }
      }
    }
  }

  /** The sidebar header: "Olá, <name>" only with a non-empty name, and the
      church logo when there is no photo. */
  function Greeting(props: SidebarProps): (g: Option<string>)
    ensures g.Some? <==> Present(props.userNome)
    ensures g.Some? ==> g.value == "Olá, " + props.userNome.value
  {
    if Present(props.userNome) then Some("Olá, " + props.userNome.value) else None
  }

  function Avatar(props: SidebarProps): (src: string)
    ensures Present(props.fotoUrl) ==> src == props.fotoUrl.value
    ensures !Present(props.fotoUrl) ==> src == "/logo_eclesia.png"
  {
    if Present(props.fotoUrl) then props.fotoUrl.value else "/logo_eclesia.png"
  }

  // ---------------------------------------------------------------------
  // Admin layout

  datatype AdminNavButton = AdminNavButton(path: string, caption: string, highlighted: bool)

  const AdminNavItems := [
    ("/admin", "Dashboard"), ("/admin/members", "Membros"), ("/admin/analytics", "Analytics"),
    ("/admin/courses", "Cursos"), ("/admin/events", "Eventos"), ("/admin/materials", "Materiais"),
    ("/admin/prayers", "Orações")]

  class AdminLayout {
    const browser: Browser
    /** The admitted user; `None` while the guard has not admitted anyone. */
    var user: Option<StoredUser>

    /** Mounting runs the guard: without a token or a stored user it goes to
        the login page; a stored user that is not an administrator goes to the
        member area; an administrator is admitted. */
    constructor (b: Browser, parse: string -> StoredUser)
      modifies b
      ensures browser == b && b.token == old(b.token) && b.userData == old(b.userData)
      ensures !Present(b.token) || !Present(b.userData) ==> user.None? && b.location == "/login"
      ensures Present(b.token) && Present(b.userData) && !OrFalse(parse(b.userData.value).isAdmin) ==>
                user.None? && b.location == "/membro"
      ensures Present(b.token) && Present(b.userData) && OrFalse(parse(b.userData.value).isAdmin) ==>
                user == Some(parse(b.userData.value)) && b.location == old(b.location)
    {
      browser := b;
      user := None;
      new;
      if !Present(b.token) || !Present(b.userData) {
        b.Navigate("/login");
        return;
      }
      var parsed := parse(b.userData.value);
      if !OrFalse(parsed.isAdmin) {
        b.Navigate("/membro");
        return;
      }
      user := Some(parsed);
    }

    /** The navigation bar: nothing while no user is admitted, otherwise the
        seven admin pages, each highlighted exactly on its own path. */
    function NavBar(location: string): (bar: Option<seq<AdminNavButton>>)
      reads this
      ensures bar.None? <==> user.None?
      ensures bar.Some? ==> |bar.value| == |AdminNavItems| == 7
      ensures bar.Some? ==> forall k :: 0 <= k < |bar.value| ==>
                bar.value[k].path == AdminNavItems[k].0 && bar.value[k].caption == AdminNavItems[k].1
                && (bar.value[k].highlighted <==> location == AdminNavItems[k].0)
    {
      if user.None? then None
      else Some(seq(|AdminNavItems|, k requires 0 <= k < |AdminNavItems| =>
        AdminNavButton(AdminNavItems[k].0, AdminNavItems[k].1, location == AdminNavItems[k].0)))
    }

    /** The "Sair" button. */
    method Logout()
      modifies browser
      ensures browser.token.None? && browser.userData.None? && browser.location == "/"
    {
      browser.Logout();
    }
  }

  /** The admin paths are distinct, so at most one button is highlighted. */
  lemma AdminPathsDistinct()
    ensures forall i, j :: 0 <= i < j < |AdminNavItems| ==> AdminNavItems[i].0 != AdminNavItems[j].0
  {
  }

  // ---------------------------------------------------------------------
  // Member layout

  class MemberLayout {
    const browser: Browser
    var user: Option<StoredUser>

    /** Mounting runs the guard: without a token or a stored user it goes to
        the login page; anyone else is admitted, administrators included. */
    constructor (b: Browser, parse: string -> StoredUser)
      modifies b
      ensures browser == b && b.token == old(b.token) && b.userData == old(b.userData)
      ensures !Present(b.token) || !Present(b.userData) ==> user.None? && b.location == "/login"
      ensures Present(b.token) && Present(b.userData) ==>
                user == Some(parse(b.userData.value)) && b.location == old(b.location)
    {
      browser := b;
      user := None;
      new;
      if !Present(b.token) || !Present(b.userData) {
        b.Navigate("/login");
        return;
      }
      user := Some(parse(b.userData.value));
    }

    /** The sidebar's properties: only the name and the leader flag are
        passed; nothing while no user is admitted. */
    function Props(): (p: Option<SidebarProps>)
      reads this
      ensures p.None? <==> user.None?
      ensures p.Some? ==> p.value.userNome == Some(user.value.nome) && p.value.isLider == user.value.isLider
      ensures p.Some? ==> p.value.isAdmin.None? && p.value.isObreiro.None? && p.value.isLouvor.None?
                          && p.value.fotoUrl.None?
    {
      if user.None? then None
      else Some(SidebarProps(Some(user.value.nome), user.value.isLider, None, None, None, None))
    }

    /** Through this layout the sidebar only ever shows the six fixed pages,
        and no admin link even for an administrator. */
    method Sidebar(location: string) returns (items: seq<NavItem>, adminLink: Option<bool>)
      requires user.Some?
      ensures items == BaseItems
      ensures adminLink.None?
    {
      var props := Props().value;
      items := MenuItems(props);
      adminLink := AdminLink(props, location);
    }
  }
}

=== FILE: query_client.dfy ===
/** The browser side of every API call (client/src/lib/queryClient.ts): the
    headers and body of a request, the error raised for a response that is not
    ok, the 204 case, the query URL built from a query key and the 401 policy
    of query functions.

    `fetch` is a function parameter from the request sent to the response
    received; the stored token is an input (null is `None`); request data
    arrives as its JSON text, and only when it is truthy. Whether a body is
    valid JSON is a predicate given as a parameter: `res.json()` rejects a
    body that is not, and a parsed result carries the body text. */
module QueryClient {
  import opened Common
  import Routes

  datatype Header = Header(name: string, value: string)

  datatype Request = Request(verb: string, url: string, headers: seq<Header>, body: Option<string>)

  datatype HttpResponse = HttpResponse(status: int, statusText: string, text: string)

  /** Response.ok: a status in the 200 range. */
  predicate Ok(res: HttpResponse)
  {
    200 <= res.status <= 299
  }

  /** What a request flow hands back to its caller: a parsed body, nothing
      (204), null, the error it throws for a failed response, or the
      rejection of `res.json()` for a successful body that is not JSON. */
  datatype Outcome = Parsed(text: string) | NoContent | Null | Failed(message: string) | NotJson

  /** The value of the first header called `name`, if any. */
  function HeaderValue(headers: seq<Header>, name: string): Option<string>
  {
    if headers == [] then None
    else if headers[0].name == name then Some(headers[0].value)
    else HeaderValue(headers[1..], name)
  }

  /** throwIfResNotOk: the message of the error thrown for a response that is
      not ok, `<status>: <body text>`, falling back to the status text when
      the body is empty; None when the response is ok. */
  function ResponseError(res: HttpResponse): (e: Option<string>)
    ensures e.None? <==> Ok(res)
    ensures e.Some? ==> StartsWith(e.value, IntToString(res.status) + ": ")
    ensures e.Some? && res.text != "" ==> e.value[|IntToString(res.status)| + 2..] == res.text
    ensures e.Some? && res.text == "" ==> e.value[|IntToString(res.status)| + 2..] == res.statusText
  {
    if Ok(res) then None
    else
      var prefix := IntToString(res.status) + ": ";
      var text := if res.text != "" then res.text else res.statusText;
      assert (prefix + text)[..|prefix|] == prefix;
      Some(prefix + text)
  }

  lemma {:induction false} IntToStringNoColon(n: int)
    ensures ':' !in IntToString(n)
  {
    var s := IntToString(n);
    if n < 0 {
      assert s == "-" + NatToString(-n);
      forall k | 0 <= k < |s| ensures s[k] != ':' {
        if k > 0 {
          assert s[k] == NatToString(-n)[k - 1];
        }
      }
    }
  }

  /** The status can be read back from an error message: it is everything
      before the first ':'. */
  lemma ErrorMessageNamesStatus(res: HttpResponse)
    requires !Ok(res)
    ensures Split(ResponseError(res).value, ':')[0] == IntToString(res.status)
  {
    var prefix := IntToString(res.status);
    var text := if res.text != "" then res.text else res.statusText;
    IntToStringNoColon(res.status);
    assert ResponseError(res).value == prefix + [':'] + (" " + text);
    IndexOfConcat(prefix, ':', " " + text);
  }

  // ---------------------------------------------------------------------
  // apiRequest

  const JsonContentType := Header("Content-Type", "application/json")

  function Authorization(token: Option<string>): (h: seq<Header>)
    ensures Present(token) ==> h == [Header("Authorization", "Bearer " + token.value)]
    ensures !Present(token) ==> h == []
  {
    if Present(token) then [Header("Authorization", "Bearer " + token.value)] else []
  }

  /** The request apiRequest sends: a JSON content type only with data, an
      Authorization header only with a stored token, the data as the body. */
  function ApiRequestFor(verb: string, url: string, data: Option<string>, token: Option<string>): (r: Request)
    ensures r.verb == verb && r.url == url && r.body == data
    ensures HeaderValue(r.headers, "Content-Type") == (if data.Some? then Some("application/json") else None)
    ensures HeaderValue(r.headers, "Authorization") == (if Present(token) then Some("Bearer " + token.value) else None)
    ensures |r.headers| <= 2
  {
    var auth := Authorization(token);
    var headers := (if data.Some? then [JsonContentType] else []) + auth;
    assert data.Some? ==> headers[1..] == auth;
    Request(verb, url, headers, data)
  }

  /** A stored token the client sends is the token the server's middleware
      extracts from the request. */
  lemma SentTokenIsExtracted(verb: string, url: string, data: Option<string>, token: string)
    requires token != "" && ' ' !in token
    ensures Routes.BearerToken(HeaderValue(ApiRequestFor(verb, url, data, Some(token)).headers, "Authorization")) == Some(token)
  {
    Routes.BearerTokenRoundTrip(token);
  }

  /** apiRequest: send, throw on a response that is not ok, answer nothing on
      204 and the parsed body otherwise. */
  method ApiRequest(verb: string, url: string, data: Option<string>, token: Option<string>,
                    fetch: Request -> HttpResponse, isJson: string -> bool)
    returns (r: Outcome)
    ensures var res := fetch(ApiRequestFor(verb, url, data, token));
            && (!Ok(res) ==> r == Failed(ResponseError(res).value))
            && (Ok(res) && res.status == 204 ==> r == NoContent)
            && (Ok(res) && res.status != 204 && isJson(res.text) ==> r == Parsed(res.text))
            && (Ok(res) && res.status != 204 && !isJson(res.text) ==> r == NotJson)
    ensures !r.Null?
  {
    var request := ApiRequestFor(verb, url, data, token);
    var res := fetch(request);
    var error := ResponseError(res);
    if error.Some? {
      return Failed(error.value);
    }
    if res.status == 204 {
      return NoContent;
    }
    if !isJson(res.text) {
      return NotJson;
    }
    return Parsed(res.text);
  }

  // ---------------------------------------------------------------------
  // apiUpload

  /** The error body of a failed upload: not JSON at all, or an object with or
      without a `message`. */
  datatype UploadErrorBody = Unparsable | ErrorObject(message: Option<string>)

  const UnknownUploadError := "An unknown error occurred"
  const UploadFailed := "Failed to upload file"

  function UploadError(b: UploadErrorBody): (m: string)
    ensures m != ""
    ensures b.Unparsable? ==> m == UnknownUploadError
    ensures b.ErrorObject? && Present(b.message) ==> m == b.message.value
    ensures b.ErrorObject? && !Present(b.message) ==> m == UploadFailed
  {
    match b
    case Unparsable => UnknownUploadError
    case ErrorObject(message) => if Present(message) then message.value else UploadFailed
  }

  /** apiUpload: a POST of the form data with only the Authorization header. */
  method ApiUpload(url: string, form: string, token: Option<string>,
                   fetch: Request -> HttpResponse, errorBody: HttpResponse -> UploadErrorBody,
                   isJson: string -> bool)
    returns (r: Outcome)
    ensures var res := fetch(Request("POST", url, Authorization(token), Some(form)));
            && (!Ok(res) ==> r == Failed(UploadError(errorBody(res))))
            && (Ok(res) && isJson(res.text) ==> r == Parsed(res.text))
            && (Ok(res) && !isJson(res.text) ==> r == NotJson)
  {
    var headers := [];
    if Present(token) {
      headers := headers + [Header("Authorization", "Bearer " + token.value)];
    }
    assert headers == Authorization(token);
    var res := fetch(Request("POST", url, headers, Some(form)));
    if !Ok(res) {
      return Failed(UploadError(errorBody(res)));
    }
    if !isJson(res.text) {
      return NotJson;
    }
    return Parsed(res.text);
  }

  // ---------------------------------------------------------------------
  // getQueryFn

  datatype UnauthorizedBehavior = ReturnNull | Throw

  /** The URL a query key stands for: its elements joined with "/". */
  function QueryUrl(queryKey: seq<string>): (url: string)
    ensures |queryKey| == 1 ==> url == queryKey[0]
  {
    Join(queryKey, "/")
  }

  /** A key one element longer names a sub-path of the shorter key's URL. */
  lemma {:induction false} QueryUrlExtends(queryKey: seq<string>, part: string)
    requires queryKey != []
    ensures QueryUrl(queryKey + [part]) == QueryUrl(queryKey) + "/" + part
  {
    var k := queryKey + [part];
    if |queryKey| > 1 {
      assert k[1..] == queryKey[1..] + [part];
      QueryUrlExtends(queryKey[1..], part);
    }
  }

  /** The request a query function sends: a GET of the key's URL with only
      the Authorization header. */
  function QueryRequest(queryKey: seq<string>, token: Option<string>): (r: Request)
    ensures r.url == QueryUrl(queryKey) && r.body.None?
    ensures HeaderValue(r.headers, "Content-Type").None?
    ensures HeaderValue(r.headers, "Authorization") == (if Present(token) then Some("Bearer " + token.value) else None)
  {
    Request("GET", QueryUrl(queryKey), Authorization(token), None)
  }

  /** A query function: with on401 "returnNull" a 401 yields null; any other
      response that is not ok is an error; an ok one is parsed. */
  method QueryFn(on401: UnauthorizedBehavior, queryKey: seq<string>, token: Option<string>,
                 fetch: Request -> HttpResponse, isJson: string -> bool)
    returns (r: Outcome)
    ensures var res := fetch(QueryRequest(queryKey, token));
            && (on401 == ReturnNull && res.status == 401 ==> r == Null)
            && (!(on401 == ReturnNull && res.status == 401) && !Ok(res) ==> r == Failed(ResponseError(res).value))
            && (Ok(res) && isJson(res.text) ==> r == Parsed(res.text))
            && (Ok(res) && !isJson(res.text) ==> r == NotJson)
    ensures r.Null? ==> on401 == ReturnNull
    ensures !r.NoContent?
  {
    var res := fetch(QueryRequest(queryKey, token));
    if on401 == ReturnNull && res.status == 401 {
      return Null;
    }
    var error := ResponseError(res);
    if error.Some? {
      return Failed(error.value);
    }
    if !isJson(res.text) {
      return NotJson;
    }
    return Parsed(res.text);
  }
}

=== FILE: routes.dfy ===
/** The HTTP layer of the server (server/routes.ts): the two middlewares
    (bearer-token authentication and the admin check), the route table with
    the middlewares each route runs, and the handlers whose decision chains
    carry the application's rules: login, the member administration and the
    lesson and prayer-request handlers.

    Token signing and verification and password comparison are parameters:
    `verify` gives the user id a valid token carries, `sign` the token issued
    for a user id, `matches(plain, hashed)` the outcome of the password
    comparison. A request body is `None` when it does not have the shape the
    schema expects. An id in a request path is the text of the path segment,
    read with `parseInt` and no radix (so "0x5" is 5); when that gives NaN
    the database refuses the query (an integer column takes no NaN) and the
    handler's catch answers 500. */
module Routes {
  import opened Common
  import opened Schema
  import opened Storage
  import opened JsNumber

  // ---------------------------------------------------------------------
  // Responses

  /** A user as sent to clients: every column except the password hash. */
  datatype PublicUser = PublicUser(
    id: int,
    nome: string,
    email: string,
    dataNascimento: Option<string>,
    profissao: Option<string>,
    endereco: Option<string>,
    bairro: Option<string>,
    cidade: Option<string>,
    isAdmin: bool,
    createdAt: int)

  datatype Body =
    | Message(message: string)
    | UserJson(user: PublicUser)
    | UserList(users: seq<PublicUser>)
    | Session(sessionUser: PublicUser, token: string)
    | LessonJson(lesson: Lesson)
    | PrayerJson(prayer: PrayerRequest)
    | EmptyBody

  datatype Response = Response(status: int, body: Body)

  const InvalidData := Response(400, Message("Dados inválidos"))
  const InvalidCredentials := Response(401, Message("Email ou senha inválidos"))
  const NoToken := Response(401, Message("Token não fornecido"))
  const BadToken := Response(403, Message("Token inválido"))
  const NotAdmin := Response(403, Message("Acesso negado. Requer permissões de administrador."))
  const EmailTaken := Response(400, Message("Email já cadastrado"))

  /** `const { senha, ...rest } = user`: the user without its password. */
  function WithoutPassword(u: User): (p: PublicUser)
    ensures p.id == u.id && p.email == u.email && p.nome == u.nome && p.isAdmin == u.isAdmin
  {
    PublicUser(u.id, u.nome, u.email, u.dataNascimento, u.profissao, u.endereco,
               u.bairro, u.cidade, u.isAdmin, u.createdAt)
  }

  function WithPassword(p: PublicUser, senha: string): User
  {
    User(p.id, p.nome, p.email, senha, p.dataNascimento, p.profissao, p.endereco,
         p.bairro, p.cidade, p.isAdmin, p.createdAt)
  }

  /** Stripping loses the password and nothing else: putting it back gives
      the original row. */
  lemma StripRestore(u: User)
    ensures WithPassword(WithoutPassword(u), u.senha) == u
  {
  }

  /** Two users differing only in their password look the same to clients. */
  lemma StripHidesPassword(u: User, senha: string)
    ensures WithoutPassword(u.(senha := senha)) == WithoutPassword(u)
  {
  }

  function MapWithoutPassword(us: seq<User>): (ps: seq<PublicUser>)
    ensures |ps| == |us|
    ensures forall i :: 0 <= i < |us| ==> ps[i] == WithoutPassword(us[i])
  {
    if us == [] then [] else [WithoutPassword(us[0])] + MapWithoutPassword(us[1..])
  }

  // ---------------------------------------------------------------------
  // Middlewares

  /** `authHeader && authHeader.split(' ')[1]`, kept only when truthy: the
      second space-separated word of a non-empty header. */
  function BearerToken(header: Option<string>): (t: Option<string>)
    ensures t.Some? ==> t.value != "" && ' ' !in t.value
    ensures t.Some? <==> header.Some? && header.value != ""
                         && |Split(header.value, ' ')| >= 2 && Split(header.value, ' ')[1] != ""
  {
    if header.None? || header.value == "" then None
    else
      var words := Split(header.value, ' ');
      if |words| < 2 || words[1] == "" then None else Some(words[1])
  }

  /** The header a client builds, `Bearer <token>`, yields the token back. */
  lemma BearerTokenRoundTrip(token: string)
    requires token != "" && ' ' !in token
    ensures BearerToken(Some("Bearer " + token)) == Some(token)
  {
    assert "Bearer " + token == Join(["Bearer", token], [' ']);
    SplitJoin(["Bearer", token], ' ');
  }

  /** A scheme word alone, or a header with nothing after the space, carries
      no token. */
  lemma SchemeWithoutToken()
    ensures BearerToken(Some("Bearer")) == None
    ensures BearerToken(Some("Bearer ")) == None
    ensures BearerToken(None) == None
  {
    SplitNoSeparator("Bearer", ' ');
    SplitAfterFirst("Bearer", ' ', "");
    SplitNoSeparator("", ' ');
  }

  datatype Gate = Next(userId: int) | Halt(response: Response)

  /** authenticateToken: 401 without a token, 403 when verification fails,
      otherwise the request goes on carrying the token's user id. */
  function Authenticate(header: Option<string>, verify: string -> Option<int>): (g: Gate)
    ensures g.Halt? && g.response.status == 401 <==> BearerToken(header).None?
    ensures g.Halt? && g.response.status == 403 <==>
              BearerToken(header).Some? && verify(BearerToken(header).value).None?
    ensures g.Next? <==> BearerToken(header).Some? && verify(BearerToken(header).value).Some?
    ensures g.Next? ==> g.userId == verify(BearerToken(header).value).value
    ensures g.Halt? ==> g.response == NoToken || g.response == BadToken
  {
    match BearerToken(header) {
      case None => Halt(NoToken)
      case Some(token) =>
        match verify(token) {
          case None => Halt(BadToken)
          case Some(uid) => Next(uid)
        }
    }
  }

  /** requireAdmin: goes on only for an existing administrator. */
  function RequireAdmin(user: Option<User>, userId: int): (g: Gate)
    ensures g.Next? <==> user.Some? && user.value.isAdmin
    ensures g.Next? ==> g.userId == userId
    ensures g.Halt? ==> g.response == NotAdmin
  {
    if user.None? || !user.value.isAdmin then Halt(NotAdmin) else Next(userId)
  }

  // ---------------------------------------------------------------------
  // The route table

  datatype Middleware = AuthenticateToken | AdminOnly
  datatype Verb = GET | POST | PATCH | DELETE
  datatype Route = Route(verb: Verb, path: string, chain: seq<Middleware>)

  const Member: seq<Middleware> := [AuthenticateToken]
  const Admin: seq<Middleware> := [AuthenticateToken, AdminOnly]

  const AdminPrefix := "/api/admin/"

  function AdminRoute(verb: Verb, rest: string): (r: Route)
    ensures StartsWith(r.path, AdminPrefix) && r.chain == Admin
  {
    Route(verb, AdminPrefix + rest, Admin)
  }

  /** The routes that need no token: login, the public event list and the
      two public prayer routes. */
  const PublicRoutes: seq<Route> := [
    Route(POST, "/api/auth/login", []),
    Route(GET, "/api/events/public", []),
    Route(POST, "/api/prayers", []),
    Route(GET, "/api/prayers/public", [])
  ]

  const MemberRoutes: seq<Route> := [
    Route(GET, "/api/courses", Member),
    Route(GET, "/api/courses/:id/lessons", Member),
    Route(GET, "/api/materials", Member)
  ]

  const AdminRoutes: seq<Route> := [
    AdminRoute(GET, "members"),
    AdminRoute(POST, "members"),
    AdminRoute(PATCH, "members/:id/toggle-admin"),
    AdminRoute(DELETE, "members/:id"),
    AdminRoute(POST, "courses"),
    AdminRoute(DELETE, "courses/:id"),
    AdminRoute(POST, "lessons"),
    AdminRoute(DELETE, "lessons/:id"),
    AdminRoute(GET, "events"),
    AdminRoute(POST, "events"),
    AdminRoute(DELETE, "events/:id"),
    AdminRoute(POST, "materials"),
    AdminRoute(DELETE, "materials/:id"),
    AdminRoute(GET, "prayers"),
    AdminRoute(PATCH, "prayers/:id"),
    AdminRoute(DELETE, "prayers/:id")
  ]

  const Routes: seq<Route> := PublicRoutes + MemberRoutes + AdminRoutes

  lemma AdminRoutesGuarded()
    ensures forall r :: r in AdminRoutes ==> StartsWith(r.path, AdminPrefix) && r.chain == Admin
  {
    forall i | 0 <= i < |AdminRoutes| ensures StartsWith(AdminRoutes[i].path, AdminPrefix) && AdminRoutes[i].chain == Admin {
    }
  }

  lemma OtherRoutesOutsideAdmin()
    ensures forall r :: r in PublicRoutes + MemberRoutes ==> !StartsWith(r.path, AdminPrefix) && AdminOnly !in r.chain
  {
    var rs := PublicRoutes + MemberRoutes;
    forall i | 0 <= i < |rs| ensures !StartsWith(rs[i].path, AdminPrefix) && AdminOnly !in rs[i].chain {
      assert rs[i].path[6] != AdminPrefix[6];
    }
  }

  /** Every admin route authenticates and then checks the admin flag; no
      other route checks the flag, and the public routes need no token. */
  lemma RouteGuards()
    ensures forall r :: r in Routes && StartsWith(r.path, AdminPrefix) ==> r.chain == Admin
    ensures forall r :: r in Routes && !StartsWith(r.path, AdminPrefix) ==> AdminOnly !in r.chain
    ensures forall r :: r in PublicRoutes ==> r.chain == []
  {
    AdminRoutesGuarded();
    OtherRoutesOutsideAdmin();
    assert forall r :: r in Routes ==> r in PublicRoutes + MemberRoutes || r in AdminRoutes;
  }

  datatype Outcome = Proceed | Stop(response: Response)

  /** Runs a route's middlewares in order; the handler is reached only when
      every middleware called `next`. */
  method RunChain(db: DatabaseStorage, chain: seq<Middleware>, header: Option<string>, verify: string -> Option<int>)
    returns (r: Outcome)
    requires db.Valid()
    requires chain == [] || chain == Member || chain == Admin
    ensures chain == [] ==> r == Proceed
    ensures chain != [] && Authenticate(header, verify).Halt? ==> r == Stop(Authenticate(header, verify).response)
    ensures chain == Member && Authenticate(header, verify).Next? ==> r == Proceed
    ensures chain == Admin && Authenticate(header, verify).Next? ==>
              (r == Proceed <==> exists u :: u in db.users && u.id == Authenticate(header, verify).userId && u.isAdmin)
    ensures r != Proceed ==> r == Stop(NoToken) || r == Stop(BadToken) || r == Stop(NotAdmin)
  {
    if chain == [] {
      return Proceed;
    }
    var auth := Authenticate(header, verify);
    if auth.Halt? {
      return Stop(auth.response);
    }
    if chain == Member {
      return Proceed;
    }
    var user := db.GetUserById(auth.userId);
    if user.Some? {
      UniqueKey(db.users, UserId, user.value);
    }
    var admin := RequireAdmin(user, auth.userId);
    if admin.Halt? {
      return Stop(admin.response);
    }
    r := Proceed;
  }

  // ---------------------------------------------------------------------
  // Handlers

  /** POST /api/auth/login. An unknown e-mail and a wrong password get the
      very same 401 response. */
  method Login(db: DatabaseStorage, body: Option<LoginCredentials>,
               matches: (string, string) -> bool, sign: int -> string)
    returns (res: Response)
    requires db.Valid()
    ensures body.None? || CheckLogin(body.value) != [] ==> res == InvalidData
    ensures body.Some? && CheckLogin(body.value) == [] ==>
              ((forall u :: u in db.users && u.email == body.value.email ==> !matches(body.value.senha, u.senha))
               <==> res == InvalidCredentials)
    ensures res.status == 200 <==>
              (body.Some? && CheckLogin(body.value) == [] &&
               exists u :: u in db.users && u.email == body.value.email && matches(body.value.senha, u.senha))
    ensures res.status == 200 ==>
              (res.body.Session? && res.body.sessionUser.email == body.value.email &&
               exists u :: u in db.users && res.body == Session(WithoutPassword(u), sign(u.id)))
  {
    if body.None? || CheckLogin(body.value) != [] {
      return InvalidData;
    }
    var credentials := body.value;
    var user := db.GetUserByEmail(credentials.email);
    if user.None? {
      return InvalidCredentials;
    }
    if !matches(credentials.senha, user.value.senha) {
      UniqueKey(db.users, UserEmail, user.value);
      return InvalidCredentials;
    }
    res := Response(200, Session(WithoutPassword(user.value), sign(user.value.id)));
  }

  /** GET /api/admin/members: every user, without passwords. */
  method ListMembers(db: DatabaseStorage) returns (res: Response)
    ensures res == Response(200, UserList(MapWithoutPassword(db.users)))
  {
    var users := db.GetAllUsers();
    res := Response(200, UserList(MapWithoutPassword(users)));
  }

  /** POST /api/admin/members. A body failing the schema gets 400 "Dados
      inválidos" and a taken address 400 "Email já cadastrado", both without
      touching storage; otherwise the user is stored with a hashed password
      and returned, without it, with 201. */
  method CreateMember(db: DatabaseStorage, body: Option<InsertUser>, hash: string -> string, now: int)
    returns (res: Response)
    requires db.Valid()
    modifies db
    ensures db.Valid()
    ensures body.None? || CheckInsertUser(body.value) != [] ==>
              res == InvalidData && db.users == old(db.users) && db.nextUserId == old(db.nextUserId)
    ensures body.Some? && CheckInsertUser(body.value) == [] && (exists u :: u in old(db.users) && u.email == body.value.email) ==>
              res == EmailTaken && db.users == old(db.users) && db.nextUserId == old(db.nextUserId)
    ensures body.Some? && CheckInsertUser(body.value) == [] && (forall u :: u in old(db.users) ==> u.email != body.value.email) ==>
              var row := NewUser(body.value, old(db.nextUserId), now, hash(body.value.senha));
              res == Response(201, UserJson(WithoutPassword(row))) && db.users == old(db.users) + [row]
              && db.nextUserId == old(db.nextUserId) + 1
    ensures unchanged(db`events, db`courses, db`lessons, db`materials, db`prayers)
  {
    if body.None? || CheckInsertUser(body.value) != [] {
      return InvalidData;
    }
    var userData := body.value;
    var existing := db.GetUserByEmail(userData.email);
    if existing.Some? {
      return EmailTaken;
    }
    var created := db.CreateUser(userData, hash, now);
    res := Response(201, UserJson(WithoutPassword(created.row)));
  }

  /** PATCH /api/admin/members/:id/toggle-admin. An id that is not a number
      fails the query, and an id naming no user makes the password stripping
      fail on the missing row: 500 either way, with nothing changed. */
  method ToggleAdmin(db: DatabaseStorage, idParam: string, isAdmin: bool) returns (res: Response)
    requires db.Valid()
    modifies db`users
    ensures db.Valid()
    ensures ParseIntAuto(idParam).None? ==>
              res == Response(500, Message("Erro ao atualizar permissões")) && db.users == old(db.users)
    ensures ParseIntAuto(idParam).Some? ==> db.users == SetAdmin(old(db.users), ParseIntAuto(idParam).value, isAdmin)
    ensures ParseIntAuto(idParam).Some? && (forall u :: u in old(db.users) ==> u.id != ParseIntAuto(idParam).value) ==>
              res == Response(500, Message("Erro ao atualizar permissões")) && db.users == old(db.users)
    ensures ParseIntAuto(idParam).Some? && (exists u :: u in old(db.users) && u.id == ParseIntAuto(idParam).value) ==>
              res.status == 200 && res.body.UserJson? && res.body.user.id == ParseIntAuto(idParam).value
              && res.body.user.isAdmin == isAdmin
  {
    var parsed := ParseIntAuto(idParam);
    if parsed.None? {
      return Response(500, Message("Erro ao atualizar permissões"));
    }
    var id := parsed.value;
    var updated := db.UpdateUserAdmin(id, isAdmin);
    if updated.None? {
      SetAdminMissing(old(db.users), id, isAdmin);
      return Response(500, Message("Erro ao atualizar permissões"));
    }
    res := Response(200, UserJson(WithoutPassword(updated.value)));
  }

  /** An update naming no row changes nothing. */
  lemma {:induction false} SetAdminMissing(us: seq<User>, id: int, isAdmin: bool)
    requires forall u :: u in us ==> u.id != id
    ensures SetAdmin(us, id, isAdmin) == us
  {
    if us != [] {
      assert us[0] in us;
      assert forall u :: u in us[1..] ==> u in us;
      SetAdminMissing(us[1..], id, isAdmin);
    }
  }

  /** DELETE /api/admin/members/:id: 204 whether or not the user existed;
      500 with nothing deleted for an id that is not a number. */
  method DeleteMember(db: DatabaseStorage, idParam: string) returns (res: Response)
    requires db.Valid()
    modifies db`users
    ensures db.Valid()
    ensures ParseIntAuto(idParam).None? ==>
              res == Response(500, Message("Erro ao deletar membro")) && db.users == old(db.users)
    ensures ParseIntAuto(idParam).Some? ==>
              res == Response(204, EmptyBody)
              && db.users == Filter(old(db.users), (u: User) => u.id != ParseIntAuto(idParam).value)
  {
    var parsed := ParseIntAuto(idParam);
    if parsed.None? {
      return Response(500, Message("Erro ao deletar membro"));
    }
    db.DeleteUser(parsed.value);
    res := Response(204, EmptyBody);
  }

  /** POST /api/admin/lessons: a body of the wrong shape gets 400; a lesson
      for a course that does not exist is refused by the database, which the
      handler reports as 500. */
  method CreateLessonHandler(db: DatabaseStorage, body: Option<InsertLesson>, now: int) returns (res: Response)
    requires db.Valid()
    modifies db`lessons, db`nextLessonId
    ensures db.Valid()
    ensures body.None? ==> res == InvalidData && db.lessons == old(db.lessons) && db.nextLessonId == old(db.nextLessonId)
    ensures body.Some? && body.value.cursoId !in CourseIds(db.courses) ==>
              res == Response(500, Message("Erro ao criar aula")) && db.lessons == old(db.lessons)
              && db.nextLessonId == old(db.nextLessonId) + 1
    ensures body.Some? && body.value.cursoId in CourseIds(db.courses) ==>
              res == Response(201, LessonJson(NewLesson(body.value, old(db.nextLessonId), now)))
              && db.lessons == old(db.lessons) + [res.body.lesson] && db.nextLessonId == old(db.nextLessonId) + 1
  {
    if body.None? {
      return InvalidData;
    }
    var created := db.CreateLesson(body.value, now);
    match created {
      case Rejected(_) => res := Response(500, Message("Erro ao criar aula"));
      case Inserted(row) => res := Response(201, LessonJson(row));
    }
  }

  /** POST /api/prayers needs no token; a body of the wrong shape gets 400. */
  method CreatePrayerHandler(db: DatabaseStorage, body: Option<InsertPrayerRequest>, now: int) returns (res: Response)
    requires db.Valid()
    modifies db`prayers, db`nextPrayerId
    ensures db.Valid()
    ensures body.None? ==> res == InvalidData && db.prayers == old(db.prayers)
    ensures body.Some? ==>
              res == Response(201, PrayerJson(NewPrayerRequest(body.value, old(db.nextPrayerId), now)))
              && db.prayers == old(db.prayers) + [res.body.prayer]
              && res.body.prayer.status == DefaultPrayerStatus
  {
    if body.None? {
      return InvalidData;
    }
    var created := db.CreatePrayerRequest(body.value, now);
    res := Response(201, PrayerJson(created));
  }

  /** PATCH /api/admin/prayers/:id: the body is not validated; an id naming
      no request answers `res.json(undefined)`, a 200 with an empty body, and
      an id that is not a number fails the query: 500. */
  method UpdatePrayerHandler(db: DatabaseStorage, idParam: string, status: string, isPublic: bool) returns (res: Response)
    requires db.Valid()
    modifies db`prayers
    ensures db.Valid()
    ensures ParseIntAuto(idParam).None? ==>
              res == Response(500, Message("Erro ao atualizar pedido")) && db.prayers == old(db.prayers)
    ensures ParseIntAuto(idParam).Some? ==>
              && db.prayers == SetPrayerStatus(old(db.prayers), ParseIntAuto(idParam).value, status, isPublic)
              && res.status == 200
              && (res.body == EmptyBody <==> forall p :: p in old(db.prayers) ==> p.id != ParseIntAuto(idParam).value)
              && (res.body.PrayerJson? ==> res.body.prayer.id == ParseIntAuto(idParam).value
                                           && res.body.prayer.status == status && res.body.prayer.isPublic == isPublic)
  {
    var parsed := ParseIntAuto(idParam);
    if parsed.None? {
      return Response(500, Message("Erro ao atualizar pedido"));
    }
    var id := parsed.value;
    UpdatedPrayerReturned(db.prayers, id, status, isPublic);
    var updated := db.UpdatePrayerRequestStatus(id, status, isPublic);
    if updated.None? {
      return Response(200, EmptyBody);
    }
    res := Response(200, PrayerJson(updated.value));
  }
}

=== FILE: schedules.dfy ===
/** Schedules and their assignments as the client pages receive them. The
    shared schema defines no schedule table, so these records are built from
    the fields the pages read: a schedule of one ministry ("louvor" or
    "obreiros") on a date, and one assignment per position, each naming the
    user assigned (or nobody). */
module Schedules {
  import opened Common

  /** The assigned user as joined in by the server: only its id and name are read. */
  datatype AssignedUser = AssignedUser(id: int, nome: string)

  datatype Assignment = Assignment(
    id: int, scheduleId: int, posicao: string, userId: Option<int>, user: Option<AssignedUser>)

  /** `assignments` may be missing from a schedule row. */
  datatype Schedule = Schedule(
    id: int, mes: int, ano: int, tipo: string, data: string,
    observacoes: Option<string>, assignments: Option<seq<Assignment>>)

  /** The signed-in user as `/api/auth/me` returns it to the schedule and
      navigation pages: the ministry and leader flags are read from it,
      though the shared schema declares none of them, so each may be missing. */
  datatype SessionUser = SessionUser(
    id: int, nome: string, isAdmin: bool, isLider: Option<bool>,
    ministerioLouvor: Option<bool>, ministerioObreiro: Option<bool>)

  const Louvor := "louvor"
  const Obreiros := "obreiros"

  /** The six louvor positions, in the order every page lists them. */
  const LouvorPositions: seq<string> := ["teclado", "violao", "baixo", "bateria", "voz", "backing"]

  /** `schedule.assignments || []`. */
  function AssignmentsOf(s: Schedule): seq<Assignment>
  {
    if s.assignments.Some? then s.assignments.value else []
  }

  function OfTipo(tipo: string): Schedule -> bool
  {
    (s: Schedule) => s.tipo == tipo
  }

  /** The schedules of one ministry, in their original order. */
  function SchedulesOf(ss: seq<Schedule>, tipo: string): (r: seq<Schedule>)
    ensures forall s :: s in r <==> s in ss && s.tipo == tipo
    ensures IsSubsequence(r, ss)
  {
    FilterIsSubsequence(ss, OfTipo(tipo));
    Filter(ss, OfTipo(tipo))
  }

  /** The louvor and obreiros lists never share a schedule, and together they
      hold every schedule of either ministry. */
  lemma MinistriesPartition(ss: seq<Schedule>)
    ensures forall s :: s in SchedulesOf(ss, Louvor) ==> s !in SchedulesOf(ss, Obreiros)
    ensures |SchedulesOf(ss, Louvor)| + |SchedulesOf(ss, Obreiros)| <= |ss|
  {
    CountDisjoint(ss, OfTipo(Louvor), OfTipo(Obreiros));
  }

  /** Position labels; an unknown position shows its own key, a known one a
      caption of its own that differs from the key. */
  function PositionLabel(posicao: string): (l: string)
    ensures posicao !in LouvorPositions ==> l == posicao
    ensures posicao in LouvorPositions ==> l != posicao && l != ""
    ensures posicao == "teclado" ==> l == "Teclado"
    ensures posicao == "violao" ==> l == "Violão"
    ensures posicao == "baixo" ==> l == "Baixo"
    ensures posicao == "bateria" ==> l == "Bateria"
    ensures posicao == "voz" ==> l == "Voz"
    ensures posicao == "backing" ==> l == "Backing Vocal"
  {
    if posicao == "teclado" then "Teclado"
    else if posicao == "violao" then "Violão"
    else if posicao == "baixo" then "Baixo"
    else if posicao == "bateria" then "Bateria"
    else if posicao == "voz" then "Voz"
    else if posicao == "backing" then "Backing Vocal"
    else posicao
  }

  /** No two positions share a caption, so a label names one position. */
  lemma PositionLabelsDistinct(p: string, q: string)
    requires p in LouvorPositions && q in LouvorPositions && p != q
    ensures PositionLabel(p) != PositionLabel(q)
  {
  }
}

=== FILE: schema.dfy ===
/** Table rows, insert payloads, column defaults and the validation schemas
    shared by the server and the client (shared/schema.ts).

    Row identifiers and creation timestamps are assigned by the database; the
    insert payloads therefore have no `id` and no `createdAt` field at all.
    Dates are integer day numbers and timestamps integers; a birth date is kept
    as the text the database returns ("YYYY-MM-DD"). */
module Schema {
  import opened Common

  datatype User = User(
    id: int,
    nome: string,
    email: string,
    senha: string,
    dataNascimento: Option<string>,
    profissao: Option<string>,
    endereco: Option<string>,
    bairro: Option<string>,
    cidade: Option<string>,
    isAdmin: bool,
    createdAt: int)

  datatype Event = Event(
    id: int, titulo: string, descricao: string, data: int, local: string,
    imagem: Option<string>, createdAt: int)

  datatype Course = Course(
    id: int, nome: string, descricao: string, imagem: Option<string>, createdAt: int)

  datatype Lesson = Lesson(
    id: int, cursoId: int, titulo: string, descricao: string, videoUrl: string,
    ordem: int, createdAt: int)

  datatype Material = Material(
    id: int, titulo: string, descricao: Option<string>, arquivoUrl: string,
    tipo: string, createdAt: int)

  /** The prayer-request row, with the fields the storage layer and the admin
      page read and write. */
  datatype PrayerRequest = PrayerRequest(
    id: int, nome: string, email: Option<string>, pedido: string,
    status: string, isPublic: bool, createdAt: int)

  // ---------------------------------------------------------------------
  // Insert payloads: every column except `id` and `createdAt`; a column with
  // a database default is optional.

  datatype InsertUser = InsertUser(
    nome: string,
    email: string,
    senha: string,
    dataNascimento: Option<string>,
    profissao: Option<string>,
    endereco: Option<string>,
    bairro: Option<string>,
    cidade: Option<string>,
    isAdmin: Option<bool>)

  datatype InsertEvent = InsertEvent(
    titulo: string, descricao: string, data: int, local: string, imagem: Option<string>)

  datatype InsertCourse = InsertCourse(nome: string, descricao: string, imagem: Option<string>)

  datatype InsertLesson = InsertLesson(
    cursoId: int, titulo: string, descricao: string, videoUrl: string, ordem: Option<int>)

  datatype InsertMaterial = InsertMaterial(
    titulo: string, descricao: Option<string>, arquivoUrl: string, tipo: Option<string>)

  datatype InsertPrayerRequest = InsertPrayerRequest(
    nome: string, email: Option<string>, pedido: string, isPublic: Option<bool>)

  datatype LoginCredentials = LoginCredentials(email: string, senha: string)

  // ---------------------------------------------------------------------
  // Defaults

  const DefaultIsAdmin := false
  const DefaultOrdem := 0
  const DefaultTipo := "pdf"
  const DefaultPrayerStatus := "pending"

  /** The row the database stores for an accepted user insert. */
  function NewUser(data: InsertUser, id: int, now: int, hashed: string): (u: User)
    ensures u.id == id && u.createdAt == now && u.senha == hashed
    ensures u.email == data.email && u.nome == data.nome
    ensures u.dataNascimento == data.dataNascimento && u.profissao == data.profissao
    ensures u.endereco == data.endereco && u.bairro == data.bairro && u.cidade == data.cidade
    ensures data.isAdmin.None? ==> u.isAdmin == DefaultIsAdmin
    ensures data.isAdmin.Some? ==> u.isAdmin == data.isAdmin.value
  {
    User(id, data.nome, data.email, hashed, data.dataNascimento, data.profissao,
         data.endereco, data.bairro, data.cidade,
         match data.isAdmin { case None => DefaultIsAdmin case Some(b) => b }, now)
  }

  function NewEvent(data: InsertEvent, id: int, now: int): (e: Event)
    ensures e.id == id && e.createdAt == now
    ensures e.titulo == data.titulo && e.data == data.data
    ensures e.descricao == data.descricao && e.local == data.local && e.imagem == data.imagem
  {
    Event(id, data.titulo, data.descricao, data.data, data.local, data.imagem, now)
  }

  function NewCourse(data: InsertCourse, id: int, now: int): (c: Course)
    ensures c.id == id && c.createdAt == now && c.nome == data.nome
    ensures c.descricao == data.descricao && c.imagem == data.imagem
  {
    Course(id, data.nome, data.descricao, data.imagem, now)
  }

  function NewLesson(data: InsertLesson, id: int, now: int): (l: Lesson)
    ensures l.id == id && l.createdAt == now && l.cursoId == data.cursoId
    ensures l.titulo == data.titulo && l.descricao == data.descricao && l.videoUrl == data.videoUrl
    ensures data.ordem.None? ==> l.ordem == DefaultOrdem
    ensures data.ordem.Some? ==> l.ordem == data.ordem.value
  {
    Lesson(id, data.cursoId, data.titulo, data.descricao, data.videoUrl,
           match data.ordem { case None => DefaultOrdem case Some(o) => o }, now)
  }

  function NewMaterial(data: InsertMaterial, id: int, now: int): (m: Material)
    ensures m.id == id && m.createdAt == now && m.arquivoUrl == data.arquivoUrl
    ensures m.titulo == data.titulo && m.descricao == data.descricao
    ensures data.tipo.None? ==> m.tipo == DefaultTipo
    ensures data.tipo.Some? ==> m.tipo == data.tipo.value
  {
    Material(id, data.titulo, data.descricao, data.arquivoUrl,
             match data.tipo { case None => DefaultTipo case Some(t) => t }, now)
  }

  function NewPrayerRequest(data: InsertPrayerRequest, id: int, now: int): (p: PrayerRequest)
    ensures p.id == id && p.createdAt == now && p.status == DefaultPrayerStatus
    ensures p.nome == data.nome && p.email == data.email && p.pedido == data.pedido
    ensures p.isPublic == (data.isPublic == Some(true))
  {
    PrayerRequest(id, data.nome, data.email, data.pedido, DefaultPrayerStatus,
                  match data.isPublic { case None => false case Some(b) => b }, now)
  }

  // ---------------------------------------------------------------------
  // Validation

  /** An approximation of the e-mail check of the validation library: one '@'
      with a non-empty local part before it, a domain after it that contains a
      '.' neither at its start nor at its end, and no space anywhere. */
  predicate ValidEmail(s: string)
  {
    var i := IndexOf(s, '@');
    && 0 < i < |s| - 1
    && '@' !in s[i + 1..]
    && ' ' !in s
    && '.' in s[i + 1..]
    && s[i + 1] != '.'
    && s[|s| - 1] != '.'
  }

  datatype SchemaError = TooShort(field: string, min: nat) | InvalidEmail(field: string)

  /** insertUserSchema: `nome` at least 2 characters, a valid `email`, `senha`
      at least 6 characters. Every failing rule is reported, in column order. */
  function CheckInsertUser(data: InsertUser): (issues: seq<SchemaError>)
    ensures issues == [] <==> (|data.nome| >= 2 && |data.senha| >= 6 && ValidEmail(data.email))
    ensures TooShort("nome", 2) in issues <==> |data.nome| < 2
    ensures InvalidEmail("email") in issues <==> !ValidEmail(data.email)
    ensures TooShort("senha", 6) in issues <==> |data.senha| < 6
    ensures |issues| <= 3
  {
    (if |data.nome| < 2 then [TooShort("nome", 2)] else [])
    + (if !ValidEmail(data.email) then [InvalidEmail("email")] else [])
    + (if |data.senha| < 6 then [TooShort("senha", 6)] else [])
  }

  /** loginSchema: a valid e-mail and a non-empty password. */
  function CheckLogin(c: LoginCredentials): (issues: seq<SchemaError>)
    ensures issues == [] <==> (ValidEmail(c.email) && |c.senha| >= 1)
    ensures TooShort("senha", 1) in issues <==> c.senha == ""
    ensures InvalidEmail("email") in issues <==> !ValidEmail(c.email)
  {
    (if !ValidEmail(c.email) then [InvalidEmail("email")] else [])
    + (if |c.senha| < 1 then [TooShort("senha", 1)] else [])
  }

  /** Any password accepted for a new user is also accepted by the login schema. */
  lemma InsertUserPasswordPassesLogin(data: InsertUser)
    requires CheckInsertUser(data) == []
    ensures CheckLogin(LoginCredentials(data.email, data.senha)) == []
  {
  }
}

=== FILE: server_log.dfy ===
/** The server's own plumbing around the routes (server/index.ts): the line it
    logs for every finished API request, the status and message the error
    handler answers with, and the port it listens on.

    The clock is left out: a request's duration arrives as a number. The
    captured JSON body arrives as its serialised text, and only when it is
    truthy, because a falsy body is never appended. */
module ServerLog {
  import opened Common
  import opened JsNumber

  /** Only request paths starting with "/api" are logged; the test is on
      the text, so "/apidocs" is logged too. */
  function ShouldLog(path: string): (b: bool)
    ensures b <==> |path| >= 4 && path[..4] == "/api"
  {
    StartsWith(path, "/api")
  }

  /** Every path that extends "/api", the API routes among them, is logged. */
  lemma ApiPathsLogged(rest: string)
    ensures ShouldLog("/api" + rest)
  {
    assert ("/api" + rest)[..4] == "/api";
  }

  /** What comes before the duration: "METHOD path status in ". */
  function LogLead(verb: string, path: string, status: nat): string
  {
    verb + " " + path + " " + NatToString(status) + " in "
  }

  /** The log line before truncation: the lead, the duration's decimal text
      and "ms", followed by " :: " and the captured body when there is one. */
  function LogLine(verb: string, path: string, status: nat, duration: int, captured: Option<string>): (r: string)
    ensures var lead := LogLead(verb, path, status);
            var d := IntToString(duration);
            && StartsWith(r, lead)
            && |r| >= |lead| + |d| + 2
            && r[|lead|..|lead| + |d|] == d
            && r[|lead| + |d|..|lead| + |d| + 2] == "ms"
            && (captured.None? <==> |r| == |lead| + |d| + 2)
    ensures captured.Some? ==> |r| >= |captured.value| + 4 && r[|r| - |captured.value| - 4..] == " :: " + captured.value
  {
    var lead := LogLead(verb, path, status);
    var d := IntToString(duration);
    var head := lead + d + "ms";
    var tail := if captured.Some? then " :: " + captured.value else "";
    var line := head + tail;
    assert line[..|head|] == head;
    assert head[..|lead|] == lead;
    assert head[|lead|..|lead| + |d|] == d;
    assert head[|lead| + |d|..] == "ms";
    assert line[..|lead|] == lead;
    assert line[|lead|..|lead| + |d|] == d;
    assert line[|lead| + |d|..|lead| + |d| + 2] == "ms";
    line
  }

  /** The duration field of a logged line reads back as the duration in
      milliseconds. */
  lemma LogDurationReadsBack(verb: string, path: string, status: nat, duration: nat, captured: Option<string>)
    ensures var lead := LogLead(verb, path, status);
            var r := LogLine(verb, path, status, duration, captured);
            ParseInt(r[|lead|..|lead| + |IntToString(duration)|]) == Some(duration)
  {
    var lead := LogLead(verb, path, status);
    var r := LogLine(verb, path, status, duration, captured);
    var d := IntToString(duration);
    assert d == NatToString(duration);
    assert r[|lead|..|lead| + |d|] == d;
    ParseDigits(d);
    NatToStringValue(duration);
  }

  const MaxLogLength := 80
  const Ellipsis := '…'

  /** A line longer than 80 characters is cut to its first 79 and an ellipsis. */
  function Truncate(line: string): (r: string)
    ensures |r| <= MaxLogLength
    ensures |line| <= MaxLogLength ==> r == line
    ensures |line| > MaxLogLength ==> |r| == MaxLogLength && r[..MaxLogLength - 1] == line[..MaxLogLength - 1] && r[MaxLogLength - 1] == Ellipsis
  {
    if |line| > MaxLogLength then line[..MaxLogLength - 1] + [Ellipsis] else line
  }

  /** Truncating a logged line again leaves it as it is. */
  lemma TruncateIdempotent(line: string)
    ensures Truncate(Truncate(line)) == Truncate(line)
  {
  }

  /** The "finish" listener: for an API path it builds the line, appends the
      captured body, then truncates; other paths log nothing. */
  method LogOnFinish(verb: string, path: string, status: nat, duration: int, captured: Option<string>)
    returns (logged: Option<string>)
    ensures logged.None? <==> !ShouldLog(path)
    ensures logged.Some? ==> |logged.value| <= MaxLogLength
    ensures logged.Some? ==> logged.value == Truncate(LogLine(verb, path, status, duration, captured))
  {
    if !StartsWith(path, "/api") {
      return None;
    }
    var logLine := LogLead(verb, path, status) + IntToString(duration) + "ms";
    if captured.Some? {
      logLine := logLine + " :: " + captured.value;
    } else {
      assert logLine == logLine + "";
    }
    assert logLine == LogLine(verb, path, status, duration, captured);
    if |logLine| > 80 {
      logLine := logLine[..79] + "…";
    }
    return Some(logLine);
  }

  // ---------------------------------------------------------------------
  // Error handler

  /** JavaScript truthiness of an optional number: present and not zero. */
  predicate TruthyInt(o: Option<int>)
  {
    o.Some? && o.value != 0
  }

  /** `err.status || err.statusCode || 500`. */
  function ErrorStatus(status: Option<int>, statusCode: Option<int>): (r: int)
    ensures r != 0
    ensures TruthyInt(status) ==> r == status.value
    ensures !TruthyInt(status) && TruthyInt(statusCode) ==> r == statusCode.value
    ensures !TruthyInt(status) && !TruthyInt(statusCode) ==> r == 500
  {
    if TruthyInt(status) then status.value
    else if TruthyInt(statusCode) then statusCode.value
    else 500
  }

  const DefaultErrorMessage := "Internal Server Error"

  /** `err.message || "Internal Server Error"`: never an empty message. */
  function ErrorMessage(message: Option<string>): (r: string)
    ensures r != ""
    ensures Present(message) ==> r == message.value
    ensures !Present(message) ==> r == DefaultErrorMessage
  {
    if Present(message) then message.value else DefaultErrorMessage
  }

  // ---------------------------------------------------------------------
  // Port

  const DefaultPort := "5000"

  /** `parseInt(process.env.PORT || '5000', 10)`. */
  function Port(env: Option<string>): (r: Option<int>)
    ensures !Present(env) ==> r == ParseInt(DefaultPort)
    ensures Present(env) ==> r == ParseInt(env.value)
  {
    ParseInt(if Present(env) then env.value else DefaultPort)
  }

  /** A PORT holding the decimal digits of a number is that number. */
  lemma PortRoundTrip(n: nat)
    ensures Port(Some(NatToString(n))) == Some(n)
  {
    ParseDigits(NatToString(n));
    NatToStringValue(n);
  }

  /** Without PORT (unset or empty) the server listens on 5000. */
  lemma PortDefault(env: Option<string>)
    requires !Present(env)
    ensures Port(env) == Some(5000)
  {
    assert DefaultPort == NatToString(5000);
    PortRoundTrip(5000);
  }

  /** A PORT that does not start with a digit, a sign or white space parses to NaN. */
  lemma PortNotANumber(v: string)
    requires v != [] && !IsDigitChar(v[0]) && !IsJsWhitespace(v[0]) && v[0] != '-' && v[0] != '+'
    ensures Port(Some(v)) == None
  {
  }
}

=== FILE: storage.dfy ===
/** The storage layer of the server (server/storage.ts): one in-memory
    sequence per database table, one identity counter per table, and the
    operations of DatabaseStorage. The database's own guarantees are part of
    the object invariant: identifiers are unique per table, no two users share
    an e-mail address (a unique column) and every lesson refers to an existing
    course (a foreign key with ON DELETE CASCADE). An insert that would break
    one of the last two fails with a database error, as the database would. */
module Storage {
  import opened Common
  import opened Schema
  import opened Analytics

  datatype DbError = UniqueViolation | ForeignKeyViolation
  datatype Inserted<T> = Inserted(row: T) | Rejected(error: DbError)

  function UserId(u: User): int { u.id }
  function UserEmail(u: User): string { u.email }
  function EventId(e: Event): int { e.id }
  function CourseId(c: Course): int { c.id }
  function LessonId(l: Lesson): int { l.id }
  function MaterialId(m: Material): int { m.id }
  function PrayerId(p: PrayerRequest): int { p.id }

  /** Every identifier in the table was handed out before `next`. */
  ghost predicate KeysBelow<T>(s: seq<T>, key: T -> int, next: int)
  {
    forall x :: x in s ==> key(x) < next
  }

  function CourseIds(cs: seq<Course>): set<int>
  {
    set c | c in cs :: c.id
  }

  ghost predicate LessonsReferToCourses(ls: seq<Lesson>, cs: seq<Course>)
  {
    forall l :: l in ls ==> l.cursoId in CourseIds(cs)
  }

  /** The invariant of one table with an identity column. */
  ghost predicate TableValid<T>(s: seq<T>, key: T -> int, next: int)
  {
    KeysDistinct(s, key) && KeysBelow(s, key, next)
  }

  /** The users table after `UPDATE users SET is_admin = isAdmin WHERE id = id`. */
  function SetAdmin(us: seq<User>, id: int, isAdmin: bool): (r: seq<User>)
    ensures |r| == |us|
    ensures forall k :: 0 <= k < |us| && us[k].id == id ==> r[k] == us[k].(isAdmin := isAdmin)
    ensures forall k :: 0 <= k < |us| && us[k].id != id ==> r[k] == us[k]
  {
    if us == [] then []
    else [if us[0].id == id then us[0].(isAdmin := isAdmin) else us[0]] + SetAdmin(us[1..], id, isAdmin)
  }

  /** The prayer table after `UPDATE ... SET status, is_public WHERE id = id`. */
  function SetPrayerStatus(ps: seq<PrayerRequest>, id: int, status: string, isPublic: bool): (r: seq<PrayerRequest>)
    ensures |r| == |ps|
    ensures forall k :: 0 <= k < |ps| ==> r[k].(status := ps[k].status, isPublic := ps[k].isPublic) == ps[k]
    ensures forall k :: 0 <= k < |ps| && ps[k].id == id ==> r[k].status == status && r[k].isPublic == isPublic
    ensures forall k :: 0 <= k < |ps| && ps[k].id != id ==> r[k] == ps[k]
    ensures forall k :: 0 <= k < |ps| ==> PrayerId(r[k]) == PrayerId(ps[k])
  {
    if ps == [] then []
    else [if ps[0].id == id then ps[0].(status := status, isPublic := isPublic) else ps[0]]
         + SetPrayerStatus(ps[1..], id, status, isPublic)
  }

  /** Changing the admin flag keeps the user table's keys, and so its invariant. */
  lemma SetAdminKeepsKeys(us: seq<User>, id: int, isAdmin: bool, next: int)
    requires TableValid(us, UserId, next) && KeysDistinct(us, UserEmail)
    ensures TableValid(SetAdmin(us, id, isAdmin), UserId, next)
    ensures KeysDistinct(SetAdmin(us, id, isAdmin), UserEmail)
  {
    var r := SetAdmin(us, id, isAdmin);
    SameKeysTable(us, r, UserId, next);
    SameKeys(us, r, UserEmail);
  }

  /** Changing a request's status keeps the prayer table's keys, and so its invariant. */
  lemma SetPrayerStatusKeepsKeys(ps: seq<PrayerRequest>, id: int, status: string, isPublic: bool, next: int)
    requires TableValid(ps, PrayerId, next)
    ensures TableValid(SetPrayerStatus(ps, id, status, isPublic), PrayerId, next)
  {
    SameKeysTable(ps, SetPrayerStatus(ps, id, status, isPublic), PrayerId, next);
  }

  function PrayerById(id: int): PrayerRequest -> bool
  {
    (p: PrayerRequest) => p.id == id
  }

  /** The row `returning` gives back after the status update: the updated
      request, or nothing when no request has that id. */
  lemma UpdatedPrayerReturned(ps: seq<PrayerRequest>, id: int, status: string, isPublic: bool)
    ensures var r := Find(SetPrayerStatus(ps, id, status, isPublic), PrayerById(id));
            && (r.Some? ==> r.value in SetPrayerStatus(ps, id, status, isPublic) && r.value.id == id
                            && r.value.status == status && r.value.isPublic == isPublic)
            && (r.None? <==> forall p :: p in ps ==> p.id != id)
  {
    var u := SetPrayerStatus(ps, id, status, isPublic);
    var r := Find(u, PrayerById(id));
    if r.Some? {
      var k :| 0 <= k < |u| && u[k] == r.value;
      assert PrayerId(u[k]) == PrayerId(ps[k]);
    }
    if exists p :: p in ps && p.id == id {
      var p :| p in ps && p.id == id;
      var k :| 0 <= k < |ps| && ps[k] == p;
      assert PrayerId(u[k]) == PrayerId(ps[k]);
      assert u[k] in u;
    }
    if r.None? {
      forall p | p in ps ensures p.id != id {
        var k :| 0 <= k < |ps| && ps[k] == p;
        assert PrayerId(u[k]) == PrayerId(ps[k]);
        assert u[k] in u;
      }
    }
  }

  /** The updated user is found exactly when it was there before, and it
      has the new flag. */
  lemma SetAdminFinds(us: seq<User>, id: int, isAdmin: bool)
    ensures (exists u :: u in SetAdmin(us, id, isAdmin) && u.id == id) <==> (exists u :: u in us && u.id == id)
    ensures forall u :: u in SetAdmin(us, id, isAdmin) && u.id == id ==> u.isAdmin == isAdmin
  {
    var r := SetAdmin(us, id, isAdmin);
    forall u | u in r && u.id == id ensures u.isAdmin == isAdmin {
      var k :| 0 <= k < |r| && r[k] == u;
    }
    if exists u :: u in us && u.id == id {
      var u :| u in us && u.id == id;
      var k :| 0 <= k < |us| && us[k] == u;
      assert r[k] in r;
    }
    if exists u :: u in r && u.id == id {
      var u :| u in r && u.id == id;
      var k :| 0 <= k < |r| && r[k] == u;
      assert us[k] in us;
    }
  }

  class DatabaseStorage {
    var users: seq<User>
    var events: seq<Event>
    var courses: seq<Course>
    var lessons: seq<Lesson>
    var materials: seq<Material>
    var prayers: seq<PrayerRequest>
    var nextUserId: int
    var nextEventId: int
    var nextCourseId: int
    var nextLessonId: int
    var nextMaterialId: int
    var nextPrayerId: int

    /** The database's invariant: every table's identifiers are distinct and
        below its sequence's next value, e-mails are unique, and every lesson
        belongs to an existing course. */
    ghost predicate Valid()
      reads this
    {
      UsersValid() && ContentValid() && CoursesValid()
    }

    ghost predicate UsersValid()
      reads this`users, this`nextUserId
    {
      TableValid(users, UserId, nextUserId) && KeysDistinct(users, UserEmail)
    }

    ghost predicate ContentValid()
      reads this`events, this`nextEventId, this`materials, this`nextMaterialId, this`prayers, this`nextPrayerId
    {
      && TableValid(events, EventId, nextEventId)
      && TableValid(materials, MaterialId, nextMaterialId)
      && TableValid(prayers, PrayerId, nextPrayerId)
    }

    ghost predicate CoursesValid()
      reads this`courses, this`nextCourseId, this`lessons, this`nextLessonId
    {
      && TableValid(courses, CourseId, nextCourseId)
      && TableValid(lessons, LessonId, nextLessonId)
      && LessonsReferToCourses(lessons, courses)
    }

    constructor ()
      ensures Valid()
      ensures users == [] && events == [] && courses == [] && lessons == [] && materials == [] && prayers == []
    {
      users, events, courses, lessons, materials, prayers := [], [], [], [], [], [];
      nextUserId, nextEventId, nextCourseId := 1, 1, 1;
      nextLessonId, nextMaterialId, nextPrayerId := 1, 1, 1;
    }

    // -------------------------------------------------------------------
    // Auth and members

    method GetUserByEmail(email: string) returns (r: Option<User>)
      requires Valid()
      ensures r.Some? ==> r.value in users && r.value.email == email
      ensures r.None? <==> forall u :: u in users ==> u.email != email
    {
      r := Find(users, (u: User) => u.email == email);
    }

    method GetUserById(id: int) returns (r: Option<User>)
      ensures r.Some? ==> r.value in users && r.value.id == id
      ensures r.None? <==> forall u :: u in users ==> u.id != id
    {
      r := Find(users, (u: User) => u.id == id);
    }

    method GetAllUsers() returns (r: seq<User>)
      ensures r == users
    {
      r := users;
    }

    /** Stores the user with the hashed password; the unique e-mail column
        rejects a second user with the same address. The identity column
        draws the id before the constraint is checked, so a rejected insert
        has used up its id as well. */
    method CreateUser(data: InsertUser, hash: string -> string, now: int) returns (r: Inserted<User>)
      requires Valid()
      modifies this`users, this`nextUserId
      ensures Valid()
      ensures nextUserId == old(nextUserId) + 1
      ensures (exists u :: u in old(users) && u.email == data.email) ==>
                r == Rejected(UniqueViolation) && users == old(users)
      ensures (forall u :: u in old(users) ==> u.email != data.email) ==>
                r == Inserted(NewUser(data, old(nextUserId), now, hash(data.senha)))
                && users == old(users) + [r.row]
    {
      var existing := Find(users, (u: User) => u.email == data.email);
      if existing.Some? {
        nextUserId := nextUserId + 1;
        return Rejected(UniqueViolation);
      }
      var row := NewUser(data, nextUserId, now, hash(data.senha));
      AppendFresh(users, UserId, row);
      AppendFresh(users, UserEmail, row);
      users := users + [row];
      nextUserId := nextUserId + 1;
      r := Inserted(row);
    }

    method UpdateUserAdmin(id: int, isAdmin: bool) returns (r: Option<User>)
      requires Valid()
      modifies this`users
      ensures Valid()
      ensures users == SetAdmin(old(users), id, isAdmin)
      ensures r.Some? ==> r.value in users && r.value.id == id && r.value.isAdmin == isAdmin
      ensures r.None? <==> forall u :: u in old(users) ==> u.id != id
    {
      SetAdminKeepsKeys(users, id, isAdmin, nextUserId);
      SetAdminFinds(users, id, isAdmin);
      users := SetAdmin(users, id, isAdmin);
      assert Valid();
      r := Find(users, (u: User) => u.id == id);
    }

    method DeleteUser(id: int)
      requires Valid()
      modifies this`users
      ensures Valid()
      ensures users == Filter(old(users), (u: User) => u.id != id)
      ensures forall u :: u in users ==> u.id != id
    {
      FilterKeepsKeys(users, UserId, (u: User) => u.id != id);
      FilterKeepsKeys(users, UserEmail, (u: User) => u.id != id);
      users := Filter(users, (u: User) => u.id != id);
    }

    /** The member statistics, one pass over the members per tally. */
    method GetMemberAnalytics(nowYear: int, birthYear: string -> Option<int>, thirtyDaysAgo: int)
      returns (r: MemberAnalytics)
      ensures r.totalMembers == |users|
      ensures |r.membersByAge| == |AgeGroupLabels|
      ensures forall g :: 0 <= g < |AgeGroupLabels| ==>
                r.membersByAge[g] == KeyCount(AgeGroupLabels[g], Count(users, InAgeGroup(nowYear, birthYear, g)))
      ensures r.membersByNeighborhood == TopTen(Tally(Neighborhoods(users)))
      ensures r.membersByProfession == TopTen(Tally(Professions(users)))
      ensures r.recentMembersCount == Count(users, JoinedSince(thirtyDaysAgo))
    {
      var ages := CountAgeGroups(users, nowYear, birthYear);
      var byNeighborhood := CountNeighborhoods(users);
      var byProfession := CountProfessions(users);
      r := MemberAnalytics(
        |users|,
        Labelled(ages),
        TopTen(byNeighborhood),
        TopTen(byProfession),
        Count(users, JoinedSince(thirtyDaysAgo)));
    }

    // -------------------------------------------------------------------
    // Events

    method GetAllEvents() returns (r: seq<Event>)
      ensures multiset(r) == multiset(events)
      ensures SortedBy(r, EventDate)
    {
      r := SortBy(events, EventDate);
    }

    /** The public listing runs the very same query as the full one. */
    method GetPublicEvents() returns (r: seq<Event>)
      ensures multiset(r) == multiset(events)
      ensures SortedBy(r, EventDate)
    {
      r := SortBy(events, EventDate);
    }

    method CreateEvent(data: InsertEvent, now: int) returns (r: Event)
      requires Valid()
      modifies this`events, this`nextEventId
      ensures Valid()
      ensures r == NewEvent(data, old(nextEventId), now) && events == old(events) + [r]
    {
      r := NewEvent(data, nextEventId, now);
      AppendFresh(events, EventId, r);
      events := events + [r];
      nextEventId := nextEventId + 1;
    }

    method DeleteEvent(id: int)
      requires Valid()
      modifies this`events
      ensures Valid()
      ensures events == Filter(old(events), (e: Event) => e.id != id)
      ensures forall e :: e in events ==> e.id != id
    {
      FilterKeepsKeys(events, EventId, (e: Event) => e.id != id);
      events := Filter(events, (e: Event) => e.id != id);
    }

    // -------------------------------------------------------------------
    // Courses and lessons

    method GetAllCourses() returns (r: seq<Course>)
      ensures r == courses
    {
      r := courses;
    }

    method GetCourseById(id: int) returns (r: Option<Course>)
      ensures r.Some? ==> r.value in courses && r.value.id == id
      ensures r.None? <==> id !in CourseIds(courses)
    {
      r := Find(courses, (c: Course) => c.id == id);
    }

    method CreateCourse(data: InsertCourse, now: int) returns (r: Course)
      requires Valid()
      modifies this`courses, this`nextCourseId
      ensures Valid()
      ensures r == NewCourse(data, old(nextCourseId), now) && courses == old(courses) + [r]
    {
      r := NewCourse(data, nextCourseId, now);
      AppendFresh(courses, CourseId, r);
      courses := courses + [r];
      nextCourseId := nextCourseId + 1;
    }

    /** Deletes the course's lessons, then the course itself. */
    method DeleteCourse(id: int)
      requires Valid()
      modifies this`lessons, this`courses
      ensures Valid()
      ensures lessons == Filter(old(lessons), OutsideCourse(id))
      ensures courses == Filter(old(courses), OtherCourse(id))
      ensures forall l :: l in lessons ==> l.cursoId != id
      ensures id !in CourseIds(courses)
    {
      var keptLessons, keptCourses := Filter(lessons, OutsideCourse(id)), Filter(courses, OtherCourse(id));
      CascadeKeepsTables(lessons, courses, nextLessonId, nextCourseId, id);
      assert UsersValid() && ContentValid();
      lessons, courses := keptLessons, keptCourses;
      assert CoursesValid();
    }

    method GetLessonsByCourseId(courseId: int) returns (r: seq<Lesson>)
      ensures multiset(r) == multiset(Filter(lessons, (l: Lesson) => l.cursoId == courseId))
      ensures forall l :: l in r <==> l in lessons && l.cursoId == courseId
      ensures SortedBy(r, LessonOrdem)
    {
      var mine := Filter(lessons, (l: Lesson) => l.cursoId == courseId);
      r := SortBy(mine, LessonOrdem);
      SameMembers(r, mine);
    }

    /** Inserts a lesson; a `cursoId` naming no course is refused by the
        foreign key, after the identity column has drawn (and so used up)
        the next id. */
    method CreateLesson(data: InsertLesson, now: int) returns (r: Inserted<Lesson>)
      requires Valid()
      modifies this`lessons, this`nextLessonId
      ensures Valid()
      ensures nextLessonId == old(nextLessonId) + 1
      ensures data.cursoId !in CourseIds(courses) ==>
                r == Rejected(ForeignKeyViolation) && lessons == old(lessons)
      ensures data.cursoId in CourseIds(courses) ==>
                r == Inserted(NewLesson(data, old(nextLessonId), now)) && lessons == old(lessons) + [r.row]
    {
      if data.cursoId !in CourseIds(courses) {
        nextLessonId := nextLessonId + 1;
        return Rejected(ForeignKeyViolation);
      }
      var row := NewLesson(data, nextLessonId, now);
      AppendFresh(lessons, LessonId, row);
      lessons := lessons + [row];
      nextLessonId := nextLessonId + 1;
      r := Inserted(row);
    }

    method DeleteLesson(id: int)
      requires Valid()
      modifies this`lessons
      ensures Valid()
      ensures lessons == Filter(old(lessons), (l: Lesson) => l.id != id)
      ensures forall l :: l in lessons ==> l.id != id
    {
      FilterKeepsKeys(lessons, LessonId, (l: Lesson) => l.id != id);
      lessons := Filter(lessons, (l: Lesson) => l.id != id);
    }

    // -------------------------------------------------------------------
    // Materials

    method GetAllMaterials() returns (r: seq<Material>)
      ensures r == materials
    {
      r := materials;
    }

    method CreateMaterial(data: InsertMaterial, now: int) returns (r: Material)
      requires Valid()
      modifies this`materials, this`nextMaterialId
      ensures Valid()
      ensures r == NewMaterial(data, old(nextMaterialId), now) && materials == old(materials) + [r]
    {
      r := NewMaterial(data, nextMaterialId, now);
      AppendFresh(materials, MaterialId, r);
      materials := materials + [r];
      nextMaterialId := nextMaterialId + 1;
    }

    method DeleteMaterial(id: int)
      requires Valid()
      modifies this`materials
      ensures Valid()
      ensures materials == Filter(old(materials), (m: Material) => m.id != id)
      ensures forall m :: m in materials ==> m.id != id
    {
      FilterKeepsKeys(materials, MaterialId, (m: Material) => m.id != id);
      materials := Filter(materials, (m: Material) => m.id != id);
    }

    // -------------------------------------------------------------------
    // Prayer requests

    method GetAllPrayerRequests() returns (r: seq<PrayerRequest>)
      ensures multiset(r) == multiset(prayers)
      ensures SortedBy(r, PrayerCreatedAt)
    {
      r := SortBy(prayers, PrayerCreatedAt);
    }

    method GetPublicPrayerRequests() returns (r: seq<PrayerRequest>)
      ensures multiset(r) == multiset(Filter(prayers, (p: PrayerRequest) => p.isPublic))
      ensures forall p :: p in r <==> p in prayers && p.isPublic
      ensures SortedBy(r, PrayerCreatedAt)
    {
      var open := Filter(prayers, (p: PrayerRequest) => p.isPublic);
      r := SortBy(open, PrayerCreatedAt);
      SameMembers(r, open);
    }

    method CreatePrayerRequest(data: InsertPrayerRequest, now: int) returns (r: PrayerRequest)
      requires Valid()
      modifies this`prayers, this`nextPrayerId
      ensures Valid()
      ensures r == NewPrayerRequest(data, old(nextPrayerId), now) && prayers == old(prayers) + [r]
    {
      r := NewPrayerRequest(data, nextPrayerId, now);
      AppendFresh(prayers, PrayerId, r);
      prayers := prayers + [r];
      nextPrayerId := nextPrayerId + 1;
    }

    /** `UPDATE prayer_requests SET status, is_public WHERE id RETURNING *`:
        the row returned is the first with that id after the update (see
        UpdatedPrayerReturned for what it holds). */
    method UpdatePrayerRequestStatus(id: int, status: string, isPublic: bool) returns (r: Option<PrayerRequest>)
      requires Valid()
      modifies this`prayers
      ensures Valid()
      ensures prayers == SetPrayerStatus(old(prayers), id, status, isPublic)
      ensures r == Find(prayers, PrayerById(id))
    {
      var updated := SetPrayerStatus(prayers, id, status, isPublic);
      SetPrayerStatusKeepsKeys(prayers, id, status, isPublic, nextPrayerId);
      assert UsersValid() && CoursesValid();
      prayers := updated;
      assert ContentValid();
      r := Find(prayers, PrayerById(id));
    }

    method DeletePrayerRequest(id: int)
      requires Valid()
      modifies this`prayers
      ensures Valid()
      ensures prayers == Filter(old(prayers), (p: PrayerRequest) => p.id != id)
      ensures forall p :: p in prayers ==> p.id != id
    {
      FilterKeepsKeys(prayers, PrayerId, (p: PrayerRequest) => p.id != id);
      prayers := Filter(prayers, (p: PrayerRequest) => p.id != id);
    }
  }

  function EventDate(e: Event): int { e.data }
  function LessonOrdem(l: Lesson): int { l.ordem }
  function PrayerCreatedAt(p: PrayerRequest): int { p.createdAt }

  // ---------------------------------------------------------------------
  // The table invariants survive inserts, deletes and updates

  lemma SameKeysTable<T>(s: seq<T>, r: seq<T>, key: T -> int, next: int)
    requires TableValid(s, key, next)
    requires |r| == |s| && forall k :: 0 <= k < |s| ==> key(r[k]) == key(s[k])
    ensures TableValid(r, key, next)
  {
    SameKeys(s, r, key);
  }

  /** Deleting a course together with its lessons keeps every remaining
      lesson attached to a remaining course. */
  /** The rows the cascade of deleting course `id` keeps. */
  function OutsideCourse(id: int): Lesson -> bool
  {
    (l: Lesson) => l.cursoId != id
  }

  function OtherCourse(id: int): Course -> bool
  {
    (c: Course) => c.id != id
  }

  /** Deleting a course with its lessons keeps both tables valid and the
      references intact, and leaves no trace of the course. */
  lemma CascadeKeepsTables(ls: seq<Lesson>, cs: seq<Course>, nextLesson: int, nextCourse: int, id: int)
    requires TableValid(ls, LessonId, nextLesson) && TableValid(cs, CourseId, nextCourse)
    requires LessonsReferToCourses(ls, cs)
    ensures var ls', cs' := Filter(ls, OutsideCourse(id)), Filter(cs, OtherCourse(id));
            && TableValid(ls', LessonId, nextLesson) && TableValid(cs', CourseId, nextCourse)
            && LessonsReferToCourses(ls', cs')
            && (forall l :: l in ls' ==> l.cursoId != id)
            && id !in CourseIds(cs')
  {
    FilterKeepsKeys(ls, LessonId, OutsideCourse(id));
    FilterKeepsKeys(cs, CourseId, OtherCourse(id));
    CascadeKeepsReferences(ls, cs, id);
  }

  lemma CascadeKeepsReferences(ls: seq<Lesson>, cs: seq<Course>, id: int)
    requires LessonsReferToCourses(ls, cs)
    ensures LessonsReferToCourses(Filter(ls, OutsideCourse(id)), Filter(cs, OtherCourse(id)))
  {
    var cs' := Filter(cs, OtherCourse(id));
    forall l | l in Filter(ls, OutsideCourse(id)) ensures l.cursoId in CourseIds(cs') {
      var c :| c in cs && c.id == l.cursoId;
      assert c in cs';
    }
  }

  /** The age-group loop of the statistics. */
  method CountAgeGroups(users: seq<User>, nowYear: int, birthYear: string -> Option<int>) returns (ages: seq<nat>)
    ensures |ages| == |AgeGroupLabels|
    ensures forall g :: 0 <= g < |AgeGroupLabels| ==> ages[g] == Count(users, InAgeGroup(nowYear, birthYear, g))
  {
    ages := [0, 0, 0, 0, 0, 0];
    var i := 0;
    while i < |users|
      invariant 0 <= i <= |users|
      invariant ages == AgeGroupCounts(users[..i], nowYear, birthYear)
    {
      assert users[..i + 1][..i] == users[..i];
      var g := AgeGroupOf(users[i], nowYear, birthYear);
      if g.Some? {
        ages := ages[g.value := ages[g.value] + 1];
      }
      i := i + 1;
    }
    assert users[..i] == users;
    forall g | 0 <= g < |AgeGroupLabels|
      ensures ages[g] == Count(users, InAgeGroup(nowYear, birthYear, g))
    {
      AgeGroupCountsExact(users, nowYear, birthYear, g);
    }
  }

  /** The neighbourhood loop of the statistics. */
  method CountNeighborhoods(users: seq<User>) returns (counts: seq<KeyCount>)
    ensures counts == Tally(Neighborhoods(users))
  {
    counts := [];
    var i := 0;
    while i < |users|
      invariant 0 <= i <= |users|
      invariant counts == Tally(Neighborhoods(users[..i]))
    {
      assert users[..i + 1] == users[..i] + [users[i]];
      NeighborhoodsAppend(users[..i], users[i]);
      ghost var seen := Neighborhoods(users[..i]);
      if Present(users[i].bairro) {
        assert Neighborhoods(users[..i + 1]) == seen + [users[i].bairro.value];
        TallyAppend(seen, users[i].bairro.value);
        counts := Bump(counts, users[i].bairro.value);
      } else {
        assert Neighborhoods(users[..i + 1]) == seen;
      }
      i := i + 1;
    }
    assert users[..i] == users;
  }

  /** The profession loop of the statistics. */
  method CountProfessions(users: seq<User>) returns (counts: seq<KeyCount>)
    ensures counts == Tally(Professions(users))
  {
    counts := [];
    var i := 0;
    while i < |users|
      invariant 0 <= i <= |users|
      invariant counts == Tally(Professions(users[..i]))
    {
      assert users[..i + 1] == users[..i] + [users[i]];
      ProfessionsAppend(users[..i], users[i]);
      ghost var seen := Professions(users[..i]);
      if Present(users[i].profissao) {
        assert Professions(users[..i + 1]) == seen + [users[i].profissao.value];
        TallyAppend(seen, users[i].profissao.value);
        counts := Bump(counts, users[i].profissao.value);
      } else {
        assert Professions(users[..i + 1]) == seen;
      }
      i := i + 1;
    }
    assert users[..i] == users;
  }

  /** After a course is deleted, listing its lessons yields nothing. */
  method DeleteCourseThenList(s: DatabaseStorage, id: int) returns (r: seq<Lesson>)
    requires s.Valid()
    modifies s
    ensures r == []
  {
    s.DeleteCourse(id);
    r := s.GetLessonsByCourseId(id);
    FilterNone(s.lessons, (l: Lesson) => l.cursoId == id);
    assert |r| == |multiset(r)|;
  }
}

=== FILE: youtube.dfy ===
/** getYouTubeEmbedUrl, written identically in the member course and member
    video pages (client/src/pages/member-courses.tsx and
    client/src/pages/member-videos.tsx).

    The regular expression `(?:youtube\.com\/watch\?v=|youtu\.be\/)([^&]+)` is
    modelled as the search it performs: at the leftmost position where one of
    the two literal prefixes is followed by at least one character other than
    '&', the video id is the longest run of such characters. The two prefixes
    differ at their sixth character, so at most one of them starts at any
    position. */
module YouTube {
  import opened Common

  const WatchPrefix := "youtube.com/watch?v="
  const ShortPrefix := "youtu.be/"
  const EmbedBase := "https://www.youtube.com/embed/"

  /** The run of characters before the first '&' (the `[^&]+` group, greedy). */
  function IdRun(s: string): (id: string)
    ensures |id| <= |s| && id == s[..|id|]
    ensures '&' !in id
    ensures |id| == |s| || s[|id|] == '&'
  {
    s[..IndexOf(s, '&')]
  }

  /** A match that starts at the first character of `s`. */
  function MatchHere(s: string): (m: Option<string>)
    ensures m.Some? ==> m.value != "" && '&' !in m.value
    ensures m.Some? ==> StartsWith(s, WatchPrefix + m.value) || StartsWith(s, ShortPrefix + m.value)
  {
    if StartsWith(s, WatchPrefix) && IdRun(s[|WatchPrefix|..]) != "" then
      var id := IdRun(s[|WatchPrefix|..]);
      assert s[..|WatchPrefix| + |id|] == WatchPrefix + id;
      Some(id)
    else if StartsWith(s, ShortPrefix) && IdRun(s[|ShortPrefix|..]) != "" then
      var id := IdRun(s[|ShortPrefix|..]);
      assert s[..|ShortPrefix| + |id|] == ShortPrefix + id;
      Some(id)
    else None
  }

  /** The captured video id of the leftmost match, if any. */
  function VideoId(s: string): (m: Option<string>)
    ensures m.Some? ==> m.value != "" && '&' !in m.value
    ensures m.Some? ==> Contains(s, WatchPrefix + m.value) || Contains(s, ShortPrefix + m.value)
  {
    if s == [] then None
    else match MatchHere(s)
      case Some(id) => Some(id)
      case None => VideoId(s[1..])
  }

  /** The embed URL for a recognised YouTube link, the link itself otherwise. */
  function EmbedUrl(url: string): (r: string)
    ensures VideoId(url).Some? ==> r == EmbedBase + VideoId(url).value
    ensures VideoId(url).None? ==> r == url
  {
    match VideoId(url)
    case Some(id) => EmbedBase + id
    case None => url
  }

  /** A URL that contains neither prefix is returned as it is. */
  lemma {:induction false} NoPrefixUnchanged(url: string)
    requires !Contains(url, WatchPrefix) && !Contains(url, ShortPrefix)
    ensures EmbedUrl(url) == url
  {
    NoPrefixNoId(url);
  }

  lemma {:induction false} NoPrefixNoId(s: string)
    requires !Contains(s, WatchPrefix) && !Contains(s, ShortPrefix)
    ensures VideoId(s) == None
  {
    if s != [] {
      NoPrefixNoId(s[1..]);
    }
  }

  /** The id after a watch prefix at the start of the link runs up to the
      first '&'. */
  lemma WatchLink(id: string, rest: string)
    requires id != "" && '&' !in id && (rest == "" || rest[0] == '&')
    ensures EmbedUrl(WatchPrefix + id + rest) == EmbedBase + id
  {
    var s := WatchPrefix + id + rest;
    assert s[..|WatchPrefix|] == WatchPrefix;
    assert s[|WatchPrefix|..] == id + rest;
    IdRunStops(id, rest);
  }

  /** The same for a short youtu.be link. */
  lemma ShortLink(id: string, rest: string)
    requires id != "" && '&' !in id && (rest == "" || rest[0] == '&')
    ensures EmbedUrl(ShortPrefix + id + rest) == EmbedBase + id
  {
    var s := ShortPrefix + id + rest;
    assert s[..|ShortPrefix|] == ShortPrefix;
    assert s[|ShortPrefix|..] == id + rest;
    assert !StartsWith(s, WatchPrefix) by {
      if |s| >= |WatchPrefix| {
        assert s[5] != WatchPrefix[5];
      }
    }
    IdRunStops(id, rest);
  }

  lemma {:induction false} IdRunStops(id: string, rest: string)
    requires '&' !in id && (rest == "" || rest[0] == '&')
    ensures IdRun(id + rest) == id
  {
    var s := id + rest;
    assert s[..|id|] == id;
    if rest == "" {
      assert s == id;
    } else {
      assert s[|id|] == '&';
      var i := IndexOf(s, '&');
      assert i <= |id| by {
        assert s[..|id| + 1] == id + ['&'];
        assert '&' in s[..|id| + 1];
      }
    }
  }

  /** Characters before the match that start no match are skipped. */
  lemma {:induction false} SkipLead(pre: string, s: string)
    requires forall k :: 0 <= k < |pre| ==> MatchHere((pre + s)[k..]).None?
    ensures VideoId(pre + s) == VideoId(s)
  {
    if pre != [] {
      var t := pre + s;
      assert t[0..] == t;
      assert MatchHere(t).None?;
      assert VideoId(t) == VideoId(t[1..]);
      assert t[1..] == pre[1..] + s;
      forall k | 0 <= k < |pre| - 1 ensures MatchHere((pre[1..] + s)[k..]).None? {
        assert (pre[1..] + s)[k..] == (pre + s)[k + 1..];
      }
      SkipLead(pre[1..], s);
    } else {
      assert pre + s == s;
    }
  }

  /** A watch link after any scheme and host text without a 'y' (such as
      "https://www.") embeds its id. */
  lemma HostedWatchLink(host: string, id: string, rest: string)
    requires 'y' !in host
    requires id != "" && '&' !in id && (rest == "" || rest[0] == '&')
    ensures EmbedUrl(host + WatchPrefix + id + rest) == EmbedBase + id
  {
    var tail := WatchPrefix + id + rest;
    assert host + WatchPrefix + id + rest == host + tail;
    HostSkipped(host, tail);
    WatchLink(id, rest);
  }

  /** The same for a youtu.be link after a scheme such as "https://". */
  lemma HostedShortLink(host: string, id: string, rest: string)
    requires 'y' !in host
    requires id != "" && '&' !in id && (rest == "" || rest[0] == '&')
    ensures EmbedUrl(host + ShortPrefix + id + rest) == EmbedBase + id
  {
    var tail := ShortPrefix + id + rest;
    assert host + ShortPrefix + id + rest == host + tail;
    HostSkipped(host, tail);
    ShortLink(id, rest);
  }

  lemma HostSkipped(host: string, tail: string)
    requires 'y' !in host
    ensures VideoId(host + tail) == VideoId(tail)
  {
    var t := host + tail;
    forall k | 0 <= k < |host| ensures MatchHere(t[k..]).None? {
      assert t[k..][0] == host[k];
      NoMatchWithoutY(t[k..]);
    }
    SkipLead(host, tail);
  }

  /** Both prefixes start with 'y'. */
  lemma NoMatchWithoutY(u: string)
    requires u != [] && u[0] != 'y'
    ensures MatchHere(u).None?
  {
    assert !StartsWith(u, WatchPrefix) by {
      if |WatchPrefix| <= |u| {
        assert u[..|WatchPrefix|][0] == u[0];
      }
    }
    assert !StartsWith(u, ShortPrefix) by {
      if |ShortPrefix| <= |u| {
        assert u[..|ShortPrefix|][0] == u[0];
      }
    }
  }
}
